=== FILE: README.md ===
# RKM replay catalogue, modelled in Dafny

RKM keeps a catalogue of fighting-game replays. Each replay is a row with a
video link, a file name, a timestamp, a unique file code (`ufc`, "UFC-" and
four characters), a description, a recorded flag, a renamed file name, the
date it was added and a comma-separated tag string. A second table, the
recycle bin, holds soft-deleted rows with their deletion date. A one-row
table holds the database code (UDC) that goes into systematic file names.
Around this store the desktop application has:

- a table view with a search, tag (ANY/ALL) and recorded filter;
- a naming policy: a character-name sanitizer, the systematic name
  `{character}_{ufc}_UDC-{code}_{MM-DD-YYYY_HH-MM-SS}` and a renamer that
  picks the first free `_1`, `_2`, ... path;
- dialogs for the recycle bin, find/replace, the rename character, tags and
  alt characters;
- helpers: a portrait-file name cleaner, the portrait lookup and cache, a
  quote pool, and a preferences document.

The model is functional. Each table is a sequence of immutable rows in
insertion order, and every store operation is a function from catalogue to
catalogue. An operation that SQLite would abort returns a `Result` whose
error case carries no partial state. The clock, uuids, `random.choice`, the
file system and the user's answers to message boxes are parameters.

Modules and files:

| module | file | models |
|---|---|---|
| `Results` | results.dfy | `Option` and `Result` |
| `Seqs` | seqs.dfy | filtering and counting sequences |
| `Text` | text.dfy | the Python string methods the code uses (ASCII `lower`, `strip`, `split`, `in`), decimal text, string order, sorted sets |
| `Stamps` | stamps.dfy | the two `strftime` layouts and their order |
| `TagStrings` | tags.dfy | splitting and joining tag strings |
| `Store` | store.dfy | core/database.py |
| `TableFilter` | filter.dfy | ui/widgets/replay_table.py and the main window's filter actions |
| `FindReplace` | findreplace.dfy | the find/replace dialog, with SQLite `LIKE` and `REPLACE` |
| `RecycleBin` | recyclebin.dfy | the recycle-bin dialog |
| `Naming` | naming.dfy | the sanitizer and the systematic name |
| `WinPath` | winpath.dfy | the parts of Windows `os.path` used by the renamer |
| `MainWindow` | mainwindow.dfy | database code, add flow, renamed-path generator, rename loop |
| `RenameDialog` | renamedialog.dfy | the rename-character dialog |
| `ListItems` | listitems.dfy | the list widgets of the picker dialogs |
| `TagPicker` | tagpicker.dfy | the tag picker |
| `AltPicker` | altpicker.dfy | the alt-character picker |
| `Portraits` | portraits.dfy | utils/portrait_manager.py |
| `Quotes` | quotes.dfy | utils/quote_manager.py |
| `Preferences` | preferences.dfy | core/preferences.py and the main window's preference actions |

Where the code and its design notes differ, the model follows the code:

- `update_replay` and a restore with a code that is not present change
  nothing and raise nothing. There is no "not found" error.
- `ufc` is UNIQUE in each table separately. Nothing stops an active row and a
  bin row from sharing a code. In that case moving the row to the bin fails,
  and so does restoring the bin row.
- The sanitizer keeps punctuation other than the nine reserved characters:
  "Chun-Li!! " becomes "chun-li!!".
- Filter tags {b, c} over rows tagged "A,B", "B,C" and "C": ANY mode shows
  all three rows, and ALL mode shows only "B,C".
- The version marker `(_|-)(alt|v|ver|version)\d*$` is matched by looking at
  the word's last letter. The four words end in different letters, so this is
  the same as the regular expression.

## Model

| member | source | states |
|---|---|---|
| Store.FindUnique | core/database.py:30 | Because `ufc` is UNIQUE, a row in the table is the one that lookup by its code returns. |
| Store.FilterKeepsUniqueKeys | core/database.py:30 | Deleting any set of rows keeps the codes of `replays` unique. |
| Store.BinFilterKeepsUniqueKeys | core/database.py:46 | Deleting any set of rows keeps the codes of `recycle_bin` unique. |
| Store.AppendKeepsUniqueKeys | core/database.py:30 | Appending a row whose code is not yet active keeps the codes unique. |
| Store.GenerateUfc | core/database.py:200-203 | A new code starts with "UFC-", has eight characters when the uuid text has at least four, and has no lower-case letter after the prefix. |
| Store.UfcCollision | core/database.py:200-203 | Two uuid texts of at least four characters give the same code exactly when their first four characters agree after upper-casing. |
| Store.UfcCollisionExample | core/database.py:200-203 | "1a2b3c4d" and "1A2Bffff" both give "UFC-1A2B". |
| Store.AddReplayCollides | core/database.py:65-81 | Adding a replay whose uuid's first four characters match, after upper-casing, those of a code already stored fails as a duplicate of that code. |
| Store.AddReplay | core/database.py:65-81 | The add succeeds exactly when the new code is not active, and otherwise fails with a duplicate-code error. On success it appends one row after the unchanged earlier rows. The row holds the given texts, `recorded` 0, no renamed name and the add time. The bin and the database code stay, and the new code is returned. |
| Store.AddReplayKeepsValid | core/database.py:65-81 | Adding keeps codes unique in each table and keeps numbers out of the TEXT columns. |
| Store.AddThenRead | core/database.py:83-107 | After an add, the earlier records read back unchanged. The new record has the given texts, the new code, the add stamp and `recorded` false. |
| Store.ToRecord | core/database.py:95-105 | A record keeps the row's code and shows each text column's text, with NULL as "". `recorded` is the truthiness of its cell. |
| Store.GetAllReplays | core/database.py:83-107 | One record per active row, in table order. The bin is not read. |
| Store.ApplyEdits | core/database.py:111-126 | A column changes only when it is allow-listed and named by a keyword. It then holds the keyword's value as its column's affinity stores it: a number becomes text in a TEXT column, and integer text becomes a number in `recorded`. The code never changes. |
| Store.Stored | core/database.py:25-36 | A TEXT column never holds a number. `recorded`, the one INTEGER column, stores text that reads as an integer literal as that integer, and keeps any other value as given. |
| Store.IntegerLiteral | core/database.py:32 | A text is accepted as an integer only with a value that fits 64 bits. |
| Store.RecordedTextOfNumber | core/database.py:32 | Writing the text `str(n)` to `recorded` stores the integer `n` itself, for every 64-bit `n`. |
| Store.RecordedTextExamples | core/database.py:32 | "0" is stored as 0 and reads back as not recorded. " -12 " is stored as -12. "yes" stays text and reads back as recorded. |
| Store.EditRecordedZeroText | core/database.py:100-126 | `update_replay(ufc, recorded="0")` stores 0, so `get_all_replays` then reports the replay as not recorded. |
| Store.UpdateReplay | core/database.py:109-131 | Only the row with the given code changes, and only in allow-listed columns. Every other row keeps its place and contents, and the bin and the database code stay. |
| Store.UpdateWithoutEditableKeysIsNoop | core/database.py:117-123 | Keywords that name no allow-listed column leave the whole catalogue unchanged. |
| Store.UpdateIgnoresRenamedFilename | core/database.py:111-112 | `update_replay(ufc, renamed_filename=...)` leaves the catalogue unchanged. |
| Store.UpdateUnknownKeyIsNoop | core/database.py:125-131 | An update for a code that is not active changes nothing and does not fail. |
| Store.UpdateKeepsValid | core/database.py:109-131 | Updates keep codes unique and TEXT columns textual. |
| Store.MoveToRecycleBin | core/database.py:144-172 | Soft delete as intended. An absent code changes nothing. A code already in the bin fails as a duplicate and changes nothing. Otherwise the row leaves `replays` and is appended to the bin, all nine columns kept, with the deletion stamp as `deleted_date`. When codes are unique, the remaining replays keep their order: the list is the old one with that one row cut out. |
| Store.BinRowAsWritten | core/database.py:163-168 | The bin row the INSERT writes holds the deletion stamp in `tags` and the row's tags in `deleted_date`. Every other column is kept. |
| Store.MoveToRecycleBinAsWritten | core/database.py:144-172 | Soft delete as written. An absent code changes nothing, and a code already in the bin fails as a duplicate of that code. Otherwise the row leaves `replays`, the database code stays, and the as-written bin row is appended. The remaining replays keep their order, as in the intended move. |
| Store.MoveKeepsValid | core/database.py:144-172 | A successful soft delete keeps codes unique in both tables. |
| Store.MoveAsWrittenKeepsValid | core/database.py:144-172 | The soft delete as written also keeps the catalogue valid: codes stay unique, and the swapped tag and stamp columns still hold text. |
| Store.MovesAgreeOffTheBin | core/database.py:144-172 | The as-written and intended soft deletes fail on the same inputs with the same error. On success they leave the same `replays` and database code, and differ only in the bin. |
| Store.Without | core/database.py:138 | `DELETE ... WHERE ufc = ?` removes exactly the rows with the code and keeps the rest. With unique codes, the rest stay in order, with only that row cut out. A code that is absent leaves the table as it was. |
| Store.DeleteReplay | core/database.py:133-142 | A permanent delete always succeeds and removes exactly the rows with the code from `replays`, with the bin untouched. When codes are unique, the other rows stay in their old order, with just the matching row cut out. Otherwise the call is the soft delete as `_move_to_recycle_bin` writes it. It fails exactly when the code is active and already in the bin, and otherwise appends the bin row with tags and stamp swapped. |
| Store.DeleteReplayIntended | core/database.py:133-142 | The same call with the intended soft delete. It fails in the same cases, but the appended bin row keeps the row's tags and carries the stamp as `deleted_date`. |
| Store.DeleteKeepsValid | core/database.py:133-142 | Deleting either way keeps the catalogue valid, as written and as intended. |
| Store.DeleteAllKeepsAbsence | ui/main_window.py:655-658 | In the delete loop of as-written soft deletes, where each call reads its own clock, a code that is not active stays inactive. |
| Store.DeleteAllRemoves | ui/main_window.py:655-665 | When the loop ends without an error, none of the selected codes is active. |
| Store.AllSegments | core/database.py:180-187 | A tag is listed exactly when it is a segment of some active row's tag string. |
| Store.GetAllTags | core/database.py:174-189 | The list is strictly sorted, case-sensitively, so it has no repeats. It holds exactly the segments of active rows' tag strings, each non-empty, stripped and free of ','. |
| Store.GetAllTagsIgnoresBin | core/database.py:180 | The tag list does not depend on the bin. |
| Store.AutoCleanup | core/database.py:191-198 | The sweep as written keeps exactly the bin rows whose `deleted_date` is not below the threshold text in string order. `replays` and the code stay. |
| Store.AutoCleanupChronological | core/database.py:191-198 | The sweep as intended keeps exactly the bin rows whose deletion time is not before the threshold. |
| Store.AutoCleanupChronologicalKeepsValid | core/database.py:191-198 | The intended sweep keeps the catalogue valid. |
| Store.ChronologicalSweepIsExact | core/database.py:191-198 | A row stamped at time t survives the intended sweep if and only if t is not before the threshold. |
| Store.AddReplayWithUfc | ui/main_window.py:301-308 | The add the main window means to make, with the caller's code. It succeeds exactly when that code is not active and stores the row under that code and file name. |
| Store.AddReplayIsWithFreshUfc | core/database.py:69-79 | `add_replay` is the code-taking add applied to a freshly generated code. |
| Stamps.RecordStamp | core/database.py:146 | A `%m-%d-%Y %H:%M:%S` stamp has 19 characters with '-', '-', ' ', ':', ':' in their places. |
| Stamps.FileStamp | ui/main_window.py:294 | A `%m-%d-%Y_%H-%M-%S` stamp has 19 characters, all digits, '-' or '_'. |
| Stamps.ParseRecordStamp | core/database.py:146 | Any text it accepts is the stamp of the date-time it returns. |
| Stamps.RecordStampRoundTrip | core/database.py:146 | Parsing a formatted stamp gives the date-time back, so the layout loses nothing. |
| Stamps.RecordStampOrderIsNotChronological | core/database.py:193-197 | String order on the layout disagrees with time order both ways: 20 December 2024 does not sort before 16 January 2025, and 1 January 2025 sorts before 15 December 2024. |
| TagStrings.Segments | core/database.py:183-187 | Every segment is a tag: non-empty, stripped and comma-free. |
| TagStrings.SegmentsOfJoin | ui/dialogs/character_dialogs.py:362-364 | Joining tags with ", " and splitting the text again gives the same list. |
| TableFilter.LoadReplays | ui/widgets/replay_table.py:170-227 | One well-formed table row per record, in record order. The Recorded cell is checked exactly when the record is recorded. |
| TableFilter.LoadThenRead | ui/widgets/replay_table.py:231-252 | Reading a loaded row back gives its record, with no field lost or moved. The seven text fields come from the double-click data, and `recorded` comes from the check state of the Recorded cell. |
| TableFilter.SetSearchText | ui/widgets/replay_table.py:41-44 | The stored search is stripped and has no capital letter. The other filters stay. |
| TableFilter.SetTagFilter | ui/widgets/replay_table.py:46-49 | Each filter tag is the given tag lowercased, not stripped. The other filters stay. |
| TableFilter.RowTags | ui/widgets/replay_table.py:85 | The row's tags are non-empty and stripped. |
| TableFilter.Visible | ui/widgets/replay_table.py:56-101 | A row is shown exactly when it passes the search, tag and recorded steps. Rows are never altered. |
| TableFilter.InitialShowsAll | ui/widgets/replay_table.py:34-40 | The initial filter state shows every row. |
| TableFilter.SearchQueryCaseInsensitive | ui/widgets/replay_table.py:41-44 | Typing the search in capitals sets the same search. |
| TableFilter.SearchRowCaseInsensitive | ui/widgets/replay_table.py:71-81 | Capitalising a row's texts does not change whether the search passes it. |
| TableFilter.BlankSearchPassesAll | ui/widgets/replay_table.py:77-81 | A search of whitespace only passes every row. |
| TableFilter.SingleTagModesAgree | ui/widgets/replay_table.py:84-94 | With one filter tag, ALL and ANY mode agree. |
| TableFilter.AndImpliesOr | ui/widgets/replay_table.py:87-94 | A row ALL mode passes is passed by ANY mode. |
| TableFilter.UnstrippedFilterTagHidesAll | ui/widgets/replay_table.py:84-90 | A filter tag with whitespace at an end, or an empty one, is never a row tag, so in ALL mode it hides every row. |
| TableFilter.ExampleRowTags | ui/widgets/replay_table.py:85 | "A,B", "B,C" and "C" read as {a, b}, {b, c} and {c}. |
| TableFilter.TagModesExample | ui/widgets/replay_table.py:84-94 | Over those rows, filter tags {b, c} pass all three in ANY mode and only the "B,C" row in ALL mode. |
| TableFilter.ClearKeepsTagAndRecordedFilters | ui/main_window.py:429-431 | "Clear filters" empties the search but keeps the tag and recorded filters. |
| TableFilter.RecordedFilterIsSticky | ui/main_window.py:459-470 | Once a recorded filter is set, no sequence of filter actions removes it, because "All" passes `None`, which is ignored. |
| TableFilter.RecordedFilterStickyExample | ui/widgets/replay_table.py:273-280 | After "recorded only", then "All", then "Clear", an unrecorded row stays hidden. |
| FindReplace.ColumnFor | ui/dialogs/utility_dialogs.py:135-144 | Exactly the five combo labels map to a column. That column is allow-listed and never `recorded`. |
| FindReplace.PercentMatchesAll | ui/dialogs/utility_dialogs.py:153-156 | The pattern "%" matches every text. |
| FindReplace.LikeContains | ui/dialogs/utility_dialogs.py:153-156 | For a find text without wildcards, `LIKE '%f%'` holds exactly when the text contains f, ignoring ASCII case. |
| FindReplace.ReplaceAbsent | ui/dialogs/utility_dialogs.py:169-171 | REPLACE leaves a text unchanged unless it contains the find text in exactly that case. |
| FindReplace.ReplaceRemovesAll | ui/dialogs/utility_dialogs.py:169-171 | Replacing a character by text that lacks it removes every occurrence. |
| FindReplace.ReplaceCell | ui/dialogs/utility_dialogs.py:169-171 | NULL stays NULL, and a number becomes text. |
| FindReplace.CountMatches | ui/dialogs/utility_dialogs.py:146-160 | The count is the number of active rows whose column matches `%find%`, which is what `COUNT(*)` returns. So it is at most the number of active rows, and 0 exactly when no row matches. |
| FindReplace.PerformReplace | ui/dialogs/utility_dialogs.py:162-176 | Only the chosen column of matching active rows changes, to its REPLACE. Non-matching rows, other columns, codes, the bin and the database code stay. |
| FindReplace.PerformReplaceKeepsValid | ui/dialogs/utility_dialogs.py:162-176 | Replacing keeps the catalogue valid. |
| FindReplace.ApplyReplace | ui/dialogs/utility_dialogs.py:103-133 | These leave the catalogue unchanged: a blank find text, an unknown column label, a count of 0, or a "No". The bin and the code never change. |
| FindReplace.CountedButUnchanged | ui/dialogs/utility_dialogs.py:153-171 | A row that contains the find text only in another case is counted but left unchanged. |
| FindReplace.CaseMismatchExample | ui/dialogs/utility_dialogs.py:153-171 | Replacing "combo" counts a "Ryu Combo" description and leaves it as it was. |
| RecycleBin.RestoreOne | ui/dialogs/utility_dialogs.py:372-393 | A code not in the bin is skipped. A code in the bin fails exactly when it is also active. Otherwise the bin row's nine columns are appended to `replays` and every bin row with that code goes. |
| RecycleBin.RestoreItemsEmptiesKeys | ui/dialogs/utility_dialogs.py:364-398 | A restore that goes through leaves none of its codes in the bin. |
| RecycleBin.RestoreKeepsAbsence | ui/dialogs/utility_dialogs.py:372-393 | A code not in the bin does not come into it. |
| RecycleBin.RestoreFailureRollsBack | ui/dialogs/utility_dialogs.py:368-398 | If any insert of the batch fails, the dialog leaves the catalogue as it was. |
| RecycleBin.RestoreItemsKeepsValid | ui/dialogs/utility_dialogs.py:364-398 | A restore that goes through keeps the catalogue valid. |
| RecycleBin.DeleteItems | ui/dialogs/utility_dialogs.py:400-414 | Exactly the bin rows with the listed codes go. `replays` and the code stay. |
| RecycleBin.DeleteItemsKeepsValid | ui/dialogs/utility_dialogs.py:400-414 | Deleting bin rows keeps the catalogue valid. |
| RecycleBin.EmptyRecycleBin | ui/dialogs/utility_dialogs.py:331-362 | When confirmed the bin is emptied, and otherwise nothing changes. `replays` and the code are never touched. |
| RecycleBin.SoftDeleteThenRestore | ui/dialogs/utility_dialogs.py:374-390 | With the intended bin row, soft delete then restore brings the row back with all nine columns at the end of the table, and the bin is as before. |
| RecycleBin.SoftDeleteThenRestoreAsWritten | core/database.py:163-168 | As written, the same round trip brings the row back with the deletion stamp as its tags. |
| RecycleBin.RoundTripLosesTagsAsWritten | core/database.py:163-168 | For example, a replay tagged "combo" comes back tagged "01-15-2025 09:30:00". |
| RecycleBin.EmptyTagsPurgedAsWritten | core/database.py:197 | As written, a replay deleted with empty tags is swept by the next clean-up, whatever the threshold. |
| RecycleBin.EmptyTagsKeptCorrected | core/database.py:191-198 | With the intended bin row, that replay survives a sweep whose threshold is older than its deletion. |
| Naming.Collapse | ui/main_window.py:811 | Collapsing dash runs keeps the same set of characters and the first one, leaves no doubled dash, and leaves a text without one unchanged. |
| Naming.CollapseDoubleDash | ui/main_window.py:811 | Any "--" in a text collapses the same way a single "-" there would, so a run of dashes counts as one dash wherever it sits. |
| Naming.Sanitize | ui/main_window.py:807-812 | The result has no reserved character, space, capital, doubled dash, or dash at either end. |
| Naming.SanitizeFixedPoints | ui/main_window.py:807-812 | The sanitizer leaves a name unchanged exactly when the name is already safe. |
| Naming.SanitizeIdempotent | ui/main_window.py:807-812 | Sanitizing twice equals sanitizing once. |
| Naming.SanitizeEmpty | ui/main_window.py:807-812 | A name sanitizes to "" exactly when it is made of dashes and spaces only. |
| Naming.SanitizeIgnoresCase | ui/main_window.py:810 | Lower-casing first does not change the result. |
| Naming.SanitizeTrailingSpace | ui/main_window.py:807-812 | A safe name followed by a space sanitizes back to the name. |
| Naming.SanitizeExample | ui/main_window.py:807-812 | "Chun-Li!! " sanitizes to "chun-li!!". |
| Naming.SystematicName | ui/main_window.py:294-297 | The name is 26 characters longer than its three parts together and ends with the file stamp. |
| Naming.SplitLast | ui/main_window.py:297 | Splitting at the last separator rebuilds the text, and nothing after the split holds the separator. |
| Naming.ParseName | ui/main_window.py:297 | A name that parses is the composition of its parts. The two codes hold no '_' and the stamp has 19 characters. |
| Naming.ParseCompose | ui/main_window.py:297 | Composing parts whose codes have no '_' and parsing the name gives the parts back. |
| Naming.SystematicNameParses | ui/main_window.py:271-297 | The character, the replay code, the database code and the stamp can all be read back from a systematic name. |
| MainWindow.NewDbCode | ui/main_window.py:799 | A new database code has eight characters when the uuid text has at least eight. None of them is lower-case, and there is no '_' when the uuid text has none. |
| MainWindow.GetDatabaseCode | ui/main_window.py:785-805 | No database or a failing connection gives "UNKNOWN" and changes nothing. Otherwise the stored code is returned, or a new one is stored and returned. The tables stay. |
| MainWindow.DatabaseCodeIsStable | ui/main_window.py:785-805 | After one successful call, every later call returns the same code and changes nothing. |
| MainWindow.Prompted | ui/main_window.py:250-265 | The flow goes on exactly when a character was given or was picked after agreeing, and the character it goes on with is not empty. |
| MainWindow.AddName | ui/main_window.py:271-297 | The code made is a fresh replay code, and the name ends with the file stamp. |
| MainWindow.AddNameParses | ui/main_window.py:271-297 | The name made carries the sanitized character, the code, the database code and the stamp, and parsing it gives them back. |
| MainWindow.OnAddReplay | ui/main_window.py:244-321 | The add flow as written never adds. Without a database it reports that. Without a character it stops exactly when none is given or picked. The tables never change. |
| MainWindow.OnAddReplayNeverAdds | ui/main_window.py:301-308 | Whatever the inputs, the add flow as written leaves the table size unchanged. |
| MainWindow.OnAddReplayIntended | ui/main_window.py:244-321 | The add flow as intended appends exactly one row, after the unchanged earlier rows, under the reported code and name. A failure changes nothing. |
| MainWindow.IntendedRowMatchesItsName | ui/main_window.py:275-308 | With the intended call, the stored row's code is the one its file name carries. |
| MainWindow.TriedSize | ui/main_window.py:822-826 | With distinct candidates, the first n tries are n distinct paths, and none of them comes up again later. |
| MainWindow.CandidatesDistinct | ui/main_window.py:819-826 | Different counters give different candidate paths. |
| MainWindow.FirstFree | ui/main_window.py:822-826 | The search loop returns the first candidate, in counter order, that is not on disk, and it ends for every finite set of paths. |
| MainWindow.GenerateRenamedPath | ui/main_window.py:814-828 | The returned path is the first of the base name, `_1`, `_2`, ... that does not exist. |
| MainWindow.SystematicNamePlain | ui/main_window.py:819 | A systematic name built from safe parts has no path separator and no drive. |
| MainWindow.CandidateKeepsDirectory | ui/main_window.py:816-825 | Every candidate lies in the directory of the original, and its last component is the candidate name. |
| MainWindow.CandidateKeepsExtension | ui/main_window.py:817-825 | Every candidate keeps the original's extension. |
| MainWindow.RenameOne | ui/main_window.py:756-776 | A row without a code cell is skipped, and a missing file is reported. Otherwise the file moves to a fresh candidate path of its own, unless the move fails. The catalogue is unchanged in every case. |
| MainWindow.CountsAddUp | ui/main_window.py:749-780 | Each outcome is exactly one of renamed, failed or skipped. |
| MainWindow.RenameRows | ui/main_window.py:752-777 | Row k gets outcome k. Row k's code is reported, and row k is renamed from file k mod n. The count is the number renamed. |
| MainWindow.RenameSelected | ui/main_window.py:705-783 | Each early exit does nothing. Otherwise there is one outcome per row with the file pairing above, and `replays` and the bin never change. |
| RenameDialog.Preview | ui/dialogs/rename_character_dialog.py:102-113 | A blank input previews "No character set". Any other input previews a name ending in ".mp4". |
| RenameDialog.PreviewIsSystematicName | ui/dialogs/rename_character_dialog.py:102-125 | The preview is the systematic name of the sanitized, trimmed input, with placeholder codes, at 01-15-2025 14:30:45, plus ".mp4". |
| RenameDialog.Accept | ui/dialogs/rename_character_dialog.py:131-151 | A blank input accepts with no character. Input that sanitizes to "" is refused, with the dialog unchanged. Any other input accepts its trimmed, unsanitized text. |
| RenameDialog.AcceptRefusesOnlyDashes | ui/dialogs/rename_character_dialog.py:133-145 | Accept refuses exactly the trimmed inputs made only of dashes and spaces. |
| RenameDialog.AcceptedCharacterIsUsable | ui/dialogs/rename_character_dialog.py:131-155 | An accepted character is trimmed and sanitizes to a non-empty name. |
| RenameDialog.DashesRefused | ui/dialogs/rename_character_dialog.py:135-145 | "- -" is refused. |
| ListItems.Texts | ui/dialogs/character_dialogs.py:229-230 | The row texts, in list order. |
| ListItems.Marked | ui/dialogs/character_dialogs.py:327-328 | A text is handed back exactly when some marked row has it, at most one per row. |
| ListItems.Filter | ui/dialogs/character_dialogs.py:286-299 | The search hides a row exactly when the search does not show it. Texts and marks stay. |
| ListItems.MarkVisible | ui/dialogs/character_dialogs.py:301-311 | "Select All" marks every visible row, and hidden rows keep their mark. |
| ListItems.Unmark | ui/dialogs/character_dialogs.py:313-319 | Every row is unmarked, so nothing is handed back. |
| ListItems.FilterKeepsMarked | ui/dialogs/character_dialogs.py:286-299 | Searching neither marks nor unmarks rows. |
| ListItems.BlankSearchShows | ui/dialogs/character_dialogs.py:291-297 | A blank search shows every text. |
| ListItems.MarkMatching | ui/dialogs/character_dialogs.py:291-319 | Clear, then search, then "Select All" hands back exactly the texts the search shows, in list order. |
| TagPicker.NewTags | ui/dialogs/character_dialogs.py:330-333 | Typed tags are tags, and a blank box gives none. |
| TagPicker.Compose | ui/dialogs/character_dialogs.py:345-359 | The composed list ends with the typed tags and holds exactly the selected texts and the typed tags. |
| TagPicker.Open | ui/dialogs/character_dialogs.py:214-273 | Every catalogue tag is listed, visible and unselected. The box is empty and the preview shows the current tag string. |
| TagPicker.ClearSelection | ui/dialogs/character_dialogs.py:313-319 | After clearing, the composition is the typed tags alone, and so is the preview. |
| TagPicker.GetSelectedTags | ui/dialogs/character_dialogs.py:362-364 | No chosen tags gives "". |
| TagPicker.UpdatesSync | ui/dialogs/character_dialogs.py:321-338 | After Select All, clear, a click or typing, the preview shows what accepting would return. |
| TagPicker.FilterKeepsResult | ui/dialogs/character_dialogs.py:286-299 | Searching changes neither the composition nor whether the preview is in line. |
| TagPicker.OpenSyncedIff | ui/dialogs/character_dialogs.py:271-273 | On opening, the preview is in line exactly when there is no current tag string. |
| TagPicker.ResultRoundTrip | ui/dialogs/character_dialogs.py:345-364 | Splitting the accepted text gives the composed tags back. |
| TagPicker.DoubleClickRoundTrip | ui/dialogs/character_dialogs.py:340-343 | A double click returns the clicked tag alone. |
| TagPicker.BlankSearchShowsAll | ui/dialogs/character_dialogs.py:291-299 | A blank search leaves no row hidden. |
| TagPicker.SelectMatching | ui/dialogs/character_dialogs.py:301-319 | Clear, search, Select All composes the listed tags the search shows, then the typed ones. |
| TagPicker.OpenedOnCatalogueTags | ui/dialogs/character_dialogs.py:214-230 | A picker opened on the catalogue's tags lists only tags. |
| AltPicker.Keep | ui/dialogs/character_dialogs.py:112-116 | A name is kept exactly when it is not empty and is the name given for some image file. |
| AltPicker.Available | ui/dialogs/character_dialogs.py:103-120 | The names are strictly sorted and are exactly the non-empty cleaned names of image files. A missing folder gives none. |
| AltPicker.Open | ui/dialogs/character_dialogs.py:45-65 | Opening fails, with alts that cannot be iterated, exactly when there is at least one name to test them against. Otherwise there is one visible row per available name, in sorted order. A row is checked exactly when its name is in the stored list or, for stored text, is a substring of it. |
| AltPicker.OpenSelection | ui/dialogs/character_dialogs.py:59-62 | When the picker opens, the selection is the available names that are current alts, sorted. |
| AltPicker.GetSelected | ui/dialogs/character_dialogs.py:169-175 | A name is returned exactly when a checked row has it. |
| AltPicker.Count | ui/dialogs/character_dialogs.py:156-167 | The count is 0 exactly when no box is checked. |
| AltPicker.CountIsSelected | ui/dialogs/character_dialogs.py:156-175 | The count shown is the number of names returned. |
| AltPicker.SelectAllAfterBlankSearch | ui/dialogs/character_dialogs.py:122-144 | After a blank search, "Select All" returns every listed name. |
| AltPicker.DeselectAllAsWritten | ui/dialogs/character_dialogs.py:146-154 | As written, "Deselect All" succeeds exactly when there are no rows, and then changes nothing. |
| AltPicker.DeselectAllAsWrittenFails | ui/dialogs/character_dialogs.py:151 | As written, "Deselect All" fails on any dialog with a row, where the intended one leaves nothing checked. |
| AltPicker.OneImageGivesARow | ui/dialogs/character_dialogs.py:45-65 | One image with a non-empty cleaned name gives a row. With alts that cannot be iterated, opening then fails. Otherwise the dialog opens and "Deselect All" reaches its failure. |
| AltPicker.DeselectAll | ui/dialogs/character_dialogs.py:146-154 | As intended, every box is unchecked, hidden rows included. |
| AltPicker.DeselectAllClears | ui/dialogs/character_dialogs.py:146-154 | After the intended "Deselect All", nothing is returned and the count is 0. |
| Portraits.IconThenPortrait | utils/portrait_manager.py:69-72 | A plain stem with "_icon" and then "_portrait" loses both. |
| Portraits.PortraitThenIcon | utils/portrait_manager.py:69-72 | The other order keeps "_portrait", because each suffix is tried once, in list order. |
| Portraits.RemovedIsMarker | utils/portrait_manager.py:75 | What the version step removes is a whole `(_\|-)(alt\|v\|ver\|version)\d*` marker. |
| Portraits.MarkerIsRemoved | utils/portrait_manager.py:75 | Any marker at the end of the name is exactly what is removed. |
| Portraits.SpaceSeps | utils/portrait_manager.py:78 | Every '_' and '-' becomes a space, and nothing else changes. |
| Portraits.Normalize | utils/portrait_manager.py:79 | The result is words joined by single spaces, with no other whitespace, and no character appears that was not there, except spaces. |
| Portraits.Title | utils/portrait_manager.py:81 | Only the case of letters changes. A letter is upper-case exactly when it starts a run of letters. |
| Portraits.TitleIgnoresCase | utils/portrait_manager.py:81 | Title case ignores the case it is given. |
| Portraits.TitleIdempotent | utils/portrait_manager.py:81 | Title-casing twice equals title-casing once. |
| Portraits.CleanFilename | utils/portrait_manager.py:64-81 | The cleaned name has no '_' or '-', single spaces between words only, and title case. |
| Portraits.IconPortraitNamesStem | utils/portrait_manager.py:69-81 | "ryu_icon_portrait"-style names give the stem: "Ryu". |
| Portraits.PortraitIconKeepsPortrait | utils/portrait_manager.py:69-81 | "ryu_portrait_icon"-style names keep the word: "Ryu Portrait". |
| Portraits.VersionMarkerDropped | utils/portrait_manager.py:75-81 | "ken_v2"-style names lose the marker: "Ken". |
| Portraits.CharacterPortraits | utils/portrait_manager.py:43-61 | A missing folder gives none. Otherwise a path is listed exactly when it joins the folder with a .png/.jpg/.jpeg/.bmp file whose cleaned name contains the character, ignoring case. There is one path per listing entry that is such a portrait. |
| Portraits.GifIsNoPortrait | utils/portrait_manager.py:52 | A ".gif" file is never a portrait, though the alt picker takes it. |
| Portraits.EmptyNameMatchesAll | utils/portrait_manager.py:56 | An empty character name matches every portrait image. |
| Portraits.CacheKeySeparatesSizes | utils/portrait_manager.py:23 | One path at two sizes gives two cache keys. |
| Portraits.LoadPortrait | utils/portrait_manager.py:17-41 | An empty or missing path gives nothing. A cache hit returns the entry. A loaded image is returned and, when caching, stored. Other cache entries never change. |
| Portraits.SecondLoadHitsCache | utils/portrait_manager.py:23-39 | A second load at the same size returns the first image whatever the file now holds, and nothing once the file is gone. |
| Quotes.CleanPool | utils/quote_manager.py:29 | Cleaned entries are trimmed and non-empty, and each comes from some entry. |
| Quotes.LoadPair | utils/quote_manager.py:27-31 | A list value with a usable entry stores its cleaned pool under the trimmed key. Anything else is skipped. Stored pools stay non-empty. |
| Quotes.Load | utils/quote_manager.py:16-33 | No file, or a file that is not an object, gives no quotes. Every stored pool is a non-empty list of trimmed quotes. |
| Quotes.DictOf | utils/quote_manager.py:24 | `json.load` makes a dict of an object's pairs. Each key appears once, and a key is in the dict exactly when the file writes it. Its value is the one written last. Keys keep the order in which they first appear. |
| Quotes.LoadedPool | utils/quote_manager.py:24-31 | Each key's pool comes from the last usable dict entry whose key trims to it. When the file writes each key once, that is the last usable pair of the file. |
| Quotes.DictOfDistinct | utils/quote_manager.py:24 | An object that writes each key once decodes to its own pairs, in file order. |
| Quotes.RepeatedKeyLastWins | utils/quote_manager.py:24-31 | With `{"Ryu": ["a"], "Ryu": []}`, the later empty list replaces the first, so no quotes are stored for Ryu. |
| Quotes.FirstCaseless | utils/quote_manager.py:42-45 | It returns the first key equal to the character ignoring case, or none when no key is. |
| Quotes.Choose | utils/quote_manager.py:39 | The choice is a member of the pool. |
| Quotes.GetRandomQuote | utils/quote_manager.py:35-47 | An exact key's pool is used first, then the first caseless key's pool. With neither, the result is "No quotes available". |
| Quotes.HasQuotesDecides | utils/quote_manager.py:49-52 | Without quotes the result is the fallback text, and with quotes it is a stored quote. |
| Quotes.QuotesAreClean | utils/quote_manager.py:29-31 | A returned quote is trimmed and non-empty. |
| Quotes.CaselessFindsFirst | utils/quote_manager.py:42-45 | A differently-cased key finds the first such key's pool. |
| Quotes.ExactKeyWins | utils/quote_manager.py:38-39 | An exact key wins over keys that differ only in case. |
| Preferences.Load | core/preferences.py:21-34 | File keys win, defaults the file lacks stay, and extra keys are kept. Without a file, the defaults are used. |
| Preferences.Set | core/preferences.py:49-52 | Only the key set changes. |
| Preferences.SetMainCharacter | core/preferences.py:58-63 | The name is always set. The path is set only when given and non-empty. Nothing else changes. |
| Preferences.CurrentAlts | ui/dialogs/character_dialogs.py:19 | `current_alts or []`: a falsy stored value gives the empty list, and a stored list gives that list. Non-empty stored text stays text. A truthy number or boolean gives alts that cannot be iterated, and only these do. |
| Preferences.StoredTextChecksSubstrings | ui/dialogs/character_dialogs.py:19-62 | With non-empty text stored as the alts, the picker opens, and a row is checked exactly when its name occurs inside that text. |
| Preferences.TextAltsExample | ui/dialogs/character_dialogs.py:19-62 | Stored text "Ryu Ken" marks "Ryu" and "Ken" as current alts, but not "Cammy". |
| Preferences.StoredNumberFailsOpen | ui/dialogs/character_dialogs.py:19-62 | With a truthy number or boolean stored as the alts, opening the picker fails as soon as there is one name to test. |
| Preferences.DefaultsWithoutFile | core/preferences.py:10-19 | The defaults are three alts, light theme, and None for every other key. |
| Preferences.SetThenGet | core/preferences.py:45-52 | A value set is the value got back, and other keys read as before. |
| Preferences.LoadThenGet | core/preferences.py:26-47 | A file key reads back as stored, None included. A missing default key reads back its default, and any other key the fallback. |
| Preferences.RenameCharacterRoundTrip | core/preferences.py:74-81 | Setting the rename character and getting it returns it. |
| Preferences.AltCharactersRoundTrip | core/preferences.py:65-72 | Alts set are alts got, and the picker reopens on them. |
| Preferences.MainCharacterRoundTrip | core/preferences.py:54-63 | The main character set is returned unless an override is in force. Without a new path, the stored path stays. |
| Preferences.ChooseAltCharacters | ui/main_window.py:832-842 | Cancel changes nothing. |
| Preferences.ChosenAltsStored | ui/main_window.py:832-842 | After OK, the stored alts are exactly the checked names. |
| Preferences.EditCharacterName | ui/main_window.py:869-879 | Only the override changes. |
| Preferences.EditedNameWins | ui/main_window.py:869-879 | A non-blank edited name becomes the main character shown. A blank one falls back to the stored main character. |
| Preferences.ToggleTwice | ui/main_window.py:895-899 | Toggling the theme twice restores a stored flag. |

## Left out

- SQLite itself: SQL text, connections, cursors, `id` values and the schema set-up. Each `with sqlite3.connect` block is one all-or-nothing step.
- Qt widgets, message texts, styles, timers and signals. A user's answer to a message box is a boolean parameter.
- File-system and process I/O: JSON reading and writing, `os.listdir`, `os.path.exists`, `shutil.move`, backups, the CSV export, and opening links and folders. A directory listing, a set of existing paths and "the move failed" are parameters.
- `uuid.uuid4`, `datetime.now`, `timedelta` and `random.choice`. The uuid texts, the clock reading and the clean-up threshold are parameters, and a random choice is an index into the pool.
- Unicode. Strings are ASCII for `lower`, `upper`, `title`, `strip`, `split` and `\d`. The regex `$` before a trailing newline is not modelled.
- Windows paths: UNC paths are modelled only as far as the renamer needs them. Case-insensitive file names are not modelled.
- JSON values: the preferences hold null, booleans, integers, strings and string lists, and the quotes file holds an object of lists of strings. Floats and nested objects are not modelled. A preferences file that is not an object counts as no file. A key the preferences file writes twice is not modelled. The quotes file's repeated keys are.
- Store.Stored: SQLite also stores real-valued text in `recorded`, such as "1.0" or "1e2", as a number, and so with integer text beyond 64 bits. The model keeps such text as text. The only caller that sets `recorded` passes 1 or 0.
- Python's handling of an exception raised in a Qt slot: it is reported and the program goes on.
- The sanitizer in ui/dialogs/filename_character_picker.py is a copy of the one modelled. The rename dialog's sanitizer is the same as the main window's, so both use `Naming.Sanitize`.
- `_preview_changes` of the find/replace dialog only shows `FindReplace.CountMatches`. `_restore_selected` and `_delete_permanently` only collect codes and ask, and are modelled by their `_restore_items` and `_delete_items` steps.
- Selection order: Qt's `selectedItems()` and `selectedRows()` are taken in list order.
- MainWindow.GenerateRenamedPath: requires `Usable`, meaning the systematic name has at least three characters and does not start with a separator. That always holds for a sanitized character.
- MainWindow.CandidateKeepsDirectory: requires a safe character, codes without separators and ':', and an original that is not a bare UNC drive.
- MainWindow.CandidateKeepsExtension: stated only when the original has an extension.
- Portraits.LoadPortrait: a cache hit is modelled only when the file still exists, as the code checks existence first.
- AltPicker.Available: only a missing folder is modelled as a listing failure.
- Preferences.ToggleTwice: stated only when a boolean flag is stored. Any other stored value is replaced by its negated truthiness.
- Persisting preferences after `set` is not modelled.
- Calendar rules: a valid stamp has any day from 1 to 31 in every month and a four-digit year. Month lengths and leap years are not modelled, and no property here depends on them.

## Findings

| source | as written | input that shows it | evidently intended | confidence | as-written member | corrected member |
|---|---|---|---|---|---|---|
| core/database.py:163-168 | The INSERT lists `date_added, deleted_date, tags` but passes `(*data, deleted_date)`, where `data` ends with `tags`, so the stamp lands in `tags` and the tags in `deleted_date`. | Soft-delete a replay tagged "combo" at 01-15-2025 09:30:00, then restore it: it comes back tagged "01-15-2025 09:30:00". Delete one with empty tags and the next clean-up removes it. | The bin row keeps the replay's tags and carries the deletion stamp in `deleted_date`. | not executed | Store.MoveToRecycleBinAsWritten, Store.DeleteReplay, RecycleBin.RoundTripLosesTagsAsWritten, RecycleBin.EmptyTagsPurgedAsWritten | Store.MoveToRecycleBin, Store.DeleteReplayIntended, RecycleBin.SoftDeleteThenRestore, RecycleBin.EmptyTagsKeptCorrected |
| core/database.py:191-198 | `deleted_date < threshold` compares "%m-%d-%Y %H:%M:%S" texts, which order by month before year. | A row deleted 12-20-2024 is kept by a 01-16-2025 threshold. One deleted 01-01-2025 is swept by a 12-15-2024 threshold. | The sweep removes the rows deleted before the threshold in time. | not executed | Store.AutoCleanup, Stamps.RecordStampOrderIsNotChronological | Store.AutoCleanupChronological, Store.ChronologicalSweepIsExact |
| ui/main_window.py:301-308 | `on_add_replay` passes `ufc=` to `add_replay`, whose signature (core/database.py:65-67) has no such parameter. The call raises TypeError, which the handler reports. | Any add with a database and a character set: nothing is stored. | The row is stored under the code that its systematic file name carries. | not executed | MainWindow.OnAddReplay, MainWindow.OnAddReplayNeverAdds | MainWindow.OnAddReplayIntended, MainWindow.IntendedRowMatchesItsName |
| ui/dialogs/character_dialogs.py:146-154 | `for _, (_, checkbox) in self.character_items.values()` unpacks each `(item, checkbox)` value a second time, which tries to unpack the checkbox itself. | Open the alt picker with one portrait in the folder and press "Deselect All": it raises before unchecking anything. | Every box is unchecked and the count shows 0. | not executed | AltPicker.DeselectAllAsWritten, AltPicker.DeselectAllAsWrittenFails | AltPicker.DeselectAll, AltPicker.DeselectAllClears |

=== FILE: altpicker.dfy ===
/** The alt-character picker of ui/dialogs/character_dialogs.py
    (`AltCharacterPickerDialog`): one checkbox per character that has an
    image in the portrait folder, checked when the character is already an
    alt; the checked names are handed back. A row's mark is its checkbox.
    The folder listing is a parameter, `None` when the folder is missing. */
module AltPicker {
  import opened Results
  import opened Text
  import opened ListItems
  import Seqs
  import Portraits

  /** An image the picker looks at, `.gif` included. */
  predicate IsImage(f: string) {
    Portraits.HasExtension(f, Portraits.ImageExtensions)
  }

  /** The character an image file names, if any. */
  predicate Names1(f: string, c: string) {
    IsImage(f) && Portraits.CleanFilename(f) == c && c != []
  }

  /** The non-empty names `names[i]` of the image files `files[i]`, in
      listing order. */
  function Keep(files: seq<string>, names: seq<string>): (r: seq<string>)
    requires |files| == |names|
    ensures forall c :: c in r <==> exists i :: 0 <= i < |files| && IsImage(files[i]) && names[i] == c && c != []
    decreases |files|
  {
    if files == [] then []
    else
      var rest := Keep(files[1..], names[1..]);
      var own := if IsImage(files[0]) && names[0] != [] then [names[0]] else [];
      forall x ensures x in own + rest <==> exists i :: 0 <= i < |files| && IsImage(files[i]) && names[i] == x && x != [] {
        if x in rest {
          var i :| 0 <= i < |files[1..]| && IsImage(files[1..][i]) && names[1..][i] == x && x != [];
          assert files[i + 1] == files[1..][i];
        }
        if i :| 1 <= i < |files| && IsImage(files[i]) && names[i] == x && x != [] {
          assert files[1..][i - 1] == files[i] && names[1..][i - 1] == names[i];
        }
      }
      own + rest
  }

  /** The cleaned name of every file. */
  function Cleaned(files: seq<string>): (r: seq<string>)
    ensures |r| == |files|
    ensures forall i :: 0 <= i < |files| ==> r[i] == Portraits.CleanFilename(files[i])
  {
    seq(|files|, i requires 0 <= i < |files| => Portraits.CleanFilename(files[i]))
  }

  /** `_get_available_characters`: the distinct names, sorted. */
  function Available(listing: Option<seq<string>>): (r: seq<string>)
    ensures StrictlySorted(r)
    ensures listing.None? ==> r == []
    ensures listing.Some? ==> forall c :: c in r <==> exists i :: 0 <= i < |listing.value| && Names1(listing.value[i], c)
  {
    if listing.None? then []
    else
      var files := listing.value;
      var names := Cleaned(files);
      var r := SortedUnique(Keep(files, names));
      NamesOfCleaned(files);
      r
  }

  lemma NamesOfCleaned(files: seq<string>)
    ensures forall i, c :: 0 <= i < |files| ==>
              (Names1(files[i], c) <==> IsImage(files[i]) && Cleaned(files)[i] == c && c != [])
  {
  }

  /** The dialog's rows; there are none when no character was found. */
  datatype AltDialog = AltDialog(entries: seq<Item>)

  /** What `current_alts or []` leaves in the dialog. Any falsy value becomes
      the empty list; a list is kept; a non-empty text is kept, and
      `char in current_alts` is then a substring test; a truthy number or
      boolean is kept too, and `in` on it raises TypeError. */
  datatype Alts = AltList(names: seq<string>) | AltText(text: string) | NotIterable

  /** `char in self.current_alts`, for the values `in` accepts. */
  predicate IsCurrent(alts: Alts, name: string) {
    match alts
    case AltList(names) => name in names
    case AltText(text) => Contains(text, name)
    case NotIterable => false
  }

  /** Whether a name is a current alt, as a filter. */
  function IsAlt(alts: Alts): string -> bool {
    n => IsCurrent(alts, n)
  }

  /** The errors Python raises in this dialog. `AltsNotIterable` is
      `char in current_alts` on a number or boolean. `CannotUnpackCheckbox`
      is `for _, (_, checkbox) in character_items.values()`: each value is
      an `(item, checkbox)` pair, so the inner pattern tries to unpack the
      checkbox itself. */
  datatype PyError = AltsNotIterable | CannotUnpackCheckbox

  /** `__init__`: one visible row per available name, in sorted order,
      checked exactly when `char in current_alts`. That test raises on the
      first row when the alts are not iterable; with no rows it is never
      made. */
  function Open(listing: Option<seq<string>>, alts: Alts): (r: Result<AltDialog, PyError>)
    ensures r.Err? <==> alts.NotIterable? && Available(listing) != []
    ensures r.Err? ==> r.error == AltsNotIterable
    ensures r.Ok? ==> Texts(r.value.entries) == Available(listing)
    ensures r.Ok? ==> forall i :: 0 <= i < |r.value.entries| ==>
              !r.value.entries[i].hidden && (r.value.entries[i].marked <==> IsCurrent(alts, r.value.entries[i].text))
  {
    var names := SortedUnique(Available(listing));
    ResortKeeps(Available(listing));
    if alts.NotIterable? && names != [] then Err(AltsNotIterable)
    else Ok(AltDialog(Rows(names, alts)))
  }

  /** One shown row per name, checked when the name is current. */
  function Rows(names: seq<string>, alts: Alts): (entries: seq<Item>)
    ensures Texts(entries) == names
    ensures forall i :: 0 <= i < |entries| ==> !entries[i].hidden && (entries[i].marked <==> IsCurrent(alts, entries[i].text))
  {
    var entries := seq(|names|, i requires 0 <= i < |names| => Item(names[i], false, IsCurrent(alts, names[i])));
    assert Texts(entries) == names;
    entries
  }

  /** `sorted(...)` of an already sorted, duplicate-free list changes
      nothing. */
  lemma ResortKeeps(s: seq<string>)
    requires StrictlySorted(s)
    ensures SortedUnique(s) == s
  {
    StrictlySortedUnique(SortedUnique(s), s);
  }

  /** `_filter_characters`. */
  function FilterAlts(d: AltDialog, search: string): (r: AltDialog)
    ensures r.entries == Filter(d.entries, search)
  {
    d.(entries := Filter(d.entries, search))
  }

  /** `_select_all`: checks every visible row. */
  function SelectAll(d: AltDialog): (r: AltDialog)
    ensures r.entries == MarkVisible(d.entries)
  {
    d.(entries := MarkVisible(d.entries))
  }

  /** `_deselect_all` as written: with no rows it returns at once; with
      rows the loop header raises before any box is unchecked. */
  function DeselectAllAsWritten(d: AltDialog): (r: Result<AltDialog, PyError>)
    ensures d.entries == [] <==> r.Ok?
    ensures r.Ok? ==> r.value == d
  {
    if d.entries == [] then Ok(d) else Err(CannotUnpackCheckbox)
  }

  /** `_deselect_all` as its docstring and button promise: every box
      unchecked, hidden rows included. */
  function DeselectAll(d: AltDialog): (r: AltDialog)
    ensures r.entries == Unmark(d.entries)
  {
    d.(entries := Unmark(d.entries))
  }

  predicate IsChecked(e: Item) {
    e.marked
  }

  /** `_update_count`: the number of checked rows. */
  function Count(d: AltDialog): (n: nat)
    ensures n <= |d.entries|
    ensures n == 0 <==> forall i :: 0 <= i < |d.entries| ==> !d.entries[i].marked
  {
    Seqs.Count(d.entries, IsChecked)
  }

  /** The count label's text. */
  function CountLabel(d: AltDialog): string {
    "Selected: " + Decimal(Count(d)) + " character(s)"
  }

  /** `get_selected_characters`: the checked names in row order. */
  function GetSelected(d: AltDialog): (r: seq<string>)
    ensures forall c :: c in r <==> exists i :: 0 <= i < |d.entries| && d.entries[i].marked && d.entries[i].text == c
  {
    Marked(d.entries)
  }

  // ---------------------------------------------------------------------------
  // Properties

  /** Dropping elements keeps a strictly sorted sequence strictly sorted. */
  lemma {:induction false} FilterKeepsSorted(s: seq<string>, keep: string -> bool)
    requires StrictlySorted(s)
    ensures StrictlySorted(Seqs.Filter(s, keep))
    decreases |s|
  {
    if s != [] {
      FilterKeepsSorted(s[1..], keep);
      var rest := Seqs.Filter(s[1..], keep);
      if keep(s[0]) {
        forall y | y in rest ensures LexLess(s[0], y) {
          var j :| 0 <= j < |s[1..]| && s[1..][j] == y;
          assert s[j + 1] == y;
        }
        LemmaPrependSorted(s[0], rest);
      }
    }
  }

  /** On opening, the selection is the available names that are current
      alts, sorted; so a current alt with no portrait is dropped. */
  lemma OpenSelection(listing: Option<seq<string>>, alts: Alts)
    requires Open(listing, alts).Ok?
    ensures GetSelected(Open(listing, alts).value) == Seqs.Filter(Available(listing), IsAlt(alts))
    ensures StrictlySorted(GetSelected(Open(listing, alts).value))
    ensures forall c :: c in GetSelected(Open(listing, alts).value) <==> c in Available(listing) && IsCurrent(alts, c)
  {
    var d := Open(listing, alts).value;
    MarkedIsFilter(d.entries, IsAlt(alts));
    FilterKeepsSorted(Available(listing), IsAlt(alts));
  }

  /** The count shown is the number of names handed back. */
  lemma {:induction false} CountIsSelected(d: AltDialog)
    ensures Count(d) == |GetSelected(d)|
    decreases |d.entries|
  {
    if d.entries != [] {
      var rest := AltDialog(d.entries[1..]);
      CountIsSelected(rest);
      assert Seqs.Filter(d.entries, IsChecked) ==
             (if d.entries[0].marked then [d.entries[0]] else []) + Seqs.Filter(rest.entries, IsChecked);
    }
  }

  /** Deselecting as intended hands back nothing and shows a count of 0. */
  lemma DeselectAllClears(d: AltDialog)
    ensures GetSelected(DeselectAll(d)) == [] && Count(DeselectAll(d)) == 0
  {
  }

  /** As written, "Deselect All" fails on every dialog that lists a
      character and unchecks nothing. */
  lemma DeselectAllAsWrittenFails(d: AltDialog)
    requires d.entries != []
    ensures DeselectAllAsWritten(d).Err?
    ensures GetSelected(DeselectAll(d)) == [] && Count(DeselectAll(d)) == 0
  {
  }

  /** Any image with a non-empty cleaned name gives the dialog a row. So
      opening fails when the alts are not iterable, and otherwise the
      "Deselect All" failure above is reached. */
  lemma OneImageGivesARow(files: seq<string>, f: string, alts: Alts)
    requires f in files && IsImage(f) && Portraits.CleanFilename(f) != []
    ensures Available(Some(files)) != []
    ensures alts.NotIterable? ==> Open(Some(files), alts) == Err(AltsNotIterable)
    ensures !alts.NotIterable? ==>
              && Open(Some(files), alts).Ok?
              && Open(Some(files), alts).value.entries != []
              && DeselectAllAsWritten(Open(Some(files), alts).value).Err?
  {
    var names := Available(Some(files));
    var i :| 0 <= i < |files| && files[i] == f;
    assert Names1(files[i], Portraits.CleanFilename(f));
    assert Portraits.CleanFilename(f) in names;
    var r := Open(Some(files), alts);
    if !alts.NotIterable? {
      assert |Texts(r.value.entries)| == |names| > 0;
    }
  }

  /** "Select All" after a blank search checks every row, so every
      available name is handed back. */
  lemma SelectAllAfterBlankSearch(d: AltDialog, search: string)
    requires Strip(Lower(search)) == []
    ensures GetSelected(SelectAll(FilterAlts(d, search))) == Texts(d.entries)
  {
    var r := SelectAll(FilterAlts(d, search)).entries;
    forall i | 0 <= i < |d.entries| ensures Shows(d.entries[i].text, search) {
      BlankSearchShows(d.entries[i].text, search);
    }
    MarkedIsFilter(r, EveryName());
    assert Texts(r) == Texts(d.entries);
    assert Seqs.Filter(Texts(r), EveryName()) == Texts(r);
  }

  function EveryName(): string -> bool {
    n => true
  }
}

=== FILE: filter.dfy ===
/** The replay table's rows and its filter (ui/widgets/replay_table.py), and
    the main window's filter actions that drive it (ui/main_window.py). A row
    is shown iff it passes the search, the tag filter and the recorded
    filter; filtering selects rows and never changes them. */
module TableFilter {
  import opened Results
  import opened Text
  import opened Seqs
  import TagStrings
  import Store

  /** A row of the table's item model: the eight column texts in display
      order (file name, timestamp, ufc, recorded, video link, description,
      date added, tags) and the check state of the Recorded column. */
  datatype TableRow = TableRow(texts: seq<string>, checked: bool)

  const FileNameColumn := 0
  const UfcColumn := 2
  const DescriptionColumn := 5
  const TagsColumn := 7

  predicate WellFormed(row: TableRow) {
    |row.texts| == 8
  }

  /** `load_replays`: the table becomes one row per record, in record order;
      the Recorded cell has no text and is checked iff the record is recorded. */
  function LoadReplays(records: seq<Store.ReplayRecord>): (rows: seq<TableRow>)
    ensures |rows| == |records|
    ensures forall k :: 0 <= k < |rows| ==> WellFormed(rows[k]) && (rows[k].checked <==> records[k].recorded)
  {
    seq(|records|, k requires 0 <= k < |records| =>
      var r := records[k];
      TableRow([r.fileName, r.timestamp, r.ufc, "", r.videoLink, r.description, r.dateAdded, r.tags],
               r.recorded))
  }

  /** What the table hands on for a row (`_on_double_click` reads columns 0,
      1, 2, 4, 5, 6 and 7; the check state gives `recorded`). */
  function ReadRow(row: TableRow): Store.ReplayRecord
    requires WellFormed(row)
  {
    Store.ReplayRecord(row.texts[0], row.texts[1], row.texts[2], row.checked, row.texts[4],
                       row.texts[5], row.texts[6], row.texts[7])
  }

  /** Loading then reading a row gives the record back: no field is lost or moved. */
  lemma LoadThenRead(records: seq<Store.ReplayRecord>, k: int)
    requires 0 <= k < |records|
    ensures ReadRow(LoadReplays(records)[k]) == records[k]
  {
  }

  // ---------------------------------------------------------------------------
  // Filter state

  /** The proxy's `search_text`, `tag_filters`, `recorded_filter` and `use_and_logic`. */
  datatype FilterState = FilterState(search: string, tagFilters: seq<string>, recorded: Option<bool>, useAnd: bool)

  const Initial := FilterState("", [], None, false)

  /** `setSearchText`: the text lowercased, then stripped. */
  function SetSearchText(st: FilterState, text: string): (r: FilterState)
    ensures r.tagFilters == st.tagFilters && r.recorded == st.recorded && r.useAnd == st.useAnd
    ensures IsStripped(r.search)
    ensures forall i :: 0 <= i < |r.search| ==> !IsUpper(r.search[i])
  {
    st.(search := Strip(Lower(text)))
  }

  /** `setTagFilter`: every tag lowercased, but not stripped. */
  function SetTagFilter(st: FilterState, tags: seq<string>): (r: FilterState)
    ensures r.search == st.search && r.recorded == st.recorded && r.useAnd == st.useAnd
    ensures |r.tagFilters| == |tags|
    ensures forall k :: 0 <= k < |tags| ==> r.tagFilters[k] == Lower(tags[k])
  {
    st.(tagFilters := seq(|tags|, k requires 0 <= k < |tags| => Lower(tags[k])))
  }

  function SetRecordedFilter(st: FilterState, recorded: Option<bool>): (r: FilterState)
    ensures r.search == st.search && r.tagFilters == st.tagFilters && r.useAnd == st.useAnd
    ensures r.recorded == recorded
  {
    st.(recorded := recorded)
  }

  // ---------------------------------------------------------------------------
  // filterAcceptsRow

  /** The row's tags as the filter reads them: the tags text lowercased,
      split on ',', each piece stripped and lowercased, empties dropped. */
  function RowTags(tags: string): (r: seq<string>)
    ensures forall k :: 0 <= k < |r| ==> r[k] != [] && IsStripped(r[k])
  {
    var pieces := TagStrings.Segments(Lower(tags));
    seq(|pieces|, k requires 0 <= k < |pieces| =>
      LowerKeepsStripped(pieces[k]);
      Lower(pieces[k]))
  }

  /** Lowercasing never touches whitespace. */
  lemma LowerKeepsStripped(s: string)
    requires s != [] && IsStripped(s)
    ensures Lower(s) != [] && IsStripped(Lower(s))
  {
  }

  /** The search step: an empty search passes; otherwise the search text must
      occur in the lowercased file name, description or tags. */
  predicate SearchPasses(search: string, row: TableRow)
    requires WellFormed(row)
  {
    search == [] ||
    Contains(Lower(row.texts[FileNameColumn]), search) ||
    Contains(Lower(row.texts[DescriptionColumn]), search) ||
    Contains(Lower(row.texts[TagsColumn]), search)
  }

  /** The tag step: no filter tags pass everything; in AND mode every filter
      tag, in OR mode some filter tag, must be one of the row's tags. */
  predicate TagsPass(st: FilterState, row: TableRow)
    requires WellFormed(row)
  {
    TagsMatch(st.tagFilters, RowTags(row.texts[TagsColumn]), st.useAnd)
  }

  predicate TagsMatch(filters: seq<string>, tagList: seq<string>, useAnd: bool) {
    |filters| == 0 ||
    (if useAnd then forall k :: 0 <= k < |filters| ==> filters[k] in tagList
     else exists k :: 0 <= k < |filters| && filters[k] in tagList)
  }

  /** The recorded step: `None` passes everything, otherwise the check state must equal it. */
  predicate RecordedPasses(st: FilterState, row: TableRow) {
    st.recorded.None? || row.checked == st.recorded.value
  }

  /** `filterAcceptsRow`. */
  predicate Accepts(st: FilterState, row: TableRow)
    requires WellFormed(row)
  {
    SearchPasses(st.search, row) && TagsPass(st, row) && RecordedPasses(st, row)
  }

  /** The rows the proxy shows, in source order. */
  function Visible(st: FilterState, rows: seq<TableRow>): (r: seq<TableRow>)
    requires forall k :: 0 <= k < |rows| ==> WellFormed(rows[k])
    ensures |r| <= |rows|
    ensures forall x :: x in r <==> x in rows && WellFormed(x) && Accepts(st, x)
  {
    Filter(rows, (x: TableRow) => WellFormed(x) && Accepts(st, x))
  }

  /** The initial state shows every row. */
  lemma InitialShowsAll(rows: seq<TableRow>)
    requires forall k :: 0 <= k < |rows| ==> WellFormed(rows[k])
    ensures Visible(Initial, rows) == rows
  {
  }

  // ---------------------------------------------------------------------------
  // Properties of the three steps

  /** Lowercasing an uppercased text gives the lowercased text. */
  lemma LowerUpper(s: string)
    ensures Lower(Upper(s)) == Lower(s)
  {
  }

  /** The query's case does not matter: typing it in capitals sets the same search. */
  lemma SearchQueryCaseInsensitive(st: FilterState, text: string)
    ensures SetSearchText(st, Upper(text)) == SetSearchText(st, text)
  {
    LowerUpper(text);
  }

  /** The row's case does not matter either. */
  lemma SearchRowCaseInsensitive(search: string, row: TableRow)
    requires WellFormed(row)
    ensures var up := TableRow(seq(8, k requires 0 <= k < 8 => Upper(row.texts[k])), row.checked);
            SearchPasses(search, up) <==> SearchPasses(search, row)
  {
    LowerUpper(row.texts[FileNameColumn]);
    LowerUpper(row.texts[DescriptionColumn]);
    LowerUpper(row.texts[TagsColumn]);
  }

  /** A search made of whitespace only is cleared and passes every row. */
  lemma BlankSearchPassesAll(st: FilterState, text: string, row: TableRow)
    requires WellFormed(row)
    requires forall i :: 0 <= i < |text| ==> IsSpace(text[i])
    ensures SearchPasses(SetSearchText(st, text).search, row)
  {
  }

  /** With one filter tag the AND and OR modes agree. */
  lemma SingleTagModesAgree(st: FilterState, row: TableRow)
    requires WellFormed(row) && |st.tagFilters| == 1
    ensures TagsPass(st.(useAnd := true), row) <==> TagsPass(st.(useAnd := false), row)
  {
    SingleMatch(st.tagFilters, RowTags(row.texts[TagsColumn]));
  }

  lemma SingleMatch(filters: seq<string>, tagList: seq<string>)
    requires |filters| == 1
    ensures TagsMatch(filters, tagList, true) <==> TagsMatch(filters, tagList, false)
  {
    if filters[0] in tagList {
      assert TagsMatch(filters, tagList, false);
    } else {
      assert !TagsMatch(filters, tagList, true);
    }
  }

  /** AND mode is the stricter one. */
  lemma AndImpliesOr(st: FilterState, row: TableRow)
    requires WellFormed(row)
    ensures TagsPass(st.(useAnd := true), row) ==> TagsPass(st.(useAnd := false), row)
  {
    if |st.tagFilters| > 0 && TagsPass(st.(useAnd := true), row) {
      assert st.tagFilters[0] in RowTags(row.texts[TagsColumn]);
    }
  }

  /** A filter tag with whitespace at either end is never among a row's tags,
      because the row's tags are stripped and the filter tags are not: in AND
      mode such a filter hides every row. */
  lemma UnstrippedFilterTagHidesAll(st: FilterState, row: TableRow, k: int)
    requires WellFormed(row) && st.useAnd && 0 <= k < |st.tagFilters|
    requires st.tagFilters[k] == [] || !IsStripped(st.tagFilters[k])
    ensures !Accepts(st, row)
  {
  }

  /** Records shaped like a list of three tag strings with everything else
      empty and unrecorded. */
  function TagRow(tags: string): TableRow {
    TableRow(["", "", "", "", "", "", "", tags], false)
  }

  lemma OneLetterTag(c: char)
    requires 'a' <= c <= 'z'
    ensures Strip([c]) == [c] && Lower([c]) == [c]
  {
    var w := [c];
    assert w[0] == c && w[|w| - 1] == c;
    assert !IsSpace(c);
    StripSetNoop(w, Spaces);
    assert LowerChar(c) == c;
  }

  lemma RowTagsTwo(x: char, y: char)
    requires 'a' <= x <= 'z' && 'a' <= y <= 'z'
    ensures RowTags([UpperChar(x), ',', UpperChar(y)]) == [[x], [y]]
  {
    var s := [UpperChar(x), ',', UpperChar(y)];
    assert Lower(s) == [x] + [','] + [y];
    SplitAtSep([x], ',', [y]);
    SplitNoSep([y], ',');
    OneLetterTag(x);
    OneLetterTag(y);
    var parts := Split(Lower(s), ',');
    assert parts == [[x]] + [[y]];
    TagStrings.KeepCons([y], []);
    assert [[y]] == [[y]] + [];
    TagStrings.KeepCons([x], [[y]]);
    assert TagStrings.Segments(Lower(s)) == [[x], [y]];
  }

  lemma RowTagsOne(x: char)
    requires 'a' <= x <= 'z'
    ensures RowTags([UpperChar(x)]) == [[x]]
  {
    assert Lower([UpperChar(x)]) == [x];
    SplitNoSep([x], ',');
    OneLetterTag(x);
    TagStrings.KeepCons([x], []);
    assert [[x]] == [[x]] + [];
    assert TagStrings.Segments([x]) == [[x]];
  }

  /** The rows of the three-record example read as tags {a, b}, {b, c} and {c}. */
  lemma ExampleRowTags()
    ensures RowTags("A,B") == ["a", "b"]
    ensures RowTags("B,C") == ["b", "c"]
    ensures RowTags("C") == ["c"]
  {
    RowTagsTwo('a', 'b');
    RowTagsTwo('b', 'c');
    RowTagsOne('c');
    assert "A,B" == [UpperChar('a'), ',', UpperChar('b')];
    assert "B,C" == [UpperChar('b'), ',', UpperChar('c')];
    assert "C" == [UpperChar('c')];
  }

  /** Filter tags {b, c} over rows tagged {a, b}, {b, c} and {c}: in OR mode
      all three pass; in AND mode only {b, c} does. */
  lemma TagModesExample(ab: TableRow, bc: TableRow, c: TableRow)
    requires WellFormed(ab) && RowTags(ab.texts[TagsColumn]) == ["a", "b"]
    requires WellFormed(bc) && RowTags(bc.texts[TagsColumn]) == ["b", "c"]
    requires WellFormed(c) && RowTags(c.texts[TagsColumn]) == ["c"]
    ensures var any := FilterState("", ["b", "c"], None, false);
            TagsPass(any, ab) && TagsPass(any, bc) && TagsPass(any, c)
    ensures var all := FilterState("", ["b", "c"], None, true);
            !TagsPass(all, ab) && TagsPass(all, bc) && !TagsPass(all, c)
  {
    var any := FilterState("", ["b", "c"], None, false);
    var all := FilterState("", ["b", "c"], None, true);
    assert any.tagFilters[0] == "b" && any.tagFilters[1] == "c";
    assert "b" in RowTags(ab.texts[TagsColumn]) && "b" in RowTags(bc.texts[TagsColumn]);
    assert "c" in RowTags(bc.texts[TagsColumn]) && "c" in RowTags(c.texts[TagsColumn]);
    assert "c" !in RowTags(ab.texts[TagsColumn]) && "b" !in RowTags(c.texts[TagsColumn]);
  }

  // ---------------------------------------------------------------------------
  // apply_filters and the main window's filter actions

  /** `apply_filters(search_text, tags, recorded)`: the search is always
      overwritten, the tag and recorded filters only when an argument is
      given. */
  function ApplyFilters(st: FilterState, search: string, tags: Option<seq<string>>, recorded: Option<bool>)
    : (r: FilterState)
    ensures r == SetSearchText(st, search).(tagFilters := r.tagFilters, recorded := r.recorded)
    ensures tags.None? ==> r.tagFilters == st.tagFilters
    ensures tags.Some? ==> r.tagFilters == SetTagFilter(st, tags.value).tagFilters
    ensures r.recorded == (if recorded.None? then st.recorded else recorded)
    ensures r.useAnd == st.useAnd
  {
    var s1 := SetSearchText(st, search);
    var s2 := if tags.Some? then SetTagFilter(s1, tags.value) else s1;
    if recorded.Some? then SetRecordedFilter(s2, recorded) else s2
  }

  /** The main window's filter actions (`on_filter_action`, the two filter
      dialogs' results and `on_search_changed`); `search` is the search bar's
      text at the time. */
  datatype Action =
    | Search(text: string)
    | TagDialog(tags: seq<string>, useAnd: bool, search: string)
    | RecordedDialog(choice: Option<bool>, search: string)
    | Clear

  function Handle(st: FilterState, a: Action): FilterState {
    match a
    case Search(text) => ApplyFilters(st, text, None, None)
    case TagDialog(tags, useAnd, search) => ApplyFilters(st.(useAnd := useAnd), search, Some(tags), None)
    case RecordedDialog(choice, search) => ApplyFilters(st, search, None, choice)
    case Clear => ApplyFilters(st, "", None, None)
  }

  function HandleAll(st: FilterState, actions: seq<Action>): FilterState
    decreases |actions|
  {
    if |actions| == 0 then st else HandleAll(Handle(st, actions[0]), actions[1..])
  }

  /** "Clear filters" clears only the search: the tag and recorded filters of
      the earlier state stay in force. */
  lemma ClearKeepsTagAndRecordedFilters(st: FilterState)
    ensures Handle(st, Clear).search == []
    ensures Handle(st, Clear).tagFilters == st.tagFilters
    ensures Handle(st, Clear).recorded == st.recorded
  {
    assert Strip(Lower("")) == [];
  }

  /** Once a recorded filter is set, no sequence of actions removes it:
      choosing "All" in the dialog passes `None`, which `apply_filters` ignores. */
  lemma {:induction false} RecordedFilterIsSticky(st: FilterState, actions: seq<Action>)
    requires st.recorded.Some?
    ensures HandleAll(st, actions).recorded.Some?
    decreases |actions|
  {
    if |actions| > 0 {
      RecordedFilterIsSticky(Handle(st, actions[0]), actions[1..]);
    }
  }

  /** For instance: after "only recorded" then "All" then "Clear", an
      unrecorded row stays hidden. */
  lemma RecordedFilterStickyExample(row: TableRow)
    requires WellFormed(row) && !row.checked
    ensures var st := HandleAll(Initial, [RecordedDialog(Some(true), ""), RecordedDialog(None, ""), Clear]);
            !Accepts(st, row)
  {
    var s1 := Handle(Initial, RecordedDialog(Some(true), ""));
    var s2 := Handle(s1, RecordedDialog(None, ""));
    var s3 := Handle(s2, Clear);
    assert s3.recorded == Some(true);
    var acts := [RecordedDialog(Some(true), ""), RecordedDialog(None, ""), Clear];
    assert acts[1..][1..][1..] == [];
    assert HandleAll(Initial, acts) == s3;
  }
}

=== FILE: findreplace.dfy ===
/** The find/replace dialog of ui/dialogs/utility_dialogs.py. It counts and
    selects rows with SQLite's `LIKE '%find%'`, which ignores ASCII case, but
    rewrites them with `REPLACE(column, find, replacement)`, which does not:
    a row that matches only when case is ignored is counted, selected and
    written back unchanged. */
module FindReplace {
  import opened Results
  import opened Text
  import opened Seqs
  import opened Store

  /** `_get_column_name`: the five labels of the column combo box. Any other
      choice is a `KeyError`, here `None`. */
  function ColumnFor(choice: string): (r: Option<Field>)
    ensures r.Some? ==> Editable(r.value) && r.value != Recorded
    ensures r.Some? <==> choice in {"File Name", "Timestamp", "Video Link", "Description", "Tags"}
  {
    if choice == "File Name" then Some(FileName)
    else if choice == "Timestamp" then Some(Timestamp)
    else if choice == "Video Link" then Some(VideoLink)
    else if choice == "Description" then Some(ExtendedDesc)
    else if choice == "Tags" then Some(Tags)
    else None
  }

  // ---------------------------------------------------------------------------
  // LIKE

  /** SQLite's `s LIKE p` without ESCAPE: '%' matches any run of characters,
      '_' exactly one, and any other character matches itself ignoring ASCII
      case. */
  predicate Like(p: string, s: string)
    decreases |p| + |s|
  {
    if |p| == 0 then |s| == 0
    else if p[0] == '%' then Like(p[1..], s) || (|s| > 0 && Like(p, s[1..]))
    else |s| > 0 && (p[0] == '_' || LowerChar(p[0]) == LowerChar(s[0])) && Like(p[1..], s[1..])
  }

  /** A pattern without wildcards. */
  predicate Plain(p: string) {
    '%' !in p && '_' !in p
  }

  /** A lone '%' matches everything. */
  lemma {:induction false} PercentMatchesAll(s: string)
    ensures Like("%", s)
    decreases |s|
  {
    if |s| > 0 {
      PercentMatchesAll(s[1..]);
    } else {
      assert "%"[1..] == "";
    }
  }

  /** `q%` for a plain `q` matches exactly the strings that start with `q`
      ignoring case. */
  lemma {:induction false} LikePrefix(q: string, s: string)
    requires Plain(q)
    ensures Like(q + "%", s) <==> |q| <= |s| && Lower(q) == Lower(s[..|q|])
    decreases |q|
  {
    if |q| == 0 {
      assert q + "%" == "%";
      PercentMatchesAll(s);
      assert Lower(q) == [] == Lower(s[..0]);
    } else {
      var p := q + "%";
      assert p[0] == q[0] && p[1..] == q[1..] + "%";
      assert q[0] != '%' && q[0] != '_' by {
        assert q[0] in q;
      }
      if |s| > 0 {
        LikePrefix(q[1..], s[1..]);
        if |q| <= |s| {
          LowerPrefixStep(q, s);
        }
      }
    }
  }

  /** Prefixes agree ignoring case exactly when the first characters do and
      the rest do. */
  lemma LowerPrefixStep(q: string, s: string)
    requires 0 < |q| <= |s|
    ensures Lower(q) == Lower(s[..|q|]) <==>
            LowerChar(q[0]) == LowerChar(s[0]) && Lower(q[1..]) == Lower(s[1..][..|q| - 1])
  {
    var a, b := Lower(q), Lower(s[..|q|]);
    var a', b' := Lower(q[1..]), Lower(s[1..][..|q| - 1]);
    if a == b {
      assert a[0] == b[0];
      assert a' == b' by {
        forall i | 0 <= i < |a'| ensures a'[i] == b'[i] {
          assert a'[i] == a[i + 1] && b'[i] == b[i + 1];
        }
      }
    }
    if LowerChar(q[0]) == LowerChar(s[0]) && a' == b' {
      forall i | 0 <= i < |a| ensures a[i] == b[i] {
        if i > 0 {
          assert a[i] == a'[i - 1] && b[i] == b'[i - 1];
        }
      }
    }
  }

  /** `%f%` for a plain `f` is a case-insensitive substring test. */
  lemma {:induction false} LikeContains(f: string, s: string)
    requires Plain(f)
    ensures Like("%" + f + "%", s) <==> Contains(Lower(s), Lower(f))
    decreases |s|
  {
    var p := "%" + f + "%";
    assert p[0] == '%' && p[1..] == f + "%";
    LikePrefix(f, s);
    assert (|f| <= |s| && Lower(f) == Lower(s[..|f|])) <==> Lower(f) <= Lower(s);
    if |s| > 0 {
      LikeContains(f, s[1..]);
      assert Lower(s)[1..] == Lower(s[1..]);
    }
  }

  /** `column LIKE pattern` for a cell: NULL never matches, a number is
      compared as its decimal text. */
  predicate CellLike(v: Cell, p: string) {
    match v
    case Null => false
    case Str(s) => Like(p, s)
    case Num(n) => Like(p, IntText(n))
  }

  // ---------------------------------------------------------------------------
  // REPLACE

  /** SQLite's `REPLACE(s, y, z)`: every occurrence of `y`, left to right and
      without overlap, becomes `z`, matching case exactly; an empty `y`
      leaves `s` as it is. */
  function Replace(s: string, y: string, z: string): (r: string)
    ensures y == [] ==> r == s
    decreases |s|
  {
    if y == [] || |s| == 0 then s
    else if y <= s then z + Replace(s[|y|..], y, z)
    else [s[0]] + Replace(s[1..], y, z)
  }

  /** REPLACE changes nothing in a text that does not contain `y` exactly. */
  lemma {:induction false} ReplaceAbsent(s: string, y: string, z: string)
    requires !Contains(s, y)
    ensures Replace(s, y, z) == s
    decreases |s|
  {
    if y != [] && |s| > 0 {
      ReplaceAbsent(s[1..], y, z);
    }
  }

  /** Replacing a character by text without it removes every occurrence. */
  lemma {:induction false} ReplaceRemovesAll(s: string, ch: char, z: string)
    requires ch !in z
    ensures ch !in Replace(s, [ch], z)
    decreases |s|
  {
    if |s| > 0 {
      if [ch] <= s {
        assert s[1..] == s[|[ch]|..];
        ReplaceRemovesAll(s[1..], ch, z);
      } else {
        ReplaceRemovesAll(s[1..], ch, z);
      }
    }
  }

  /** REPLACE of a cell; a number is first turned into its text. */
  function ReplaceCell(v: Cell, y: string, z: string): (r: Cell)
    ensures v.Null? <==> r.Null?
    ensures !r.Num?
  {
    match v
    case Null => Null
    case Str(s) => Str(Replace(s, y, z))
    case Num(n) => Str(Replace(IntText(n), y, z))
  }

  // ---------------------------------------------------------------------------
  // The dialog

  function Pattern(find: string): string {
    "%" + find + "%"
  }

  /** `_count_matches`: active rows whose column matches `%find%`. */
  function CountMatches(c: Catalog, f: Field, find: string): (n: nat)
    ensures n <= |c.replays|
    ensures n == 0 <==> forall k :: 0 <= k < |c.replays| ==> !CellLike(Get(c.replays[k], f), Pattern(find))
    ensures n == |set k | 0 <= k < |c.replays| && CellLike(Get(c.replays[k], f), Pattern(find))|
  {
    var matches := (r: Replay) => CellLike(Get(r, f), Pattern(find));
    assert Positions(c.replays, matches) == set k | 0 <= k < |c.replays| && CellLike(Get(c.replays[k], f), Pattern(find));
    Count(c.replays, matches)
  }

  /** `_perform_replace`: `UPDATE replays SET col = REPLACE(col, find, rep)
      WHERE col LIKE '%find%'`. Only column `f` of matching active rows
      changes; the bin and every other column stay as they were. */
  function PerformReplace(c: Catalog, f: Field, find: string, rep: string): (r: Catalog)
    requires f != Recorded
    ensures r.bin == c.bin && r.dbCode == c.dbCode
    ensures |r.replays| == |c.replays|
    ensures forall k :: 0 <= k < |c.replays| ==> r.replays[k].ufc == c.replays[k].ufc
    ensures forall k, g :: 0 <= k < |c.replays| && g != f ==> Get(r.replays[k], g) == Get(c.replays[k], g)
    ensures forall k :: 0 <= k < |c.replays| && !CellLike(Get(c.replays[k], f), Pattern(find)) ==>
              r.replays[k] == c.replays[k]
    ensures forall k :: 0 <= k < |c.replays| && CellLike(Get(c.replays[k], f), Pattern(find)) ==>
              Get(r.replays[k], f) == ReplaceCell(Get(c.replays[k], f), find, rep)
  {
    c.(replays := seq(|c.replays|, k requires 0 <= k < |c.replays| =>
         var row := c.replays[k];
         if CellLike(Get(row, f), Pattern(find)) then Set(row, f, ReplaceCell(Get(row, f), find, rep)) else row))
  }

  lemma PerformReplaceKeepsValid(c: Catalog, f: Field, find: string, rep: string)
    requires Valid(c) && f != Recorded
    ensures Valid(PerformReplace(c, f, find, rep))
  {
    var r := PerformReplace(c, f, find, rep);
    forall x | x in r.replays
      ensures TextColumns(x)
    {
      var k :| 0 <= k < |r.replays| && r.replays[k] == x;
      assert c.replays[k] in c.replays;
      forall g | g != Recorded ensures !Get(x, g).Num? {
        if g != f {
          assert Get(x, g) == Get(c.replays[k], g);
        }
      }
    }
  }

  /** `_apply_replace` with the user's answer `confirmed`: the inputs are
      stripped; an empty find text, an unknown label, no match or a "No"
      leave the catalogue unchanged; otherwise the replace runs. */
  function ApplyReplace(c: Catalog, choice: string, findInput: string, replaceInput: string,
                        confirmed: bool): (r: Catalog)
    ensures Strip(findInput) == [] ==> r == c
    ensures ColumnFor(choice).None? ==> r == c
    ensures !confirmed ==> r == c
    ensures ColumnFor(choice).Some? && CountMatches(c, ColumnFor(choice).value, Strip(findInput)) == 0 ==> r == c
    ensures r.bin == c.bin && r.dbCode == c.dbCode
  {
    var find := Strip(findInput);
    var rep := Strip(replaceInput);
    if find == [] then c
    else
      match ColumnFor(choice)
      case None => c
      case Some(f) =>
        if CountMatches(c, f, find) == 0 || !confirmed then c
        else PerformReplace(c, f, find, rep)
  }

  /** A row whose column contains the find text only in another case is
      counted by LIKE and selected by the UPDATE, but REPLACE leaves it as it
      was. */
  lemma CountedButUnchanged(c: Catalog, f: Field, find: string, rep: string, k: int)
    requires f != Recorded && Plain(find) && 0 <= k < |c.replays|
    requires Get(c.replays[k], f).Str?
    requires Contains(Lower(Get(c.replays[k], f).s), Lower(find)) && !Contains(Get(c.replays[k], f).s, find)
    ensures CountMatches(c, f, find) > 0
    ensures PerformReplace(c, f, find, rep).replays[k] == c.replays[k]
  {
    var row := c.replays[k];
    LikeContains(find, Get(row, f).s);
    ReplaceAbsent(Get(row, f).s, find, rep);
    var r := PerformReplace(c, f, find, rep);
    SameColumns(r.replays[k], row);
  }

  /** "Ryu Combo" contains "combo" ignoring case, but not exactly. */
  lemma RyuComboFacts()
    ensures Contains(Lower("Ryu Combo"), Lower("combo"))
    ensures !Contains("Ryu Combo", "combo")
  {
    RyuComboCaseless();
    RyuComboExact();
  }

  lemma RyuComboCaseless()
    ensures Contains(Lower("Ryu Combo"), Lower("combo"))
  {
    var hay := Lower("Ryu Combo");
    var needle := Lower("combo");
    assert needle == "combo" by {
      assert forall i :: 0 <= i < 5 ==> needle[i] == "combo"[i];
    }
    assert hay[4..] == "combo" by {
      assert forall i :: 4 <= i < 9 ==> hay[i] == LowerChar("Ryu Combo"[i]);
    }
    ContainsIff(hay, needle);
    assert needle <= hay[4..];
  }

  lemma RyuComboExact()
    ensures !Contains("Ryu Combo", "combo")
  {
    var hay := "Ryu Combo";
    ContainsIff(hay, "combo");
    forall i | 0 <= i <= |hay|
      ensures !("combo" <= hay[i..])
    {
      if i < |hay| {
        assert hay[i..][0] == hay[i] != 'c';
      }
    }
  }

  /** For instance, replacing "combo" by "punish" in a catalogue where some
      description reads "Ryu Combo" counts that row and leaves it as it was. */
  lemma CaseMismatchExample(c: Catalog, k: int)
    requires 0 <= k < |c.replays| && c.replays[k].extendedDesc == Str("Ryu Combo")
    ensures CountMatches(c, ExtendedDesc, "combo") > 0
    ensures PerformReplace(c, ExtendedDesc, "combo", "punish").replays[k] == c.replays[k]
  {
    assert Plain("combo");
    RyuRow(c.replays[k]);
    CountedButUnchanged(c, ExtendedDesc, "combo", "punish", k);
  }

  lemma RyuRow(row: Replay)
    requires row.extendedDesc == Str("Ryu Combo")
    ensures Get(row, ExtendedDesc).Str?
    ensures Contains(Lower(Get(row, ExtendedDesc).s), Lower("combo")) && !Contains(Get(row, ExtendedDesc).s, "combo")
  {
    RyuComboFacts();
  }
}

=== FILE: listitems.dfy ===
/** The list widgets of the two picker dialogs in
    ui/dialogs/character_dialogs.py: rows with a text, a hidden flag the
    search box sets, and a mark (selection in the tag picker, a checked box
    in the alt-character picker). Rows are kept in list order. */
module ListItems {
  import opened Text
  import Seqs

  datatype Item = Item(text: string, hidden: bool, marked: bool)

  /** The row texts in order. */
  function Texts(items: seq<Item>): (r: seq<string>)
    ensures |r| == |items|
    ensures forall i :: 0 <= i < |r| ==> r[i] == items[i].text
  {
    seq(|items|, i requires 0 <= i < |items| => items[i].text)
  }

  /** The texts of the marked rows, in list order. */
  function Marked(items: seq<Item>): (r: seq<string>)
    ensures |r| <= |items|
    ensures forall t :: t in r <==> exists i :: 0 <= i < |items| && items[i].marked && items[i].text == t
    decreases |items|
  {
    if items == [] then []
    else
      var rest := Marked(items[1..]);
      assert forall t :: (exists i :: 1 <= i < |items| && items[i].marked && items[i].text == t) <==> t in rest by {
        forall t | t in rest ensures exists i :: 1 <= i < |items| && items[i].marked && items[i].text == t {
          var i :| 0 <= i < |items[1..]| && items[1..][i].marked && items[1..][i].text == t;
          assert items[i + 1] == items[1..][i];
        }
        forall t, i | 1 <= i < |items| && items[i].marked && items[i].text == t ensures t in rest {
          assert items[1..][i - 1] == items[i];
        }
      }
      (if items[0].marked then [items[0].text] else []) + rest
  }

  /** Unmarked rows contribute nothing. */
  lemma {:induction false} NoneMarked(items: seq<Item>)
    requires forall i :: 0 <= i < |items| ==> !items[i].marked
    ensures Marked(items) == []
    decreases |items|
  {
    if items != [] {
      NoneMarked(items[1..]);
    }
  }

  /** Marked texts depend on texts and marks alone. */
  lemma {:induction false} SameMarks(a: seq<Item>, b: seq<Item>)
    requires |a| == |b|
    requires forall i :: 0 <= i < |a| ==> a[i].text == b[i].text && a[i].marked == b[i].marked
    ensures Marked(a) == Marked(b)
    decreases |a|
  {
    if a != [] {
      SameMarks(a[1..], b[1..]);
    }
  }

  /** Rows marked exactly when `keep` holds of their text give the texts
      `keep` selects. */
  lemma {:induction false} MarkedIsFilter(items: seq<Item>, keep: string -> bool)
    requires forall i :: 0 <= i < |items| ==> (items[i].marked <==> keep(items[i].text))
    ensures Marked(items) == Seqs.Filter(Texts(items), keep)
    decreases |items|
  {
    if items != [] {
      MarkedIsFilter(items[1..], keep);
      assert Texts(items)[1..] == Texts(items[1..]);
    }
  }

  /** Both search boxes: `search.lower().strip() in text.lower()`. */
  predicate Shows(text: string, search: string) {
    Contains(Lower(text), Strip(Lower(search)))
  }

  /** `Shows` for a fixed search text, as a filter. */
  function Matching(search: string): string -> bool {
    t => Shows(t, search)
  }

  /** A blank search shows every text. */
  lemma BlankSearchShows(text: string, search: string)
    requires Strip(Lower(search)) == []
    ensures Shows(text, search)
  {
    ContainsEmpty(Lower(text));
  }

  /** The search box: a row is hidden exactly when the search does not show
      it; texts and marks stay. */
  function Filter(items: seq<Item>, search: string): (r: seq<Item>)
    ensures |r| == |items|
    ensures forall i :: 0 <= i < |r| ==>
              r[i].text == items[i].text && r[i].marked == items[i].marked &&
              (r[i].hidden <==> !Shows(items[i].text, search))
  {
    seq(|items|, i requires 0 <= i < |items| => items[i].(hidden := !Shows(items[i].text, search)))
  }

  /** "Select All": every visible row is marked, hidden rows keep their
      mark. */
  function MarkVisible(items: seq<Item>): (r: seq<Item>)
    ensures |r| == |items|
    ensures forall i :: 0 <= i < |r| ==>
              r[i].text == items[i].text && r[i].hidden == items[i].hidden &&
              (r[i].marked <==> items[i].marked || !items[i].hidden)
  {
    seq(|items|, i requires 0 <= i < |items| => if items[i].hidden then items[i] else items[i].(marked := true))
  }

  /** Every row unmarked, hidden or not. */
  function Unmark(items: seq<Item>): (r: seq<Item>)
    ensures |r| == |items|
    ensures forall i :: 0 <= i < |r| ==> r[i].text == items[i].text && r[i].hidden == items[i].hidden && !r[i].marked
    ensures Marked(r) == []
  {
    var r := seq(|items|, i requires 0 <= i < |items| => items[i].(marked := false));
    NoneMarked(r);
    r
  }

  /** The search neither marks nor unmarks: a marked row the search hides
      is still marked. */
  lemma FilterKeepsMarked(items: seq<Item>, search: string)
    ensures Marked(Filter(items, search)) == Marked(items)
  {
    SameMarks(items, Filter(items, search));
  }

  lemma UnmarkedThenFiltered(items: seq<Item>, search: string)
    ensures var f := Filter(Unmark(items), search);
      Texts(f) == Texts(items) &&
      forall i :: 0 <= i < |f| ==> !f[i].marked && (f[i].hidden <==> !Shows(f[i].text, search))
  {
    assert Texts(Unmark(items)) == Texts(items);
  }

  lemma MarkVisibleOfFiltered(f: seq<Item>, search: string)
    requires forall i :: 0 <= i < |f| ==> !f[i].marked && (f[i].hidden <==> !Shows(f[i].text, search))
    ensures Marked(MarkVisible(f)) == Seqs.Filter(Texts(MarkVisible(f)), Matching(search))
  {
    var r := MarkVisible(f);
    assert forall i :: 0 <= i < |r| ==> r[i].text == f[i].text && (r[i].marked <==> !f[i].hidden);
    MarkedIsFilter(r, Matching(search));
  }

  lemma MarkVisibleKeepsTexts(f: seq<Item>)
    ensures Texts(MarkVisible(f)) == Texts(f)
  {
  }

  /** Unmarking, searching and then "Select All" marks exactly the rows
      whose text the search shows, in list order. */
  lemma MarkMatching(items: seq<Item>, search: string)
    ensures Marked(MarkVisible(Filter(Unmark(items), search))) == Seqs.Filter(Texts(items), Matching(search))
  {
    var f := Filter(Unmark(items), search);
    UnmarkedThenFiltered(items, search);
    MarkVisibleOfFiltered(f, search);
    MarkVisibleKeepsTexts(f);
  }
}

=== FILE: mainwindow.dfy ===
/** The catalogue logic of the main window in ui/main_window.py: the
    database code, adding a replay under a systematic name, and renaming the
    video files of the selected rows. Dialog boxes become parameters (the
    answer the user gave), `uuid4` and `datetime.now` become parameters, and
    the file system is the set of paths that exist. */
module MainWindow {
  import opened Results
  import opened Text
  import Stamps
  import opened Store
  import opened Naming
  import WinPath

  // ---------------------------------------------------------------------------
  // The database code

  /** What `_get_database_code` returns when there is no database or the
      connection raises. */
  const UnknownCode := "UNKNOWN"

  /** `str(uuid.uuid4())[:8].upper()`; the uuid text is a parameter. */
  function NewDbCode(uuidText: string): (r: string)
    ensures |uuidText| >= 8 ==> |r| == 8
    ensures forall k :: 0 <= k < |r| ==> !IsLower(r[k])
    ensures '_' !in uuidText ==> '_' !in r
  {
    var n := if |uuidText| < 8 then |uuidText| else 8;
    var r := Upper(uuidText[..n]);
    assert forall k :: 0 <= k < |r| ==> r[k] == UpperChar(uuidText[k]);
    r
  }

  /** `_get_database_code` on database `db`; `failed` says the connection
      raised. A stored code is returned as it is; without one, a new code is
      made from `uuidText`, stored and returned. Returns the database as it
      is afterwards together with the code. */
  function GetDatabaseCode(db: Option<Catalog>, uuidText: string, failed: bool): (r: (Option<Catalog>, string))
    ensures db.None? || failed ==> r == (db, UnknownCode)
    ensures db.Some? && !failed ==>
      && r.0.Some?
      && r.0.value.replays == db.value.replays && r.0.value.bin == db.value.bin
      && r.0.value.dbCode == Some(r.1)
      && r.1 == (if db.value.dbCode.Some? then db.value.dbCode.value else NewDbCode(uuidText))
  {
    match db
    case None => (db, UnknownCode)
    case Some(c) =>
      if failed then (db, UnknownCode)
      else
        match c.dbCode
        case Some(code) => (db, code)
        case None =>
          var code := NewDbCode(uuidText);
          (Some(c.(dbCode := Some(code))), code)
  }

  /** Once a call has gone through, every later call returns the same code
      and changes nothing, whatever uuid it would have used. */
  lemma DatabaseCodeIsStable(db: Option<Catalog>, first: string, later: string)
    requires db.Some?
    ensures var (db1, code) := GetDatabaseCode(db, first, false);
            GetDatabaseCode(db1, later, false) == (db1, code)
  {
  }

  // ---------------------------------------------------------------------------
  // Answers to "would you like to set one now?"

  /** The character the add and rename flows go on with: the one already
      set, else (when the user agrees to set one) the one read back after the
      picker; an empty text counts as not set. */
  function Prompted(given: string, agreed: bool, pickedLater: string): (r: Option<string>)
    ensures r.Some? ==> r.value != []
    ensures given != [] ==> r == Some(given)
    ensures r.None? <==> given == [] && (!agreed || pickedLater == [])
  {
    if given != [] then Some(given)
    else if agreed && pickedLater != [] then Some(pickedLater)
    else None
  }

  // ---------------------------------------------------------------------------
  // on_add_replay

  /** `data.get(key, '')`. */
  function Entry(data: map<string, string>, key: string): string {
    if key in data then data[key] else ""
  }

  datatype AddOutcome =
    | NoDatabase
    | NoCharacter
    | Added(fileName: string, ufc: string)
    | AddFailed(error: string)

  /** The text of the TypeError that `add_replay` raises when called with
      the keyword `ufc`, which its signature does not have. */
  const UnexpectedUfc := "ReplayDatabase.add_replay() got an unexpected keyword argument 'ufc'"

  /** The name and code `on_add_replay` makes before it calls `add_replay`
      from the sanitized character `safe`: a fresh replay code and the
      systematic name that carries it. */
  function AddName(safe: string, ufcUuid: string, dbCode: string, now: Stamps.DateTime): (r: (string, string))
    requires Stamps.Valid(now)
    ensures r.1 == GenerateUfc(ufcUuid)
    ensures EndsWith(r.0, Stamps.FileStamp(now))
  {
    var ufc := GenerateUfc(ufcUuid);
    (SystematicName(safe, ufc, dbCode, now), ufc)
  }

  lemma GenerateUfcPlain(ufcUuid: string)
    requires '_' !in ufcUuid
    ensures '_' !in GenerateUfc(ufcUuid)
  {
    var ufc := GenerateUfc(ufcUuid);
    assert forall k :: 4 <= k < |ufc| ==> ufc[k] == UpperChar(ufcUuid[k - 4]);
  }

  /** The name carries its parts: parsing it gives back the character, the
      replay code, the database code and the stamp. */
  lemma AddNameParses(safe: string, ufcUuid: string, dbCode: string, now: Stamps.DateTime)
    requires Stamps.Valid(now) && '_' !in ufcUuid && '_' !in dbCode
    ensures var (name, ufc) := AddName(safe, ufcUuid, dbCode, now);
            ParseName(name) == Some(NameParts(safe, ufc, dbCode, Stamps.FileStamp(now)))
  {
    GenerateUfcPlain(ufcUuid);
    SystematicNameParses(safe, GenerateUfc(ufcUuid), dbCode, now);
  }

  /** `on_add_replay` as written. With a database and a character it makes
      the systematic name and fetches (perhaps creates) the database code,
      then calls `add_replay(..., ufc=ufc)`, which raises TypeError before
      touching the tables; the handler shows the error. */
  function OnAddReplay(db: Option<Catalog>, data: map<string, string>, agreed: bool, pickedLater: string,
                       ufcUuid: string, dbUuid: string, dbFailed: bool, now: Stamps.DateTime)
    : (r: (Option<Catalog>, AddOutcome))
    requires Stamps.Valid(now)
    ensures r.0.None? <==> db.None?
    ensures r.0.Some? ==> r.0.value.replays == db.value.replays && r.0.value.bin == db.value.bin
    ensures !r.1.Added?
    ensures r.1 == NoDatabase <==> db.None?
    ensures db.Some? ==> (r.1 == NoCharacter <==> Prompted(Entry(data, "filename_character"), agreed, pickedLater).None?)
  {
    if db.None? then (db, NoDatabase)
    else
      match Prompted(Entry(data, "filename_character"), agreed, pickedLater)
      case None => (db, NoCharacter)
      case Some(character) =>
        var (db1, dbCode) := GetDatabaseCode(db, dbUuid, dbFailed);
        var (fileName, ufc) := AddName(Sanitize(character), ufcUuid, dbCode, now);
        (db1, AddFailed(UnexpectedUfc))
  }

  /** Whatever the inputs, `on_add_replay` as written never adds a replay. */
  lemma OnAddReplayNeverAdds(db: Option<Catalog>, data: map<string, string>, agreed: bool, pickedLater: string,
                             ufcUuid: string, dbUuid: string, dbFailed: bool, now: Stamps.DateTime)
    requires Stamps.Valid(now) && db.Some?
    ensures var (db1, _) := OnAddReplay(db, data, agreed, pickedLater, ufcUuid, dbUuid, dbFailed, now);
            |db1.value.replays| == |db.value.replays|
  {
  }

  /** `on_add_replay` as evidently intended: the row is stored under the
      replay code that the file name carries. A clash with an active code
      makes `add_replay` raise, and the handler shows the error. */
  function OnAddReplayIntended(db: Option<Catalog>, data: map<string, string>, agreed: bool, pickedLater: string,
                               ufcUuid: string, dbUuid: string, dbFailed: bool, now: Stamps.DateTime)
    : (r: (Option<Catalog>, AddOutcome))
    requires Stamps.Valid(now)
    ensures r.0.None? <==> db.None?
    ensures r.1 == NoDatabase <==> db.None?
    ensures r.1.Added? ==>
      && |r.0.value.replays| == |db.value.replays| + 1
      && r.0.value.replays[..|db.value.replays|] == db.value.replays
      && r.0.value.bin == db.value.bin
      && r.0.value.replays[|db.value.replays|].ufc == r.1.ufc
      && r.0.value.replays[|db.value.replays|].fileName == Str(r.1.fileName)
    ensures r.1.AddFailed? ==> r.0.value.replays == db.value.replays && r.0.value.bin == db.value.bin
  {
    if db.None? then (db, NoDatabase)
    else
      match Prompted(Entry(data, "filename_character"), agreed, pickedLater)
      case None => (db, NoCharacter)
      case Some(character) =>
        var (db1, dbCode) := GetDatabaseCode(db, dbUuid, dbFailed);
        var (fileName, ufc) := AddName(Sanitize(character), ufcUuid, dbCode, now);
        match AddReplayWithUfc(db1.value, fileName, Entry(data, "timestamp"), Entry(data, "video_link"),
                               Entry(data, "description"), Entry(data, "tags"), ufc, now)
        case Err(_) => (db1, AddFailed("UNIQUE constraint failed: replays.ufc"))
        case Ok(c) => (Some(c), Added(fileName, ufc))
  }

  /** With the intended call, the code stored in the new row is the code
      that its file name carries, as long as the uuid texts and a stored
      database code hold no '_' (uuid texts are hex digits and dashes). */
  lemma IntendedRowMatchesItsName(db: Option<Catalog>, data: map<string, string>, agreed: bool, pickedLater: string,
                                  ufcUuid: string, dbUuid: string, dbFailed: bool, now: Stamps.DateTime)
    requires Stamps.Valid(now)
    requires '_' !in ufcUuid && '_' !in dbUuid
    requires db.Some? && db.value.dbCode.Some? ==> '_' !in db.value.dbCode.value
    ensures var (db1, out) := OnAddReplayIntended(db, data, agreed, pickedLater, ufcUuid, dbUuid, dbFailed, now);
            out.Added? ==>
              var row := db1.value.replays[|db1.value.replays| - 1];
              && row.fileName == Str(out.fileName)
              && ParseName(out.fileName).Some?
              && ParseName(out.fileName).value.ufc == row.ufc
  {
    if db.Some? {
      match Prompted(Entry(data, "filename_character"), agreed, pickedLater)
      case None =>
      case Some(character) =>
        var (db1, dbCode) := GetDatabaseCode(db, dbUuid, dbFailed);
        assert '_' !in dbCode;
        AddNameParses(Sanitize(character), ufcUuid, dbCode, now);
    }
  }

  // ---------------------------------------------------------------------------
  // _generate_renamed_path

  /** What the candidate paths are built from: the directory of the
      original, the systematic name and the original's extension. */
  datatype Target = Target(dir: string, base: string, ext: string)

  /** The pieces `_generate_renamed_path` computes for `original` from the
      sanitized character, the replay code, the database code and the clock
      reading taken for this file. */
  function TargetOf(original: string, character: string, ufc: string, dbCode: string, now: Stamps.DateTime): Target
    requires Stamps.Valid(now)
  {
    Target(WinPath.Dirname(original), SystematicName(character, ufc, dbCode, now), WinPath.SplitExt(original).1)
  }

  /** The systematic name is long enough and does not start with a
      separator, as holds whenever the character does not. */
  predicate Usable(t: Target) {
    |t.base| >= 3 && !WinPath.IsSep(t.base[0])
  }

  lemma TargetOfUsable(original: string, character: string, ufc: string, dbCode: string, now: Stamps.DateTime)
    requires Stamps.Valid(now) && (character == [] || !WinPath.IsSep(character[0]))
    ensures Usable(TargetOf(original, character, ufc, dbCode, now))
  {
    var base := SystematicName(character, ufc, dbCode, now);
    assert base == character + "_" + ufc + "_UDC-" + dbCode + "_" + Stamps.FileStamp(now);
    assert base[0] == (character + "_")[0];
  }

  /** "" for the first try, then "_1", "_2", ... */
  function Suffix(counter: nat): string {
    if counter == 0 then "" else "_" + Decimal(counter)
  }

  lemma SuffixInjective(i: nat, j: nat)
    requires Suffix(i) == Suffix(j)
    ensures i == j
  {
    if i != 0 && j != 0 {
      assert Decimal(i) == Suffix(i)[1..] && Decimal(j) == Suffix(j)[1..];
      DecimalInjective(i, j);
    }
  }

  /** The `counter`-th file name tried. */
  function CandidateName(t: Target, counter: nat): string {
    t.base + Suffix(counter) + t.ext
  }

  /** The `counter`-th path tried. */
  function Candidate(t: Target, counter: nat): string {
    WinPath.Join(t.dir, CandidateName(t, counter))
  }

  lemma CandidateNamesDistinct(t: Target, i: nat, j: nat)
    requires CandidateName(t, i) == CandidateName(t, j)
    ensures i == j
  {
    var x, y := CandidateName(t, i), CandidateName(t, j);
    assert Suffix(i) == x[|t.base|..|x| - |t.ext|];
    assert Suffix(j) == y[|t.base|..|y| - |t.ext|];
    SuffixInjective(i, j);
  }

  /** Two names of at least three characters that agree on the first three
      and agree after the first `m <= 2` are equal. */
  lemma TailsAgree(x: string, y: string, pre: string, m: nat)
    requires |x| >= 3 && |y| >= 3 && x[..3] == y[..3] && m <= 2
    requires pre + x[m..] == pre + y[m..]
    ensures x == y
  {
    assert x[m..] == (pre + x[m..])[|pre|..];
    assert y[m..] == (pre + y[m..])[|pre|..];
    assert x == x[..m] + x[m..] && y == y[..m] + y[m..];
    assert x[..m] == x[..3][..m];
    assert y[..m] == y[..3][..m];
  }

  /** Joining onto one directory two names that share their first three
      characters, the first not a separator, gives different paths for
      different names. */
  lemma JoinSeparates(dir: string, x: string, y: string)
    requires |x| >= 3 && |y| >= 3 && x[..3] == y[..3] && !WinPath.IsSep(x[0])
    requires WinPath.Join(dir, x) == WinPath.Join(dir, y)
    ensures x == y
  {
    var pre, m := WinPath.JoinKeepsTail(dir, x, y);
    TailsAgree(x, y, pre, m);
  }

  /** Different counters give different paths, so the loop of
      `_generate_renamed_path` never tries a path twice. */
  lemma {:induction false} CandidatesDistinct(t: Target, i: nat, j: nat)
    requires Usable(t) && Candidate(t, i) == Candidate(t, j)
    ensures i == j
  {
    var x, y := CandidateName(t, i), CandidateName(t, j);
    assert x[..3] == t.base[..3] == y[..3] && x[0] == t.base[0];
    JoinSeparates(t.dir, x, y);
    CandidateNamesDistinct(t, i, j);
  }

  /** No two counters give the same candidate. */
  ghost predicate Injective(cand: nat -> string) {
    forall i: nat, j: nat :: cand(i) == cand(j) ==> i == j
  }

  /** The candidates tried before the `counter`-th. */
  function Tried(cand: nat -> string, counter: nat): set<string> {
    if counter == 0 then {} else Tried(cand, counter - 1) + {cand(counter - 1)}
  }

  lemma {:induction false} TriedSize(cand: nat -> string, counter: nat)
    requires Injective(cand)
    ensures |Tried(cand, counter)| == counter
    ensures forall j: nat :: counter <= j ==> cand(j) !in Tried(cand, counter)
  {
    if counter > 0 {
      TriedSize(cand, counter - 1);
    }
  }

  lemma {:induction false} SubsetSize(a: set<string>, b: set<string>)
    requires a <= b
    ensures |a| <= |b|
    decreases |a|
  {
    if a != {} {
      var x :| x in a;
      SubsetSize(a - {x}, b - {x});
    }
  }

  /** The search loop of `_generate_renamed_path` over any injective family
      of candidates: the first candidate, in counter order, outside
      `onDisk`. It ends for every finite `onDisk`, since each round meets a
      new member of it. */
  method FirstFree(cand: nat -> string, onDisk: set<string>) returns (path: string, counter: nat)
    requires Injective(cand)
    ensures path == cand(counter) && path !in onDisk
    ensures forall j: nat :: j < counter ==> cand(j) in onDisk
  {
    counter := 0;
    path := cand(0);
    while path in onDisk
      invariant path == cand(counter)
      invariant forall j: nat :: j < counter ==> cand(j) in onDisk
      invariant Tried(cand, counter) <= onDisk
      invariant |Tried(cand, counter)| == counter <= |onDisk|
      decreases |onDisk| - counter
    {
      TriedSize(cand, counter + 1);
      SubsetSize(Tried(cand, counter + 1), onDisk);
      counter := counter + 1;
      path := cand(counter);
    }
  }

  /** `_generate_renamed_path`, with `onDisk` the set of paths that exist:
      the first candidate path, in counter order, that does not exist. */
  method GenerateRenamedPath(t: Target, onDisk: set<string>) returns (path: string, counter: nat)
    requires Usable(t)
    ensures path == Candidate(t, counter) && path !in onDisk
    ensures forall j: nat :: j < counter ==> Candidate(t, j) in onDisk
  {
    var cand := (n: nat) => Candidate(t, n);
    forall i: nat, j: nat | cand(i) == cand(j)
      ensures i == j
    {
      CandidatesDistinct(t, i, j);
    }
    path, counter := FirstFree(cand, onDisk);
    forall j: nat | j < counter
      ensures Candidate(t, j) in onDisk
    {
      assert cand(j) in onDisk;
    }
  }

  /** `path` is one of the paths tried for `t`. */
  ghost predicate IsCandidate(path: string, t: Target) {
    exists n: nat :: path == Candidate(t, n)
  }

  lemma NoSepsConcat(a: string, b: string)
    requires WinPath.NoSeps(a) && WinPath.NoSeps(b)
    ensures WinPath.NoSeps(a + b)
  {
    forall i | 0 <= i < |a + b| ensures !WinPath.IsSep((a + b)[i]) {
      if i >= |a| {
        assert (a + b)[i] == b[i - |a|];
      }
    }
  }

  /** A sanitized name holds no separator and no ':'. */
  lemma SafeNamePlain(s: string)
    requires IsSafeName(s)
    ensures WinPath.NoSeps(s) && ':' !in s
  {
    assert forall i :: 0 <= i < |s| ==> !Reserved(s[i]);
  }

  /** The systematic name of a sanitized character is a plain file name. */
  lemma SystematicNamePlain(character: string, ufc: string, dbCode: string, now: Stamps.DateTime)
    requires Stamps.Valid(now) && IsSafeName(character)
    requires WinPath.NoSeps(ufc) && WinPath.NoSeps(dbCode) && ':' !in ufc
    ensures var b := SystematicName(character, ufc, dbCode, now);
            |b| >= 3 && WinPath.NoSeps(b) && WinPath.Relative(b)
  {
    var stamp := Stamps.FileStamp(now);
    SafeNamePlain(character);
    assert WinPath.NoSeps(stamp);
    NoSepsConcat(character, "_");
    NoSepsConcat(character + "_", ufc);
    NoSepsConcat(character + "_" + ufc, "_UDC-");
    NoSepsConcat(character + "_" + ufc + "_UDC-", dbCode);
    NoSepsConcat(character + "_" + ufc + "_UDC-" + dbCode, "_");
    NoSepsConcat(character + "_" + ufc + "_UDC-" + dbCode + "_", stamp);
    var b := SystematicName(character, ufc, dbCode, now);
    assert b == character + "_" + ufc + "_UDC-" + dbCode + "_" + stamp;
    if |character| >= 2 {
      assert b[1] == character[1];
    } else if |character| == 1 {
      assert b[1] == '_';
    } else if ufc == [] {
      assert b[1] == '_';
    } else {
      assert b[1] == ufc[0];
    }
  }

  /** Every candidate name is then a plain file name too. */
  lemma CandidateNamePlain(t: Target, counter: nat)
    requires |t.base| >= 2 && WinPath.NoSeps(t.base) && WinPath.Relative(t.base)
    requires WinPath.NoSeps(t.ext)
    ensures var x := CandidateName(t, counter); x != [] && WinPath.Relative(x) && WinPath.NoSeps(x)
  {
    assert WinPath.NoSeps(Suffix(counter)) by {
      if counter != 0 {
        assert forall i :: 0 <= i < |Decimal(counter)| ==> IsDigit(Decimal(counter)[i]);
        NoSepsConcat("_", Decimal(counter));
      }
    }
    NoSepsConcat(t.base, Suffix(counter));
    NoSepsConcat(t.base + Suffix(counter), t.ext);
    var x := CandidateName(t, counter);
    assert x[0] == t.base[0] && x[1] == t.base[1];
  }

  /** The renamed path stays in the directory of the original and its last
      component is the candidate name. A bare UNC drive "\\server\share" as
      the original is the exception: its directory is the drive itself. */
  lemma CandidateKeepsDirectory(original: string, character: string, ufc: string, dbCode: string,
                                now: Stamps.DateTime, counter: nat)
    requires Stamps.Valid(now) && IsSafeName(character)
    requires WinPath.NoSeps(ufc) && WinPath.NoSeps(dbCode) && ':' !in ufc
    requires !WinPath.BareUncDrive(original)
    ensures var t := TargetOf(original, character, ufc, dbCode, now);
            && WinPath.Dirname(Candidate(t, counter)) == WinPath.Dirname(original)
            && WinPath.Basename(Candidate(t, counter)) == CandidateName(t, counter)
  {
    var t := TargetOf(original, character, ufc, dbCode, now);
    SystematicNamePlain(character, ufc, dbCode, now);
    CandidateNamePlain(t, counter);
    WinPath.DirnameOfJoin(original, CandidateName(t, counter));
  }

  lemma FileStampEndsInDigit(now: Stamps.DateTime)
    requires Stamps.Valid(now)
    ensures IsDigit(Stamps.FileStamp(now)[18])
  {
  }

  /** The renamed path keeps the extension of the original, when it has one. */
  lemma CandidateKeepsExtension(original: string, character: string, ufc: string, dbCode: string,
                                now: Stamps.DateTime, counter: nat)
    requires Stamps.Valid(now) && IsSafeName(character)
    requires WinPath.NoSeps(ufc) && WinPath.NoSeps(dbCode) && ':' !in ufc
    requires WinPath.SplitExt(original).1 != []
    ensures var t := TargetOf(original, character, ufc, dbCode, now);
            WinPath.SplitExt(Candidate(t, counter)).1 == WinPath.SplitExt(original).1
  {
    var t := TargetOf(original, character, ufc, dbCode, now);
    SystematicNamePlain(character, ufc, dbCode, now);
    CandidateNamePlain(t, counter);
    StemKeepsExtension(t, counter);
    FileStampEndsInDigit(now);
  }

  lemma StemKeepsExtension(t: Target, counter: nat)
    requires t.ext != [] && WinPath.IsExt(t.ext)
    requires t.base != [] && IsDigit(t.base[|t.base| - 1])
    requires WinPath.Relative(CandidateName(t, counter))
    ensures WinPath.SplitExt(Candidate(t, counter)).1 == t.ext
  {
    var stem := WinPath.JoinBase(WinPath.SplitRoot(t.dir)) + (t.base + Suffix(counter));
    CandidateIsStemThenExt(t, counter, stem);
    DigitStemKeepsExtension(stem, t.ext);
  }

  lemma CandidateIsStemThenExt(t: Target, counter: nat, stem: string)
    requires t.base != [] && WinPath.Relative(CandidateName(t, counter))
    requires stem == WinPath.JoinBase(WinPath.SplitRoot(t.dir)) + (t.base + Suffix(counter))
    ensures Candidate(t, counter) == stem + t.ext
  {
    JoinThenExt(t.dir, CandidateName(t, counter), t.base + Suffix(counter), t.ext);
  }

  lemma JoinThenExt(dir: string, x: string, front: string, ext: string)
    requires x == front + ext && x != [] && WinPath.Relative(x)
    ensures WinPath.Join(dir, x) == (WinPath.JoinBase(WinPath.SplitRoot(dir)) + front) + ext
  {
    var root := WinPath.JoinBase(WinPath.SplitRoot(dir));
    assert root + (front + ext) == (root + front) + ext;
    WinPath.JoinRelative(dir, x);
  }

  lemma DigitStemKeepsExtension(stem: string, ext: string)
    requires ext != [] && WinPath.IsExt(ext)
    requires stem != [] && IsDigit(stem[|stem| - 1])
    ensures WinPath.SplitExt(stem + ext).1 == ext
  {
    WinPath.SplitExtAfterStem(stem, ext);
  }

  // ---------------------------------------------------------------------------
  // rename_selected_files

  datatype RenameOutcome =
    | NoUfcItem
    | FileNotFound(ufc: string)
    | Renamed(ufc: string, from: string, to: string)
    | MoveFailed(ufc: string)

  /** One round of the loop of `rename_selected_files`: the selected row's
      code cell `item`, the file paired with it, the set of existing paths
      and the catalogue. A missing file is reported; otherwise the file moves
      to the first free candidate path (unless the move raises, which
      `moveFails` says) and `update_replay(ufc, renamed_filename=...)` runs,
      which leaves the catalogue as it was. */
  method RenameOne(c: Catalog, onDisk: set<string>, item: Option<string>, file: string,
                   character: string, dbCode: string, now: Stamps.DateTime, moveFails: bool)
    returns (c': Catalog, onDisk': set<string>, outcome: RenameOutcome)
    requires Stamps.Valid(now) && IsSafeName(character)
    ensures c' == c
    ensures item.None? ==> outcome == NoUfcItem && onDisk' == onDisk
    ensures item.Some? && file !in onDisk ==> outcome == FileNotFound(item.value) && onDisk' == onDisk
    ensures item.Some? && file in onDisk && moveFails ==> outcome == MoveFailed(item.value) && onDisk' == onDisk
    ensures item.Some? && file in onDisk && !moveFails ==>
      && outcome.Renamed? && outcome.ufc == item.value && outcome.from == file
      && outcome.to !in onDisk
      && IsCandidate(outcome.to, TargetOf(file, character, item.value, dbCode, now))
      && onDisk' == onDisk - {file} + {outcome.to}
  {
    c', onDisk' := c, onDisk;
    match item
    case None =>
      outcome := NoUfcItem;
    case Some(ufc) =>
      if file !in onDisk {
        outcome := FileNotFound(ufc);
      } else {
        var t := TargetOf(file, character, ufc, dbCode, now);
        assert character == [] || !WinPath.IsSep(character[0]) by {
          if character != [] {
            assert !Reserved(character[0]);
          }
        }
        TargetOfUsable(file, character, ufc, dbCode, now);
        var newPath, k := GenerateRenamedPath(t, onDisk);
        if moveFails {
          outcome := MoveFailed(ufc);
        } else {
          onDisk' := onDisk - {file} + {newPath};
          UpdateIgnoresRenamedFilename(c, ufc, WinPath.Basename(newPath));
          c' := UpdateReplay(c, ufc, map["renamed_filename" := Str(WinPath.Basename(newPath))]);
          outcome := Renamed(ufc, file, newPath);
        }
      }
  }

  function CountRenamed(os: seq<RenameOutcome>): (n: nat)
    ensures n <= |os|
  {
    if os == [] then 0 else CountRenamed(os[..|os| - 1]) + (if os[|os| - 1].Renamed? then 1 else 0)
  }

  function CountFailed(os: seq<RenameOutcome>): (n: nat)
    ensures n <= |os|
  {
    if os == [] then 0
    else CountFailed(os[..|os| - 1]) + (if os[|os| - 1].FileNotFound? || os[|os| - 1].MoveFailed? then 1 else 0)
  }

  /** Every row's outcome accounts for exactly one of: no code cell, renamed,
      failed. */
  lemma {:induction false} CountsAddUp(os: seq<RenameOutcome>)
    ensures CountRenamed(os) + CountFailed(os) + |set k | 0 <= k < |os| && os[k].NoUfcItem? | == |os|
  {
    var skipped := set k | 0 <= k < |os| && os[k].NoUfcItem?;
    if os != [] {
      var init := os[..|os| - 1];
      CountsAddUp(init);
      var before := set k | 0 <= k < |init| && init[k].NoUfcItem?;
      if os[|os| - 1].NoUfcItem? {
        assert skipped == before + {|os| - 1};
      } else {
        assert skipped == before;
      }
    }
  }

  /** An outcome belongs to the row with code cell `item` and to `file`. */
  predicate Fits(o: RenameOutcome, item: Option<string>, file: string) {
    && (o.NoUfcItem? <==> item.None?)
    && (item.Some? ==> o.ufc == item.value)
    && (o.Renamed? ==> o.from == file)
  }

  /** The loop of `rename_selected_files` once the sanitized character
      `safe` and the database code are known: the `idx`-th selected row is
      paired with file `idx % n` for the `n` chosen files, and `clock[idx]`
      is the time read for that row. */
  method RenameRows(c: Catalog, onDisk: set<string>, rows: seq<Option<string>>, files: seq<string>,
                    safe: string, code: string, clock: seq<Stamps.DateTime>, moveFails: set<string>)
    returns (onDisk': set<string>, outcomes: seq<RenameOutcome>, renamed: nat)
    requires files != [] && IsSafeName(safe)
    requires |clock| == |rows| && forall k :: 0 <= k < |clock| ==> Stamps.Valid(clock[k])
    ensures |outcomes| == |rows|
    ensures forall k :: 0 <= k < |outcomes| ==>
              && (outcomes[k].NoUfcItem? <==> rows[k].None?)
              && (rows[k].Some? ==> outcomes[k].ufc == rows[k].value)
              && (outcomes[k].Renamed? ==> outcomes[k].from == files[k % |files|])
    ensures renamed == CountRenamed(outcomes)
  {
    onDisk', outcomes, renamed := onDisk, [], 0;
    var c' := c;
    for idx := 0 to |rows|
      invariant c' == c
      invariant |outcomes| == idx
      invariant forall k :: 0 <= k < idx ==> Fits(outcomes[k], rows[k], files[k % |files|])
      invariant renamed == CountRenamed(outcomes)
    {
      var file := files[idx % |files|];
      var outcome;
      c', onDisk', outcome := RenameOne(c', onDisk', rows[idx], file, safe, code, clock[idx], file in moveFails);
      assert Fits(outcome, rows[idx], file);
      assert (outcomes + [outcome])[..idx] == outcomes;
      outcomes := outcomes + [outcome];
      if outcome.Renamed? {
        renamed := renamed + 1;
      }
    }
  }

  /** `rename_selected_files`. The early returns come first: no database, no
      selected row, no rename character (after the offer to set one), no file
      chosen. Then the database code is fetched (perhaps created), the rename
      character is sanitized and the rows are renamed in turn; the replays
      and the bin are never changed, since `update_replay` drops
      `renamed_filename`. */
  method RenameSelected(db: Option<Catalog>, rows: seq<Option<string>>, renameCharacter: string,
                        agreed: bool, pickedLater: string, files: seq<string>, onDisk: set<string>,
                        dbUuid: string, dbFailed: bool, clock: seq<Stamps.DateTime>, moveFails: set<string>)
    returns (db': Option<Catalog>, onDisk': set<string>, outcomes: seq<RenameOutcome>, renamed: nat)
    requires |clock| == |rows| && forall k :: 0 <= k < |clock| ==> Stamps.Valid(clock[k])
    ensures db'.None? <==> db.None?
    ensures db'.Some? ==> db'.value.replays == db.value.replays && db'.value.bin == db.value.bin
    ensures db.None? || rows == [] || Prompted(renameCharacter, agreed, pickedLater).None? || files == [] ==>
              db' == db && onDisk' == onDisk && outcomes == []
    ensures outcomes != [] ==> files != [] && |outcomes| == |rows| && db' == GetDatabaseCode(db, dbUuid, dbFailed).0
    ensures forall k :: 0 <= k < |outcomes| ==>
              && (outcomes[k].NoUfcItem? <==> rows[k].None?)
              && (rows[k].Some? ==> outcomes[k].ufc == rows[k].value)
              && (outcomes[k].Renamed? ==> outcomes[k].from == files[k % |files|])
    ensures renamed == CountRenamed(outcomes)
  {
    db', onDisk', outcomes, renamed := db, onDisk, [], 0;
    if db.None? || rows == [] || files == [] {
      return;
    }
    var chosen := Prompted(renameCharacter, agreed, pickedLater);
    if chosen.None? {
      return;
    }
    var fetched := GetDatabaseCode(db, dbUuid, dbFailed);
    db' := fetched.0;
    var safe := Sanitize(chosen.value);
    onDisk', outcomes, renamed := RenameRows(db'.value, onDisk, rows, files, safe, fetched.1, clock, moveFails);
  }
}

=== FILE: naming.dfy ===
/** The file-naming policy of ui/main_window.py: the character-name
    sanitizer (`_sanitize_character_name`, repeated inline in `on_add_replay`)
    and the systematic replay name
    `{character}_{ufc}_UDC-{db code}_{MM-DD-YYYY_HH-MM-SS}`. */
module Naming {
  import opened Results
  import opened Text
  import Stamps

  // ---------------------------------------------------------------------------
  // The sanitizer

  /** The nine characters the sanitizer's first pattern replaces:
      \ / : * ? " < > | */
  predicate Reserved(c: char) {
    c == '\\' || c == '/' || c == ':' || c == '*' || c == '?' || c == '"' || c == '<' || c == '>' || c == '|'
  }

  /** Step 1: every reserved character becomes '_'. */
  function MapReserved(s: string): string {
    seq(|s|, i requires 0 <= i < |s| => if Reserved(s[i]) then '_' else s[i])
  }

  /** Step 3: every space (only U+0020) becomes '-'. */
  function DashSpaces(s: string): string {
    seq(|s|, i requires 0 <= i < |s| => if s[i] == ' ' then '-' else s[i])
  }

  /** No two adjacent dashes. */
  predicate NoDoubleDash(s: string) {
    forall i, j :: 0 <= i < |s| && 0 <= j < |s| && j == i + 1 ==> s[i] != '-' || s[j] != '-'
  }

  /** Step 4, `re.sub(r'-+', '-', s)`: every run of dashes becomes one dash.
      The result has the same characters, the same first character and no
      doubled dash, and a text without doubled dashes is left alone. */
  function Collapse(s: string): (r: string)
    ensures NoDoubleDash(r)
    ensures forall c :: c in r <==> c in s
    ensures |s| > 0 ==> |r| > 0 && r[0] == s[0]
    ensures NoDoubleDash(s) ==> r == s
    decreases |s|
  {
    if |s| <= 1 then s
    else if s[0] == '-' && s[1] == '-' then
      assert forall c :: c in s <==> c == s[0] || c in s[1..];
      Collapse(s[1..])
    else
      var rest := Collapse(s[1..]);
      assert forall c :: c in s <==> c == s[0] || c in s[1..];
      assert forall c :: c in [s[0]] + rest <==> c == s[0] || c in rest;
      assert NoDoubleDash(s) ==> NoDoubleDash(s[1..]) && [s[0]] + s[1..] == s;
      [s[0]] + rest
  }

  /** Two dashes anywhere collapse like one: with `NoDoubleDash(s) ==>
      Collapse(s) == s`, this pins `Collapse` down as `re.sub(r'-+', '-', s)`,
      so every other character is kept, in order. */
  lemma {:induction false} CollapseDoubleDash(x: string, y: string)
    ensures Collapse(x + "--" + y) == Collapse(x + "-" + y)
    decreases |x|
  {
    var s, t := x + "--" + y, x + "-" + y;
    if |x| == 0 {
      assert s[1..] == t;
    } else {
      assert s[0] == t[0] == x[0];
      assert s[1] == t[1];
      assert s[1..] == x[1..] + "--" + y;
      assert t[1..] == x[1..] + "-" + y;
      CollapseDoubleDash(x[1..], y);
    }
  }

  /** No reserved character, no space and no capital letter. */
  predicate PlainChars(s: string) {
    forall i :: 0 <= i < |s| ==> !Reserved(s[i]) && s[i] != ' ' && !IsUpper(s[i])
  }

  /** What the sanitizer guarantees of a name: no reserved character, no
      space, no capital letter, no doubled dash and no dash at either end. */
  predicate IsSafeName(s: string) {
    PlainChars(s) && NoDoubleDash(s) && IsStrippedBy(s, Only('-'))
  }

  /** Steps 1 to 3 leave only plain characters. */
  function Prepare(name: string): (r: string)
    ensures PlainChars(r)
  {
    DashSpaces(Lower(MapReserved(name)))
  }

  lemma CollapseKeepsPlain(a: string)
    requires PlainChars(a)
    ensures PlainChars(Collapse(a))
  {
    var b := Collapse(a);
    forall i | 0 <= i < |b|
      ensures !Reserved(b[i]) && b[i] != ' ' && !IsUpper(b[i])
    {
      assert b[i] in a;
    }
  }

  /** A piece of a text without doubled dashes has none either. */
  lemma NoDoubleDashSlice(b: string, lo: int, hi: int)
    requires 0 <= lo <= hi <= |b| && NoDoubleDash(b)
    ensures NoDoubleDash(b[lo..hi])
  {
    var r := b[lo..hi];
    forall i, j | 0 <= i < |r| && 0 <= j < |r| && j == i + 1
      ensures r[i] != '-' || r[j] != '-'
    {
      assert r[i] == b[lo + i] && r[j] == b[lo + j];
    }
  }

  lemma {:induction false} StripDashesSafe(b: string)
    requires PlainChars(b) && NoDoubleDash(b)
    ensures IsSafeName(StripSet(b, Only('-')))
  {
    TrimStartSafe(b);
    TrimEndSafe(TrimStart(b, Only('-')));
  }

  /** Dropping leading dashes keeps a text plain and without doubled dashes. */
  lemma {:induction false} TrimStartSafe(b: string)
    requires PlainChars(b) && NoDoubleDash(b)
    ensures PlainChars(TrimStart(b, Only('-'))) && NoDoubleDash(TrimStart(b, Only('-')))
    decreases |b|
  {
    if |b| > 0 && b[0] == '-' {
      NoDoubleDashSlice(b, 1, |b|);
      PlainCharsSlice(b, 1, |b|);
      TrimStartSafe(b[1..]);
    }
  }

  /** Dropping trailing dashes keeps a text plain and without doubled dashes. */
  lemma {:induction false} TrimEndSafe(b: string)
    requires PlainChars(b) && NoDoubleDash(b)
    ensures PlainChars(TrimEnd(b, Only('-'))) && NoDoubleDash(TrimEnd(b, Only('-')))
    decreases |b|
  {
    if |b| > 0 && b[|b| - 1] == '-' {
      NoDoubleDashSlice(b, 0, |b| - 1);
      PlainCharsSlice(b, 0, |b| - 1);
      TrimEndSafe(b[..|b| - 1]);
    }
  }

  lemma PlainCharsSlice(b: string, lo: int, hi: int)
    requires 0 <= lo <= hi <= |b| && PlainChars(b)
    ensures PlainChars(b[lo..hi])
  {
    var r := b[lo..hi];
    forall i | 0 <= i < |r|
      ensures !Reserved(r[i]) && r[i] != ' ' && !IsUpper(r[i])
    {
      assert r[i] == b[lo + i];
    }
  }

  /** A text of dashes alone strips to nothing. */
  lemma {:induction false} DashesStripAway(b: string)
    requires forall i :: 0 <= i < |b| ==> b[i] == '-'
    ensures TrimStart(b, Only('-')) == []
    decreases |b|
  {
    if |b| > 0 {
      DashesStripAway(b[1..]);
    }
  }

  /** `_sanitize_character_name` (and the same steps inline in
      `on_add_replay`): reserved characters to '_', lowercase, spaces to '-',
      runs of '-' collapsed, then '-' stripped from both ends. */
  function Sanitize(name: string): (r: string)
    ensures IsSafeName(r)
  {
    var b := Collapse(Prepare(name));
    CollapseKeepsPlain(Prepare(name));
    StripDashesSafe(b);
    StripSet(b, Only('-'))
  }

  /** The sanitizer's fixed points are exactly the safe names. */
  lemma SanitizeFixedPoints(s: string)
    ensures Sanitize(s) == s <==> IsSafeName(s)
  {
    if IsSafeName(s) {
      assert MapReserved(s) == s;
      assert Lower(s) == s;
      assert DashSpaces(s) == s;
      assert Prepare(s) == s;
      StripSetNoop(s, Only('-'));
    }
  }

  /** Sanitizing twice is sanitizing once. */
  lemma SanitizeIdempotent(s: string)
    ensures Sanitize(Sanitize(s)) == Sanitize(s)
  {
    SanitizeFixedPoints(Sanitize(s));
  }

  /** A name sanitizes to nothing iff it is made only of dashes and spaces
      (so "-" and "- -" do, while "_" and "!" do not). */
  lemma SanitizeEmpty(s: string)
    ensures Sanitize(s) == [] <==> forall i :: 0 <= i < |s| ==> s[i] == '-' || s[i] == ' '
  {
    var a := Prepare(s);
    var b := Collapse(a);
    if forall i :: 0 <= i < |s| ==> s[i] == '-' || s[i] == ' ' {
      assert forall i :: 0 <= i < |a| ==> a[i] == '-';
      forall i | 0 <= i < |b| ensures b[i] == '-' {
        assert b[i] in a;
      }
      DashesStripAway(b);
    } else {
      var i :| 0 <= i < |s| && s[i] != '-' && s[i] != ' ';
      assert a[i] != '-';
      assert a[i] in b;
      StripSetKeepsPresence(b, Only('-'), a[i]);
    }
  }

  /** The sanitizer ignores case. */
  lemma {:induction false} SanitizeIgnoresCase(s: string)
    ensures Sanitize(Lower(s)) == Sanitize(s)
  {
    PrepareLower(s);
  }

  lemma PrepareLower(s: string)
    ensures Prepare(Lower(s)) == Prepare(s)
  {
    var a := Prepare(Lower(s));
    var b := Prepare(s);
    forall i | 0 <= i < |s| ensures a[i] == b[i] {
      assert Lower(s)[i] == LowerChar(s[i]);
    }
  }

  /** A safe name followed by a space sanitizes back to the name. */
  lemma {:induction false} SanitizeTrailingSpace(w: string)
    requires IsSafeName(w)
    ensures Sanitize(w + " ") == w
  {
    PrepareSpace(w);
    DashEndNoDouble(w);
    StripTrailingDash(w);
  }

  lemma PrepareSpace(w: string)
    requires PlainChars(w)
    ensures Prepare(w + " ") == w + "-"
  {
    var a := Prepare(w + " ");
    forall i | 0 <= i < |w| ensures a[i] == w[i] {
      assert (w + " ")[i] == w[i];
    }
  }

  lemma DashEndNoDouble(w: string)
    requires IsSafeName(w)
    ensures NoDoubleDash(w + "-")
  {
    var d := w + "-";
    forall i, j | 0 <= i < |d| && 0 <= j < |d| && j == i + 1 ensures d[i] != '-' || d[j] != '-' {
      if j < |w| {
        assert d[i] == w[i] && d[j] == w[j];
      } else {
        assert d[i] == w[|w| - 1];
      }
    }
  }

  lemma StripTrailingDash(w: string)
    requires IsSafeName(w)
    ensures StripSet(w + "-", Only('-')) == w
  {
    var d := w + "-";
    if w == [] {
      assert TrimStart(d, Only('-')) == [];
    } else {
      assert TrimStart(d, Only('-')) == d;
      assert d[..|d| - 1] == w;
      StripSetNoop(w, Only('-'));
    }
  }

  /** "Chun-Li!! " sanitizes to "chun-li!!": punctuation other than the
      reserved nine survives. */
  lemma SanitizeExample()
    ensures Sanitize("Chun-Li!! ") == "chun-li!!"
  {
    ChunLiLower();
    ChunLiSafe();
    SanitizeIgnoresCase("Chun-Li!! ");
    SanitizeTrailingSpace("chun-li!!");
  }

  lemma ChunLiLower()
    ensures Lower("Chun-Li!! ") == "chun-li!!" + " "
  {
  }

  lemma ChunLiSafe()
    ensures IsSafeName("chun-li!!")
  {
  }

  // ---------------------------------------------------------------------------
  // The systematic name

  /** The four parts of a systematic name; `stamp` is the `%m-%d-%Y_%H-%M-%S` text. */
  datatype NameParts = NameParts(character: string, ufc: string, dbCode: string, stamp: string)

  /** `f"{character}_{ufc}_UDC-{db_code}_{timestamp}"`. */
  function Compose(p: NameParts): string {
    p.character + "_" + p.ufc + "_UDC-" + p.dbCode + "_" + p.stamp
  }

  /** The name `on_add_replay` builds from the sanitized character, the
      replay code, the database code and the wall-clock time `now`. */
  function SystematicName(character: string, ufc: string, dbCode: string, now: Stamps.DateTime): (r: string)
    requires Stamps.Valid(now)
    ensures |r| == |character| + |ufc| + |dbCode| + 26
    ensures EndsWith(r, Stamps.FileStamp(now))
  {
    var r := Compose(NameParts(character, ufc, dbCode, Stamps.FileStamp(now)));
    assert r[|r| - 19..] == Stamps.FileStamp(now);
    r
  }

  /** The text before the last `sep` and the text after it. */
  function SplitLast(s: string, sep: char): (r: Option<(string, string)>)
    ensures r.None? <==> sep !in s
    ensures r.Some? ==> r.value.0 + [sep] + r.value.1 == s && sep !in r.value.1
    decreases |s|
  {
    if |s| == 0 then None
    else
      var init := s[..|s| - 1];
      assert s == init + [s[|s| - 1]];
      if s[|s| - 1] == sep then Some((init, []))
      else
        match SplitLast(init, sep)
        case None => None
        case Some((a, b)) => Some((a, b + [s[|s| - 1]]))
  }

  lemma {:induction false} SplitLastOf(a: string, sep: char, b: string)
    requires sep !in b
    ensures SplitLast(a + [sep] + b, sep) == Some((a, b))
    decreases |b|
  {
    var s := a + [sep] + b;
    if b == [] {
      assert s[..|s| - 1] == a;
    } else {
      assert s[..|s| - 1] == a + [sep] + b[..|b| - 1];
      assert b[..|b| - 1] + [b[|b| - 1]] == b;
      SplitLastOf(a, sep, b[..|b| - 1]);
    }
  }

  /** Reads a systematic name from the right: the 19-character stamp, then
      the database code after the last '_', then the replay code after the
      '_' before it; whatever remains is the character, which may itself
      contain '_' (the sanitizer turns reserved characters into '_'). */
  function ParseName(name: string): (r: Option<NameParts>)
    ensures r.Some? ==> Compose(r.value) == name
    ensures r.Some? ==> '_' !in r.value.ufc && '_' !in r.value.dbCode && |r.value.stamp| == 19
  {
    if |name| < 20 || name[|name| - 20] != '_' then None
    else
      var head := name[..|name| - 20];
      var stamp := name[|name| - 19..];
      NameCut(name);
      match SplitLast(head, '_')
      case None => None
      case Some((front, udc)) =>
        if |udc| < 4 || udc[..4] != "UDC-" then None
        else
          match SplitLast(front, '_')
          case None => None
          case Some((character, ufc)) =>
            ComposeOf(character, ufc, udc, stamp);
            Some(NameParts(character, ufc, udc[4..], stamp))
  }

  lemma NameCut(name: string)
    requires |name| >= 20 && name[|name| - 20] == '_'
    ensures name == name[..|name| - 20] + "_" + name[|name| - 19..]
  {
  }

  /** Parts read back from a name compose to it. */
  lemma ComposeOf(character: string, ufc: string, udc: string, stamp: string)
    requires |udc| >= 4 && udc[..4] == "UDC-" && '_' !in udc
    ensures Compose(NameParts(character, ufc, udc[4..], stamp)) == character + "_" + ufc + "_" + udc + "_" + stamp
    ensures '_' !in udc[4..]
  {
    assert udc == "UDC-" + udc[4..];
    forall i | 0 <= i < |udc[4..]| ensures udc[4..][i] != '_' {
      assert udc[4..][i] == udc[4 + i];
    }
  }

  /** Composing then parsing gives the parts back whenever the replay code
      and the database code hold no '_' and the stamp is 19 characters. */
  lemma ParseCompose(p: NameParts)
    requires '_' !in p.ufc && '_' !in p.dbCode && |p.stamp| == 19
    ensures ParseName(Compose(p)) == Some(p)
  {
    var udc := "UDC-" + p.dbCode;
    var front := p.character + "_" + p.ufc;
    NameSlices(p);
    UdcFacts(p.dbCode);
    SplitLastOf(front, '_', udc);
    SplitLastOf(p.character, '_', p.ufc);
  }

  lemma NameSlices(p: NameParts)
    requires |p.stamp| == 19
    ensures var name := Compose(p); var head := p.character + "_" + p.ufc + "_" + ("UDC-" + p.dbCode);
            |name| >= 20 && name[|name| - 20] == '_' &&
            name[..|name| - 20] == head && name[|name| - 19..] == p.stamp
  {
    var name := Compose(p);
    var head := p.character + "_" + p.ufc + "_" + ("UDC-" + p.dbCode);
    assert name == head + "_" + p.stamp;
  }

  lemma UdcFacts(dbCode: string)
    requires '_' !in dbCode
    ensures var udc := "UDC-" + dbCode;
            '_' !in udc && |udc| >= 4 && udc[..4] == "UDC-" && udc[4..] == dbCode
  {
  }

  /** In particular the replay code of a systematic name is recoverable from
      the name, whatever the character name holds. */
  lemma SystematicNameParses(character: string, ufc: string, dbCode: string, now: Stamps.DateTime)
    requires Stamps.Valid(now) && '_' !in ufc && '_' !in dbCode
    ensures ParseName(SystematicName(character, ufc, dbCode, now)) ==
            Some(NameParts(character, ufc, dbCode, Stamps.FileStamp(now)))
  {
    ParseCompose(NameParts(character, ufc, dbCode, Stamps.FileStamp(now)));
  }
}

=== FILE: portraits.dfy ===
/** utils/portrait_manager.py: turning a portrait file name into a character
    name, picking a character's portraits out of a directory listing, and the
    cache of scaled images. The directory listing, the existence test and the
    decoded, scaled image are parameters. */
module Portraits {
  import opened Results
  import opened Text
  import opened Seqs
  import WinPath

  // ---------------------------------------------------------------------------
  // Suffixes

  /** The decorations `clean_filename` removes, each tried once, in this
      order. */
  const PortraitSuffixes := ["_portrait", "-portrait", "_icon", "-icon", "_badge", "-badge", "_img", "-img"]

  /** `if name.lower().endswith(suffix): name = name[:-len(suffix)]`. */
  function DropSuffix(name: string, suffix: string): (r: string)
    ensures r <= name
    ensures EndsWith(Lower(name), suffix) ==> |r| + |suffix| == |name|
    ensures !EndsWith(Lower(name), suffix) ==> r == name
  {
    if EndsWith(Lower(name), suffix) then name[..|name| - |suffix|] else name
  }

  /** The suffix loop, left to right over `suffixes`. */
  function DropSuffixes(name: string, suffixes: seq<string>): (r: string)
    ensures r <= name
    decreases |suffixes|
  {
    if suffixes == [] then name else DropSuffixes(DropSuffix(name, suffixes[0]), suffixes[1..])
  }

  /** A stem that ends in none of the given suffixes, ignoring case. */
  predicate EndsInNone(stem: string, suffixes: seq<string>) {
    forall k :: 0 <= k < |suffixes| ==> !EndsWith(Lower(stem), suffixes[k])
  }

  lemma {:induction false} DropNone(stem: string, suffixes: seq<string>)
    requires EndsInNone(stem, suffixes)
    ensures DropSuffixes(stem, suffixes) == stem
    decreases |suffixes|
  {
    if suffixes != [] {
      DropNone(stem, suffixes[1..]);
    }
  }

  lemma EndsInNoneTail(stem: string, suffixes: seq<string>, j: int)
    requires 0 <= j <= |suffixes| && EndsInNone(stem, suffixes)
    ensures EndsInNone(stem, suffixes[j..])
  {
    forall k | 0 <= k < |suffixes[j..]| ensures !EndsWith(Lower(stem), suffixes[j..][k]) {
      assert suffixes[j..][k] == suffixes[j + k];
    }
  }

  lemma DropSuffixesStep(name: string, suffixes: seq<string>)
    requires suffixes != []
    ensures DropSuffixes(name, suffixes) == DropSuffixes(DropSuffix(name, suffixes[0]), suffixes[1..])
  {
  }

  /** A name ending in a lower-case `tail` loses it to that suffix... */
  lemma DropsTail(stem: string, tail: string)
    requires Lower(tail) == tail
    ensures DropSuffix(stem + tail, tail) == stem
  {
    var n := stem + tail;
    LowerAppend(stem, tail);
    assert Lower(n)[|n| - |tail|..] == tail;
    assert n[..|n| - |tail|] == stem;
  }

  /** ...and keeps it against a suffix ending in another letter. */
  lemma KeepsTail(stem: string, tail: string, suffix: string)
    requires tail != [] && suffix != [] && !IsUpper(tail[|tail| - 1])
    requires tail[|tail| - 1] != suffix[|suffix| - 1]
    ensures !EndsWith(Lower(stem + tail), suffix)
    ensures DropSuffix(stem + tail, suffix) == stem + tail
  {
    var n := stem + tail;
    assert Lower(n)[|n| - 1] == LowerChar(tail[|tail| - 1]) == tail[|tail| - 1];
  }

  /** Each suffix is looked at once, in list order, so a plain stem decorated
      with "_icon" and then "_portrait" loses both: "_portrait" comes
      first. */
  lemma IconThenPortrait(stem: string)
    requires EndsInNone(stem, PortraitSuffixes)
    ensures DropSuffixes(stem + "_icon" + "_portrait", PortraitSuffixes) == stem
  {
    var S := PortraitSuffixes;
    var a := stem + "_icon";
    assert Lower("_portrait") == "_portrait" && Lower("_icon") == "_icon";
    DropSuffixesStep(a + "_portrait", S);
    DropsTail(a, "_portrait");
    assert S[1..][1..][1..] == S[3..];
    DropSuffixesStep(a, S[1..]);
    KeepsTail(stem, "_icon", "-portrait");
    DropSuffixesStep(a, S[2..]);
    assert S[1..][1..] == S[2..];
    DropsTail(stem, "_icon");
    EndsInNoneTail(stem, S, 3);
    DropNone(stem, S[3..]);
  }

  /** The other order keeps "_portrait": by the time "_icon" is removed,
      "_portrait" has already been looked at. */
  lemma PortraitThenIcon(stem: string)
    ensures DropSuffixes(stem + "_portrait" + "_icon", PortraitSuffixes) == stem + "_portrait"
  {
    var S := PortraitSuffixes;
    var a := stem + "_portrait";
    assert DropSuffixes(a + "_icon", S) == DropSuffixes(a, S[3..]) by {
      IconLastOfThree(a);
    }
    assert DropSuffixes(a, S[3..]) == a by {
      PortraitOutlivesRest(stem);
    }
  }

  /** The first three suffixes take "_icon" off and nothing else. */
  lemma IconLastOfThree(a: string)
    ensures DropSuffixes(a + "_icon", PortraitSuffixes) == DropSuffixes(a, PortraitSuffixes[3..])
  {
    assert PortraitSuffixes[0..] == PortraitSuffixes;
    IconPassesPortrait(a);
    IconPassesDashPortrait(a);
    IconDropped(a);
  }

  lemma IconPassesPortrait(a: string)
    ensures DropSuffixes(a + "_icon", PortraitSuffixes[0..]) == DropSuffixes(a + "_icon", PortraitSuffixes[1..])
  {
    KeepsTail(a, "_icon", "_portrait");
    DropSuffixesAt(a + "_icon", PortraitSuffixes, 0);
  }

  lemma IconPassesDashPortrait(a: string)
    ensures DropSuffixes(a + "_icon", PortraitSuffixes[1..]) == DropSuffixes(a + "_icon", PortraitSuffixes[2..])
  {
    KeepsTail(a, "_icon", "-portrait");
    DropSuffixesAt(a + "_icon", PortraitSuffixes, 1);
  }

  lemma IconDropped(a: string)
    ensures DropSuffixes(a + "_icon", PortraitSuffixes[2..]) == DropSuffixes(a, PortraitSuffixes[3..])
  {
    assert Lower("_portrait") == "_portrait" && Lower("_icon") == "_icon";
    DropsTail(a, "_icon");
    DropSuffixesAt(a + "_icon", PortraitSuffixes, 2);
  }

  /** The loop from position `i` on. */
  lemma DropSuffixesAt(name: string, suffixes: seq<string>, i: int)
    requires 0 <= i < |suffixes|
    ensures DropSuffixes(name, suffixes[i..]) == DropSuffixes(DropSuffix(name, suffixes[i]), suffixes[i + 1..])
  {
    assert suffixes[i..][1..] == suffixes[i + 1..];
  }

  /** No suffix after "_icon" ends in 't', so "_portrait" survives them. */
  lemma PortraitOutlivesRest(stem: string)
    ensures DropSuffixes(stem + "_portrait", PortraitSuffixes[3..]) == stem + "_portrait"
  {
    var a := stem + "_portrait";
    var rest := PortraitSuffixes[3..];
    assert rest == ["-icon", "_badge", "-badge", "_img", "-img"];
    forall k | 0 <= k < |rest| ensures !EndsWith(Lower(a), rest[k]) {
      KeepsTail(stem, "_portrait", rest[k]);
    }
    DropNone(a, rest);
  }

  // ---------------------------------------------------------------------------
  // Version markers

  const VersionWords := ["alt", "v", "ver", "version"]

  predicate AllDigits(s: string) {
    forall i :: 0 <= i < |s| ==> IsDigit(s[i])
  }

  /** A text the pattern `(_|-)(alt|v|ver|version)\d*` matches as a whole,
      ignoring case. */
  predicate IsMarker(m: string) {
    |m| >= 2 && (m[0] == '_' || m[0] == '-') &&
    exists j :: 1 <= j <= |m| && Lower(m[1..j]) in VersionWords && AllDigits(m[j..])
  }

  /** The number of digits `s` ends with. */
  function TrailingDigits(s: string): (n: nat)
    ensures n <= |s| && AllDigits(s[|s| - n..])
    ensures n < |s| ==> !IsDigit(s[|s| - n - 1])
    decreases |s|
  {
    if |s| > 0 && IsDigit(s[|s| - 1]) then
      var n := TrailingDigits(s[..|s| - 1]);
      DigitsStep(s, n);
      n + 1
    else 0
  }

  lemma DigitsStep(s: string, n: nat)
    requires 0 < |s| && n < |s| && IsDigit(s[|s| - 1])
    requires AllDigits(s[..|s| - 1][|s| - 1 - n..])
    requires n < |s| - 1 ==> !IsDigit(s[..|s| - 1][|s| - 1 - n - 1])
    ensures AllDigits(s[|s| - (n + 1)..])
    ensures n + 1 < |s| ==> !IsDigit(s[|s| - (n + 1) - 1])
  {
    assert s[|s| - (n + 1)..] == s[..|s| - 1][|s| - 1 - n..] + [s[|s| - 1]];
  }

  /** `body` ends with a separator and then `w`, ignoring case. */
  predicate EndsSepWord(body: string, w: string) {
    |body| > |w| && Lower(body[|body| - |w|..]) == w && (body[|body| - |w| - 1] == '_' || body[|body| - |w| - 1] == '-')
  }

  /** The version word ending in letter `c`, if any: the four words end in
      different letters. */
  function WordEnding(c: char): (w: string)
    ensures w != [] ==> w in VersionWords && w[|w| - 1] == c
    ensures forall v :: v in VersionWords && v[|v| - 1] == c ==> w == v
  {
    if c == 'n' then "version"
    else if c == 'r' then "ver"
    else if c == 't' then "alt"
    else if c == 'v' then "v"
    else ""
  }

  /** How much of `body` a separator and version word take up, if it ends in
      one; the last letter tells which word to try, since at most one fits. */
  function WordCut(body: string): (n: nat)
    ensures n <= |body|
  {
    if body == [] then 0
    else
      var w := WordEnding(LowerChar(body[|body| - 1]));
      if w != [] && EndsSepWord(body, w) then |w| + 1 else 0
  }

  /** `re.sub(r'(_|-)(alt|v|ver|version)\d*$', '', name, flags=re.IGNORECASE)`. */
  function RemoveVersion(name: string): (r: string)
    ensures r <= name
  {
    name[..|name| - VersionLength(name)]
  }

  /** The length of the marker at the end of `name`: its separator and word
      and the trailing digits, or 0 when there is none. */
  function VersionLength(name: string): (n: nat)
    ensures n <= |name|
  {
    CutLength(name, TrailingDigits(name))
  }

  /** The marker length when `name` ends in `d` digits. */
  function CutLength(name: string, d: nat): (n: nat)
    requires d <= |name|
    ensures n <= |name|
  {
    var cut := WordCut(name[..|name| - d]);
    if cut == 0 then 0 else cut + d
  }

  lemma WordLastLetter(body: string, w: string)
    requires w != []
    ensures EndsSepWord(body, w) ==> LowerChar(body[|body| - 1]) == w[|w| - 1]
  {
    if EndsSepWord(body, w) {
      assert Lower(body[|body| - |w|..])[|w| - 1] == LowerChar(body[|body| - 1]);
    }
  }

  /** The four words end in different letters, so the one `body` ends in
      decides the cut. */
  lemma WordCutOf(body: string, w: string)
    requires w in VersionWords && EndsSepWord(body, w)
    ensures WordCut(body) == |w| + 1
  {
    WordLastLetter(body, w);
  }

  /** What RemoveVersion cuts off is a marker. */
  lemma {:induction false} RemovedIsMarker(name: string)
    requires RemoveVersion(name) != name
    ensures IsMarker(name[|RemoveVersion(name)|..])
  {
    assert name[..|name| - 0] == name;
    CutIsMarker(name, TrailingDigits(name));
    assert |RemoveVersion(name)| == |name| - CutLength(name, TrailingDigits(name));
  }

  /** A non-zero cut after `d` trailing digits measures a marker. */
  lemma CutIsMarker(name: string, d: nat)
    requires d <= |name| && CutLength(name, d) > 0 && AllDigits(name[|name| - d..])
    ensures IsMarker(name[|name| - CutLength(name, d)..])
  {
    CutParts(name, d);
    var w := WordEnding(LowerChar(name[|name| - d - 1]));
    SepWordMarker(name, d, w);
    assert |name| - CutLength(name, d) == |name| - d - |w| - 1;
  }

  /** When the cut after `d` trailing digits is not zero, the text before
      them ends in a separator and the word its last letter names. */
  lemma CutParts(name: string, d: nat)
    requires d <= |name| && CutLength(name, d) > 0
    ensures var at := |name| - d;
      0 < at && var w := WordEnding(LowerChar(name[at - 1]));
      w != [] && w in VersionWords && |w| < at && EndsSepWord(name[..at], w) && CutLength(name, d) == d + |w| + 1
  {
    var body := name[..|name| - d];
    assert body[|body| - 1] == name[|name| - d - 1];
  }

  /** A separator and a version word followed by the `d` trailing digits
      make a marker. */
  lemma SepWordMarker(name: string, d: int, w: string)
    requires 0 <= d && 0 < |w| < |name| - d && w in VersionWords
    requires EndsSepWord(name[..|name| - d], w) && AllDigits(name[|name| - d..])
    ensures IsMarker(name[|name| - d - |w| - 1..])
  {
    var body := name[..|name| - d];
    var m := name[|name| - d - |w| - 1..];
    assert m[0] == body[|body| - |w| - 1];
    assert m[1..1 + |w|] == body[|body| - |w|..];
    assert m[1 + |w|..] == name[|name| - d..];
  }

  /** Any marker at the end of `name` is exactly what RemoveVersion cuts off,
      so a name with no marker is left as it is. */
  lemma {:induction false} MarkerIsRemoved(name: string, k: int)
    requires 0 <= k <= |name| && IsMarker(name[k..])
    ensures RemoveVersion(name) == name[..k]
  {
    var j := MarkerSplit(name, k);
    MarkerCut(name, k, j);
    LengthAt(name, k + j, j);
    RemoveVersionAt(name, k);
  }

  /** The end of a marker's word, as an offset from its separator. */
  lemma MarkerSplit(name: string, k: int) returns (j: int)
    requires 0 <= k <= |name| && IsMarker(name[k..])
    ensures 2 <= j && k + j <= |name| && (name[k] == '_' || name[k] == '-')
    ensures Lower(name[k + 1..k + j]) in VersionWords && AllDigits(name[k + j..])
  {
    var m := name[k..];
    j :| 1 <= j <= |m| && Lower(m[1..j]) in VersionWords && AllDigits(m[j..]);
    assert m[1..j] == name[k + 1..k + j] && m[j..] == name[k + j..];
  }

  /** The trailing digits and the cut of a marker ending in a word at
      `k + j`. */
  lemma MarkerCut(name: string, k: int, j: int)
    requires 2 <= j && 0 <= k && k + j <= |name| && (name[k] == '_' || name[k] == '-')
    requires Lower(name[k + 1..k + j]) in VersionWords && AllDigits(name[k + j..])
    ensures TrailingDigits(name) == |name| - (k + j) && WordCut(name[..k + j]) == j
  {
    var w := Lower(name[k + 1..k + j]);
    VersionWordEnds(w);
    DigitsAfterWord(name, k, j);
    SepWordAt(name, k, j);
    WordCutOf(name[..k + j], w);
  }

  /** VersionLength once the trailing digits and the cut are known. */
  lemma {:induction false} LengthAt(name: string, at: int, cut: int)
    requires 0 <= at <= |name| && TrailingDigits(name) == |name| - at && WordCut(name[..at]) == cut
    ensures VersionLength(name) == if cut == 0 then 0 else cut + |name| - at
  {
    var d := TrailingDigits(name);
    assert name[..|name| - d] == name[..at];
    CutLengthIs(name, d, cut);
  }

  lemma CutLengthIs(name: string, d: nat, cut: nat)
    requires d <= |name| && WordCut(name[..|name| - d]) == cut
    ensures CutLength(name, d) == if cut == 0 then 0 else cut + d
  {
  }

  lemma RemoveVersionAt(name: string, k: int)
    requires 0 <= k <= |name| && VersionLength(name) == |name| - k
    ensures RemoveVersion(name) == name[..k]
  {
  }

  lemma VersionWordEnds(w: string)
    requires w in VersionWords
    ensures w != [] && IsLetter(w[|w| - 1])
  {
  }

  /** The digits after a word ending in a letter are the trailing digits. */
  lemma {:induction false} DigitsAfterWord(name: string, k: int, j: int)
    requires 0 <= k && 1 <= j && k + j <= |name| && AllDigits(name[k + j..])
    requires Lower(name[k + 1..k + j]) != [] && IsLetter(Lower(name[k + 1..k + j])[j - 2])
    ensures TrailingDigits(name) == |name| - (k + j)
  {
    assert Lower(name[k + 1..k + j])[j - 2] == LowerChar(name[k + j - 1]);
    TrailingDigitsOf(name, k + j);
  }

  /** A separator at `k` then a word up to `k + j`. */
  lemma SepWordAt(name: string, k: int, j: int)
    requires 0 <= k && 2 <= j && k + j <= |name| && (name[k] == '_' || name[k] == '-')
    ensures EndsSepWord(name[..k + j], Lower(name[k + 1..k + j]))
  {
    var body := name[..k + j];
    assert body[|body| - (j - 1)..] == name[k + 1..k + j];
  }

  /** Digits after a letter are exactly the trailing digits. */
  lemma {:induction false} TrailingDigitsOf(name: string, at: int)
    requires 0 < at <= |name| && IsLetter(LowerChar(name[at - 1]))
    requires AllDigits(name[at..])
    ensures TrailingDigits(name) == |name| - at
    decreases |name|
  {
    if |name| > at {
      assert name[..|name| - 1][at..] == name[at..|name| - 1];
      TrailingDigitsOf(name[..|name| - 1], at);
      assert IsDigit(name[at..][|name| - 1 - at]);
    }
  }

  // ---------------------------------------------------------------------------
  // Separators, whitespace and title case

  /** `name.replace("_", " ").replace("-", " ")`. */
  function SpaceSeps(s: string): (r: string)
    ensures '_' !in r && '-' !in r
    ensures |r| == |s|
    ensures forall i :: 0 <= i < |s| ==> r[i] == (if s[i] == '_' || s[i] == '-' then ' ' else s[i])
  {
    seq(|s|, i requires 0 <= i < |s| => if s[i] == '_' || s[i] == '-' then ' ' else s[i])
  }

  /** The only whitespace is ' '. */
  predicate OnlySpaces(s: string) {
    forall i :: 0 <= i < |s| && IsSpace(s[i]) ==> s[i] == ' '
  }

  /** No two whitespace characters in a row. */
  predicate NoDoubleSpace(s: string) {
    forall i, j :: 0 <= i < |s| && j == i + 1 && j < |s| ==> !IsSpace(s[i]) || !IsSpace(s[j])
  }

  /** Words separated by single spaces: no leading, trailing or doubled
      spaces, and no other whitespace. */
  predicate Spaced(s: string) {
    OnlySpaces(s) && IsStripped(s) && NoDoubleSpace(s)
  }

  lemma WordsStep(s: string)
    requires TrimStart(s, Spaces) != []
    ensures Words(s) == [FirstWord(s)] + Words(AfterFirstWord(s))
  {
  }

  lemma StepAvoids(s: string, c: char)
    requires c !in s
    ensures c !in FirstWord(s) && c !in AfterFirstWord(s)
  {
    var t := TrimStart(s, Spaces);
    assert c !in t;
    assert FirstWord(s) == t[..|FirstWord(s)|];
  }

  /** A character missing from `s` is missing from each of its words. */
  lemma {:induction false} WordsAvoid(s: string, c: char)
    requires c !in s
    ensures forall k :: 0 <= k < |Words(s)| ==> c !in Words(s)[k]
    decreases |s|
  {
    if TrimStart(s, Spaces) != [] {
      WordsStep(s);
      StepAvoids(s, c);
      WordsAvoid(AfterFirstWord(s), c);
      var ws := Words(s);
      var rest := Words(AfterFirstWord(s));
      forall k | 0 <= k < |ws| ensures c !in ws[k] {
        if k > 0 {
          assert ws[k] == rest[k - 1];
        }
      }
    }
  }

  lemma {:induction false} JoinWordsSpaced(ws: seq<string>)
    requires forall k :: 0 <= k < |ws| ==> IsWord(ws[k])
    ensures Spaced(Join(ws, " "))
    ensures ws != [] ==> Join(ws, " ") != []
    decreases |ws|
  {
    if |ws| == 1 {
      assert Join(ws, " ") == ws[0];
    } else if |ws| > 1 {
      var w := ws[0];
      var rest := Join(ws[1..], " ");
      JoinWordsSpaced(ws[1..]);
      var j := w + " " + rest;
      assert j == Join(ws, " ");
      assert OnlySpaces(j) by {
        forall i | 0 <= i < |j| && IsSpace(j[i]) ensures j[i] == ' ' {
          if i > |w| {
            assert j[i] == rest[i - |w| - 1];
          }
        }
      }
      assert j[|j| - 1] == rest[|rest| - 1];
      assert NoDoubleSpace(j) by {
        forall i, k | 0 <= i < |j| && k == i + 1 && k < |j| ensures !IsSpace(j[i]) || !IsSpace(j[k]) {
          if i > |w| {
            assert j[i] == rest[i - |w| - 1] && j[k] == rest[k - |w| - 1];
          } else if i == |w| {
            assert j[k] == rest[0];
          }
        }
      }
    }
  }

  /** Joining keeps out a character that no part and not the separator
      holds. */
  lemma {:induction false} JoinAvoids(ws: seq<string>, sep: string, c: char)
    requires c !in sep
    requires forall k :: 0 <= k < |ws| ==> c !in ws[k]
    ensures c !in Join(ws, sep)
    decreases |ws|
  {
    if |ws| > 1 {
      JoinAvoids(ws[1..], sep, c);
      assert c !in ws[0];
    } else if |ws| == 1 {
      assert c !in ws[0];
    }
  }

  /** `" ".join(name.split())`. */
  function Normalize(s: string): (r: string)
    ensures Spaced(r)
    ensures forall c :: c !in s && c != ' ' ==> c !in r
  {
    var ws := Words(s);
    JoinWordsSpaced(ws);
    assert forall c :: c !in s && c != ' ' ==> c !in Join(ws, " ") by {
      forall c | c !in s && c != ' ' ensures c !in Join(ws, " ") {
        WordsAvoid(s, c);
        JoinAvoids(ws, " ", c);
      }
    }
    Join(ws, " ")
  }

  /** A letter that starts a run of letters. */
  predicate StartsRun(s: string, i: int)
    requires 0 <= i < |s|
  {
    i == 0 || !IsLetter(s[i - 1])
  }

  /** One character of `title()`: upper case at the start of a run of
      letters, lower case inside it. */
  function TitleChar(starts: bool, c: char): (r: char)
    ensures IsLetter(r) <==> IsLetter(c)
    ensures !IsLetter(c) ==> r == c
    ensures LowerChar(r) == LowerChar(c)
    ensures IsLetter(c) ==> (IsUpper(r) <==> starts)
  {
    if starts then UpperChar(c) else LowerChar(c)
  }

  /** Title-cased: a letter is upper case exactly when it starts a run of
      letters. */
  predicate IsTitled(s: string) {
    forall i :: 0 <= i < |s| && IsLetter(s[i]) ==> (IsUpper(s[i]) <==> StartsRun(s, i))
  }

  /** `s.title()` on ASCII, where a character is cased when it is a letter:
      only the case of letters changes. */
  function Title(s: string): (r: string)
    ensures |r| == |s|
    ensures forall i :: 0 <= i < |s| ==> r[i] == TitleChar(StartsRun(s, i), s[i])
    ensures forall i :: 0 <= i < |s| ==> (IsLetter(r[i]) <==> IsLetter(s[i]))
    ensures forall i :: 0 <= i < |s| && !IsLetter(s[i]) ==> r[i] == s[i]
    ensures forall i :: 0 <= i < |s| ==> LowerChar(r[i]) == LowerChar(s[i])
    ensures IsTitled(r)
  {
    seq(|s|, i requires 0 <= i < |s| => TitleChar(StartsRun(s, i), s[i]))
  }

  lemma TitleCharIgnoresCase(starts: bool, c: char)
    ensures TitleChar(starts, LowerChar(c)) == TitleChar(starts, c)
  {
  }

  /** Title case ignores the case it is given... */
  lemma TitleIgnoresCase(s: string)
    ensures Title(Lower(s)) == Title(s)
  {
    var l := Lower(s);
    forall i | 0 <= i < |s| ensures Title(l)[i] == Title(s)[i] {
      assert StartsRun(l, i) == StartsRun(s, i);
      TitleCharIgnoresCase(StartsRun(s, i), s[i]);
    }
  }

  /** ...so applying it twice changes nothing more. */
  lemma TitleIdempotent(s: string)
    ensures Title(Title(s)) == Title(s)
  {
    var t := Title(s);
    forall i | 0 <= i < |s| ensures Title(t)[i] == t[i] {
      if i > 0 {
        assert IsLetter(t[i - 1]) <==> IsLetter(s[i - 1]);
      }
    }
  }

  // ---------------------------------------------------------------------------
  // clean_filename

  /** The character name `clean_filename` makes of a file name without its
      extension: the listed suffixes go, then one trailing version marker;
      separators become spaces, runs of whitespace one space, and the result
      is title-cased. */
  function CleanStem(name: string): (r: string)
    ensures '_' !in r && '-' !in r
    ensures Spaced(r)
    ensures IsTitled(r)
  {
    var spaced := Collapse(RemoveVersion(DropSuffixes(name, PortraitSuffixes)));
    TitleKeepsLayout(spaced);
    Title(spaced)
  }

  /** Title case changes letters only, so it keeps what Collapse
      established. */
  lemma TitleKeepsLayout(s: string)
    requires '_' !in s && '-' !in s && Spaced(s)
    ensures '_' !in Title(s) && '-' !in Title(s) && Spaced(Title(s))
  {
    var r := Title(s);
    forall i | 0 <= i < |r| ensures r[i] != '_' && r[i] != '-' {
      assert s[i] in s;
    }
    assert OnlySpaces(r) by {
      forall i | 0 <= i < |r| && IsSpace(r[i]) ensures r[i] == ' ' {
        assert IsSpace(s[i]);
      }
    }
    assert NoDoubleSpace(r) by {
      forall i, j | 0 <= i < |r| && j == i + 1 && j < |r| ensures !IsSpace(r[i]) || !IsSpace(r[j]) {
        assert !IsSpace(s[i]) || !IsSpace(s[j]);
        assert IsSpace(r[i]) == IsSpace(s[i]) && IsSpace(r[j]) == IsSpace(s[j]);
      }
    }
    assert IsStripped(r) by {
      if |r| > 0 {
        assert IsSpace(r[0]) == IsSpace(s[0]);
        assert IsSpace(r[|r| - 1]) == IsSpace(s[|s| - 1]);
      }
    }
  }

  /** Separators to spaces, then whitespace runs to single spaces. */
  function Collapse(s: string): (r: string)
    ensures '_' !in r && '-' !in r
    ensures Spaced(r)
  {
    Normalize(SpaceSeps(s))
  }

  /** `clean_filename`: the last extension goes first. */
  function CleanFilename(filename: string): (r: string)
    ensures '_' !in r && '-' !in r
    ensures Spaced(r)
    ensures IsTitled(r)
  {
    CleanStem(WinPath.SplitExt(filename).0)
  }


  /** CleanStem in terms of the bare stem left after the suffixes and the
      version marker go. */
  lemma CleanStemOf(name: string, bare: string)
    requires RemoveVersion(DropSuffixes(name, PortraitSuffixes)) == bare
    ensures CleanStem(name) == Title(Collapse(bare))
  {
  }

  /** A word with no separator in it, such as "ryu". */
  predicate PlainWord(w: string) {
    IsWord(w) && '_' !in w && '-' !in w
  }

  /** A stem that carries no decoration of its own. */
  predicate Undecorated(stem: string) {
    EndsInNone(stem, PortraitSuffixes) && RemoveVersion(stem) == stem
  }

  /** A name ending in a digit or in 'v' ends in none of the suffixes. */
  lemma EndsInNoneByLast(name: string)
    requires name != [] && LowerChar(name[|name| - 1]) !in "tneg"
    ensures EndsInNone(name, PortraitSuffixes)
  {
    forall k | 0 <= k < |PortraitSuffixes| ensures !EndsWith(Lower(name), PortraitSuffixes[k]) {
      var x := PortraitSuffixes[k];
      assert x[|x| - 1] in "tneg";
      assert Lower(name)[|name| - 1] == LowerChar(name[|name| - 1]);
    }
  }

  lemma {:induction false} WordOfWord(w: string, rest: string)
    requires forall j :: 0 <= j < |w| ==> !IsSpace(w[j])
    requires rest == [] || IsSpace(rest[0])
    ensures Word(w + rest) == w
    decreases |w|
  {
    if |w| > 0 {
      assert (w + rest)[1..] == w[1..] + rest;
      WordOfWord(w[1..], rest);
    } else {
      assert w + rest == rest;
    }
  }

  /** The words of a word followed by the rest of a text. */
  lemma WordsCons(w: string, rest: string)
    requires IsWord(w) && (rest == [] || IsSpace(rest[0]))
    ensures Words(w + rest) == [w] + Words(rest)
  {
    assert (w + rest)[0] == w[0];
    assert TrimStart(w + rest, Spaces) == w + rest;
    WordOfWord(w, rest);
    assert AfterFirstWord(w + rest) == rest;
  }

  /** A single plain word comes through Collapse unchanged... */
  lemma CollapseWord(w: string)
    requires PlainWord(w)
    ensures Collapse(w) == w
  {
    assert SpaceSeps(w) == w;
    WordsOfOne(w);
  }

  /** One plain word is one word. */
  lemma WordsOfOne(w: string)
    requires IsWord(w)
    ensures Words(w) == [w]
  {
    WordsCons(w, "");
    assert w + "" == w;
    assert Words("") == [];
  }

  /** A leading space does not change the words. */
  lemma WordsAfterSpace(b: string)
    requires IsWord(b)
    ensures Words(" " + b) == Words(b)
  {
    assert TrimStart(" " + b, Spaces) == b by {
      assert (" " + b)[1..] == b;
    }
  }

  /** Two plain words with one space between them are two words. */
  lemma {:induction false} WordsOfTwo(a: string, b: string)
    requires PlainWord(a) && PlainWord(b)
    ensures Words(a + (" " + b)) == [a, b]
  {
    WordsCons(a, " " + b);
    WordsAfterSpace(b);
    WordsOfOne(b);
  }

  /** ...and two joined by '_' come out joined by a space. */
  lemma CollapseTwoWords(a: string, b: string)
    requires PlainWord(a) && PlainWord(b)
    ensures Collapse(a + "_" + b) == a + " " + b
  {
    assert SpaceSeps(a + "_" + b) == a + (" " + b);
    WordsOfTwo(a, b);
    assert Join([a, b], " ") == a + " " + b;
  }

  /** A plain stem decorated with "_icon" and then "_portrait" names the
      stem itself: "ryu_icon_portrait" names Ryu. */
  lemma IconPortraitNamesStem(stem: string)
    requires PlainWord(stem) && Undecorated(stem)
    ensures CleanStem(stem + "_icon" + "_portrait") == Title(stem)
  {
    IconThenPortrait(stem);
    CollapseWord(stem);
  }

  /** "portrait" is not a version marker's end. */
  lemma PortraitTailKept(stem: string)
    ensures RemoveVersion(stem + "_portrait") == stem + "_portrait"
  {
    var a := stem + "_portrait";
    assert TrailingDigits(a) == 0;
    assert a[..|a|] == a;
    assert !EndsSepWord(a, "alt") by {
      assert Lower(a[|a| - 3..])[1] == LowerChar(a[|a| - 2]) == 'i';
    }
  }

  /** A plain stem decorated the other way round keeps "Portrait":
      "ryu_portrait_icon" names "Ryu Portrait". */
  lemma PortraitIconKeepsPortrait(stem: string)
    requires PlainWord(stem)
    ensures CleanStem(stem + "_portrait" + "_icon") == Title(stem + " portrait")
  {
    var name := stem + "_portrait" + "_icon";
    var bare := stem + "_portrait";
    PortraitWordCollapses(stem);
    assert RemoveVersion(DropSuffixes(name, PortraitSuffixes)) == bare by {
      PortraitThenIcon(stem);
      PortraitTailKept(stem);
    }
    CleanStemOf(name, bare);
  }

  /** The separator step turns "<stem>_portrait" into "<stem> portrait". */
  lemma PortraitWordCollapses(stem: string)
    requires PlainWord(stem)
    ensures Collapse(stem + "_portrait") == stem + " portrait"
  {
    assert stem + "_portrait" == stem + "_" + "portrait";
    assert stem + " portrait" == stem + " " + "portrait";
    assert PlainWord("portrait");
    CollapseTwoWords(stem, "portrait");
  }

  /** A version marker "_v" with any digits after a plain stem goes:
      "ken_v2" names Ken. */
  lemma VersionMarkerDropped(stem: string, digits: string)
    requires PlainWord(stem) && AllDigits(digits)
    ensures CleanStem(stem + "_v" + digits) == Title(stem)
  {
    var name := stem + "_v" + digits;
    assert DropSuffixes(name, PortraitSuffixes) == name by {
      VersionNameEnd(stem, digits);
      EndsInNoneByLast(name);
      DropNone(name, PortraitSuffixes);
    }
    assert RemoveVersion(name) == stem by {
      VersionMarkerAt(stem, digits);
      MarkerIsRemoved(name, |stem|);
    }
    assert Collapse(stem) == stem by {
      CollapseWord(stem);
    }
    CleanStemOf(name, stem);
  }

  lemma VersionNameEnd(stem: string, digits: string)
    requires AllDigits(digits)
    ensures var name := stem + "_v" + digits;
      name != [] && LowerChar(name[|name| - 1]) !in "tneg"
  {
    var name := stem + "_v" + digits;
    var last := name[|name| - 1];
    assert last == 'v' || IsDigit(last);
  }

  lemma VersionMarkerAt(stem: string, digits: string)
    requires AllDigits(digits)
    ensures var name := stem + "_v" + digits;
      |stem| <= |name| && IsMarker(name[|stem|..]) && name[..|stem|] == stem
  {
    var name := stem + "_v" + digits;
    var m := name[|stem|..];
    assert m == "_v" + digits;
    assert m[1..2] == "v" && m[2..] == digits;
    assert Lower(m[1..2]) == "v";
    assert IsMarker(m);
    assert name[..|stem|] == stem;
  }

  // ---------------------------------------------------------------------------
  // Portraits of a character

  const PortraitExtensions := [".png", ".jpg", ".jpeg", ".bmp"]

  /** The alt-character picker also accepts ".gif". */
  const ImageExtensions := [".png", ".jpg", ".jpeg", ".bmp", ".gif"]

  /** `filename.lower().endswith(exts)`. */
  predicate HasExtension(f: string, exts: seq<string>) {
    exists k :: 0 <= k < |exts| && EndsWith(Lower(f), exts[k])
  }

  /** A portrait of `character`: a portrait image whose cleaned name contains
      the character name, ignoring case. */
  predicate IsPortraitOf(f: string, character: string) {
    HasExtension(f, PortraitExtensions) && Contains(Lower(CleanFilename(f)), Lower(character))
  }

  function Paths(dir: string, files: seq<string>): (r: seq<string>)
    ensures |r| == |files|
    ensures forall p :: p in r <==> exists f :: f in files && p == WinPath.Join(dir, f)
  {
    var r := seq(|files|, k requires 0 <= k < |files| => WinPath.Join(dir, files[k]));
    assert forall p :: p in r ==> exists f :: f in files && p == WinPath.Join(dir, f) by {
      forall p | p in r ensures exists f :: f in files && p == WinPath.Join(dir, f) {
        var k :| 0 <= k < |r| && r[k] == p;
        assert files[k] in files;
      }
    }
    assert forall f :: f in files ==> WinPath.Join(dir, f) in r by {
      forall f | f in files ensures WinPath.Join(dir, f) in r {
        var k :| 0 <= k < |files| && files[k] == f;
        assert r[k] == WinPath.Join(dir, f);
      }
    }
    r
  }

  /** `get_character_portraits`. `listing` is the directory's file names, or
      None when the directory is missing or cannot be listed. The result holds
      the directory joined with each portrait of the character: one path per
      listing entry that is a portrait. */
  function CharacterPortraits(dir: string, listing: Option<seq<string>>, character: string): (r: seq<string>)
    ensures listing.None? ==> r == []
    ensures listing.Some? ==> |r| <= |listing.value|
    ensures listing.Some? ==>
              |r| == |set k | 0 <= k < |listing.value| && IsPortraitOf(listing.value[k], character)|
    ensures listing.Some? ==>
              forall p :: p in r <==> exists f :: f in listing.value && IsPortraitOf(f, character) && p == WinPath.Join(dir, f)
  {
    match listing
    case None => []
    case Some(files) =>
      var keep := Filter(files, PortraitTest(character));
      PortraitCount(files, character);
      Paths(dir, keep)
  }

  function PortraitTest(character: string): string -> bool {
    f => IsPortraitOf(f, character)
  }

  lemma PortraitCount(files: seq<string>, character: string)
    ensures |Filter(files, PortraitTest(character))| == |set k | 0 <= k < |files| && IsPortraitOf(files[k], character)|
  {
    FilterCountsPositions(files, PortraitTest(character));
    assert Positions(files, PortraitTest(character)) == set k | 0 <= k < |files| && IsPortraitOf(files[k], character);
  }

  /** A ".gif" file is an image for the alt picker but never a portrait. */
  lemma GifIsNoPortrait(f: string)
    requires EndsWith(Lower(f), ".gif")
    ensures !HasExtension(f, PortraitExtensions)
    ensures HasExtension(f, ImageExtensions)
  {
    var l := Lower(f);
    assert EndsWith(l, ImageExtensions[4]);
    forall k | 0 <= k < |PortraitExtensions| ensures !EndsWith(l, PortraitExtensions[k]) {
      var e := PortraitExtensions[k];
      assert e[|e| - 1] != 'f';
      assert l[|l| - 1] == 'f';
    }
  }

  /** An empty character name matches every portrait image. */
  lemma EmptyNameMatchesAll(f: string)
    ensures IsPortraitOf(f, "") <==> HasExtension(f, PortraitExtensions)
  {
    ContainsEmpty(Lower(CleanFilename(f)));
  }

  // ---------------------------------------------------------------------------
  // The cache of scaled portraits

  datatype Size = Size(width: int, height: int)

  /** `f"{path}_{size.width()}x{size.height()}"`. */
  function CacheKey(path: string, size: Size): string {
    path + "_" + IntText(size.width) + "x" + IntText(size.height)
  }

  lemma IntTextInjective(a: int, b: int)
    requires IntText(a) == IntText(b)
    ensures a == b
  {
    var t := IntText(a);
    assert t[0] == '-' <==> a < 0;
    assert t[0] == '-' <==> b < 0;
    if a < 0 {
      assert Decimal(-a) == t[1..] == Decimal(-b);
      DecimalInjective(-a, -b);
    } else {
      DecimalInjective(a, b);
    }
  }

  lemma XAt(w: string, h: string, m: int)
    requires 0 <= m <= |w| && 'x' !in w
    ensures (w + "x" + h)[m] == 'x' <==> m == |w|
  {
    if m < |w| {
      assert (w + "x" + h)[m] == w[m];
    }
  }

  /** `w + "x" + h` for texts without an 'x' determines `w` and `h`. */
  lemma SplitAtX(wa: string, ha: string, wb: string, hb: string)
    requires 'x' !in wa && 'x' !in wb
    requires wa + "x" + ha == wb + "x" + hb
    ensures wa == wb && ha == hb
  {
    var ta, tb := wa + "x" + ha, wb + "x" + hb;
    var m := if |wa| < |wb| then |wa| else |wb|;
    XAt(wa, ha, m);
    XAt(wb, hb, m);
    assert wa == ta[..|wa|] && wb == tb[..|wb|];
    assert ha == ta[|wa| + 1..] && hb == tb[|wb| + 1..];
  }

  /** The same path at two sizes is cached under two keys. */
  lemma {:induction false} CacheKeySeparatesSizes(path: string, a: Size, b: Size)
    requires a != b
    ensures CacheKey(path, a) != CacheKey(path, b)
  {
    if CacheKey(path, a) == CacheKey(path, b) {
      var wa, ha, wb, hb := IntText(a.width), IntText(a.height), IntText(b.width), IntText(b.height);
      var n := |path| + 1;
      assert CacheKey(path, a)[n..] == wa + "x" + ha;
      assert CacheKey(path, b)[n..] == wb + "x" + hb;
      SplitAtX(wa, ha, wb, hb);
      IntTextInjective(a.width, b.width);
      IntTextInjective(a.height, b.height);
    }
  }

  /** `load_portrait`. `present` is `os.path.exists(path)` and `scaled` the
      scaled image, None when the file does not decode. Returns the new
      cache and the image. */
  function LoadPortrait<P>(cache: map<string, P>, path: string, size: Size, useCache: bool,
                           present: bool, scaled: Option<P>): (r: (map<string, P>, Option<P>))
    ensures path == [] || !present ==> r == (cache, None)
    ensures path != [] && present && useCache && CacheKey(path, size) in cache ==>
              r == (cache, Some(cache[CacheKey(path, size)]))
    ensures r.1.None? ==> r.0 == cache
    ensures r.1.Some? ==> r.1 == scaled || (useCache && CacheKey(path, size) in cache && r.1 == Some(cache[CacheKey(path, size)]))
    ensures !useCache ==> r.0 == cache
    ensures forall k :: k in cache && k != CacheKey(path, size) ==> k in r.0 && r.0[k] == cache[k]
  {
    if path == [] || !present then (cache, None)
    else
      var key := CacheKey(path, size);
      if useCache && key in cache then (cache, Some(cache[key]))
      else
        match scaled
        case None => (cache, None)
        case Some(image) => (if useCache then cache[key := image] else cache, Some(image))
  }

  /** Once an image is loaded with the cache on, loading the same path at the
      same size again returns it unchanged, whatever the file now decodes
      to, as long as the file still exists. */
  lemma SecondLoadHitsCache<P>(cache: map<string, P>, path: string, size: Size, image: P,
                               stillThere: bool, scaled2: Option<P>)
    requires LoadPortrait(cache, path, size, true, true, Some(image)).1.Some?
    ensures var (c1, img1) := LoadPortrait(cache, path, size, true, true, Some(image));
            LoadPortrait(c1, path, size, true, stillThere, scaled2) == (if stillThere then (c1, img1) else (c1, None))
  {
  }
}

=== FILE: preferences.dfy ===
/** The preferences document of core/preferences.py (`Preferences`): a flat
    map from key to JSON value, the defaults overlaid by what the file holds.
    The parsed file is a parameter, `None` when it is missing or does not
    parse; every `set` also writes the file, which is left out. */
module Preferences {
  import opened Results
  import opened Text
  import AltPicker

  /** The JSON values the document holds. */
  datatype Value = Null | Bool(b: bool) | Num(n: int) | Str(s: string) | Strs(items: seq<string>)

  type Prefs = map<string, Value>

  /** Python truthiness of a value. */
  predicate Truthy(v: Value) {
    match v
    case Null => false
    case Bool(b) => b
    case Num(n) => n != 0
    case Str(s) => s != []
    case Strs(items) => items != []
  }

  const DefaultAlts: seq<string> := ["Dhalsim", "Elena", "Cammy"]

  /** `DEFAULT_PREFS`. */
  const Defaults: Prefs := map[
    "main_character" := Null,
    "main_character_path" := Null,
    "rank_badge_path" := Null,
    "alt_characters" := Strs(DefaultAlts),
    "dark_mode" := Bool(false),
    "active_db_path" := Null,
    "character_name_override" := Null,
    "rename_character" := Null]

  /** `__init__` then `load`: a copy of the defaults updated with the file's
      keys, which win; defaults the file lacks stay, and keys the defaults
      lack are kept. */
  function Load(loaded: Option<Prefs>): (p: Prefs)
    ensures loaded.None? ==> p == Defaults
    ensures loaded.Some? ==> forall k :: k in p <==> k in Defaults || k in loaded.value
    ensures loaded.Some? ==> forall k :: k in loaded.value ==> p[k] == loaded.value[k]
    ensures loaded.Some? ==> forall k :: k in Defaults && k !in loaded.value ==> p[k] == Defaults[k]
  {
    if loaded.None? then Defaults else Defaults + loaded.value
  }

  /** `get(key, default)`: the stored value whenever the key is present,
      `None` included, else the default. */
  function Get(p: Prefs, k: string, fallback: Value): (v: Value)
    ensures k in p ==> v == p[k]
    ensures k !in p ==> v == fallback
  {
    if k in p then p[k] else fallback
  }

  /** `set(key, value)`: only that key changes. */
  function Set(p: Prefs, k: string, v: Value): (r: Prefs)
    ensures k in r && r[k] == v
    ensures forall j :: j != k ==> (j in r <==> j in p)
    ensures forall j :: j != k && j in p ==> r[j] == p[j]
  {
    p[k := v]
  }

  /** `get_main_character`: `character_name_override or main_character`. */
  function GetMainCharacter(p: Prefs): (v: Value)
    ensures Truthy(Get(p, "character_name_override", Null)) ==> v == p["character_name_override"]
    ensures !Truthy(Get(p, "character_name_override", Null)) ==> v == Get(p, "main_character", Null)
  {
    var o := Get(p, "character_name_override", Null);
    if Truthy(o) then o else Get(p, "main_character", Null)
  }

  /** `set_main_character(name, portrait_path)`: the name always, the path
      only when a non-empty one is given. */
  function SetMainCharacter(p: Prefs, name: string, path: Option<string>): (r: Prefs)
    ensures "main_character" in r && r["main_character"] == Str(name)
    ensures path.Some? && path.value != [] ==> "main_character_path" in r && r["main_character_path"] == Str(path.value)
    ensures !(path.Some? && path.value != []) ==>
              ("main_character_path" in r <==> "main_character_path" in p) &&
              ("main_character_path" in p ==> r["main_character_path"] == p["main_character_path"])
    ensures forall j :: j != "main_character" && j != "main_character_path" ==>
              (j in r <==> j in p) && (j in p ==> r[j] == p[j])
  {
    var q := Set(p, "main_character", Str(name));
    if path.Some? && path.value != [] then Set(q, "main_character_path", Str(path.value)) else q
  }

  /** `get_alt_characters`: the stored value, `[]` when the key is gone. */
  function GetAltCharacters(p: Prefs): (v: Value)
    ensures "alt_characters" !in p ==> v == Strs([])
  {
    Get(p, "alt_characters", Strs([]))
  }

  /** `set_alt_characters`. */
  function SetAltCharacters(p: Prefs, characters: seq<string>): (r: Prefs)
    ensures forall j :: j != "alt_characters" ==> (j in r <==> j in p) && (j in p ==> r[j] == p[j])
  {
    Set(p, "alt_characters", Strs(characters))
  }

  /** `get_rename_character`. */
  function GetRenameCharacter(p: Prefs): (v: Value)
    ensures "rename_character" !in p ==> v == Null
  {
    Get(p, "rename_character", Null)
  }

  /** The value `set_rename_character` stores for an optional name. */
  function OptionalName(c: Option<string>): (v: Value)
    ensures c.None? <==> v == Null
  {
    if c.Some? then Str(c.value) else Null
  }

  /** `set_rename_character`. */
  function SetRenameCharacter(p: Prefs, c: Option<string>): (r: Prefs)
    ensures forall j :: j != "rename_character" ==> (j in r <==> j in p) && (j in p ==> r[j] == p[j])
  {
    Set(p, "rename_character", OptionalName(c))
  }

  /** What the alt picker is opened with: `get_alt_characters()` as the
      dialog's `current_alts or []` keeps it. */
  function CurrentAlts(p: Prefs): (r: AltPicker.Alts)
    ensures !Truthy(GetAltCharacters(p)) ==> r == AltPicker.AltList([])
    ensures GetAltCharacters(p).Strs? ==> r == AltPicker.AltList(GetAltCharacters(p).items)
    ensures GetAltCharacters(p).Str? && Truthy(GetAltCharacters(p)) ==> r == AltPicker.AltText(GetAltCharacters(p).s)
    ensures r.NotIterable? <==> Truthy(GetAltCharacters(p)) && (GetAltCharacters(p).Num? || GetAltCharacters(p).Bool?)
  {
    var v := GetAltCharacters(p);
    if !Truthy(v) then AltPicker.AltList([])
    else
      match v
      case Strs(items) => AltPicker.AltList(items)
      case Str(s) => AltPicker.AltText(s)
      case _ => AltPicker.NotIterable
  }

  /** `choose_alt_characters` in ui/main_window.py: on OK the checked names
      of the picker become the alts; on Cancel nothing changes. */
  function ChooseAltCharacters(p: Prefs, d: AltPicker.AltDialog, ok: bool): (r: Prefs)
    ensures !ok ==> r == p
  {
    if ok then SetAltCharacters(p, AltPicker.GetSelected(d)) else p
  }

  /** `edit_character_name` in ui/main_window.py: the trimmed text, or
      `None` when it is blank, becomes the override. */
  function EditCharacterName(p: Prefs, text: string): (r: Prefs)
    ensures forall j :: j != "character_name_override" ==> (j in r <==> j in p) && (j in p ==> r[j] == p[j])
  {
    var t := Strip(text);
    Set(p, "character_name_override", if t != [] then Str(t) else Null)
  }

  /** `toggle_theme` in ui/main_window.py: `not` of the stored flag, which
      defaults to `False`. */
  function ToggleTheme(p: Prefs): (r: Prefs)
    ensures "dark_mode" in r && r["dark_mode"] == Bool(!Truthy(Get(p, "dark_mode", Bool(false))))
    ensures forall j :: j != "dark_mode" ==> (j in r <==> j in p) && (j in p ==> r[j] == p[j])
  {
    Set(p, "dark_mode", Bool(!Truthy(Get(p, "dark_mode", Bool(false)))))
  }

  // ---------------------------------------------------------------------------
  // Properties

  /** Without a file: three default alts, light theme, and no main or
      rename character. */
  lemma DefaultsWithoutFile()
    ensures GetAltCharacters(Load(None)) == Strs(["Dhalsim", "Elena", "Cammy"])
    ensures Get(Load(None), "dark_mode", Bool(true)) == Bool(false)
    ensures GetMainCharacter(Load(None)) == Null && GetRenameCharacter(Load(None)) == Null
    ensures forall k :: k in Load(None) ==> Load(None)[k] == Null || k == "alt_characters" || k == "dark_mode"
  {
  }

  /** A value set is the value got back, whatever the default. */
  lemma SetThenGet(p: Prefs, k: string, v: Value, j: string, fallback: Value)
    ensures Get(Set(p, k, v), k, fallback) == v
    ensures j != k ==> Get(Set(p, k, v), j, fallback) == Get(p, j, fallback)
  {
  }

  /** Loaded keys read back as stored, `None` included; a default key the
      file lacks reads back its default, and any other key the fallback. */
  lemma LoadThenGet(loaded: Prefs, k: string, fallback: Value)
    ensures k in loaded ==> Get(Load(Some(loaded)), k, fallback) == loaded[k]
    ensures k !in loaded && k in Defaults ==> Get(Load(Some(loaded)), k, fallback) == Defaults[k]
    ensures k !in loaded && k !in Defaults ==> Get(Load(Some(loaded)), k, fallback) == fallback
  {
  }

  /** `set_rename_character(x)` then `get_rename_character()` gives x. */
  lemma RenameCharacterRoundTrip(p: Prefs, c: Option<string>)
    ensures GetRenameCharacter(SetRenameCharacter(p, c)) == OptionalName(c)
    ensures c.Some? ==> GetRenameCharacter(SetRenameCharacter(p, c)) == Str(c.value)
  {
  }

  /** Alts set are alts got, and the picker reopens on them. */
  lemma AltCharactersRoundTrip(p: Prefs, characters: seq<string>)
    ensures GetAltCharacters(SetAltCharacters(p, characters)) == Strs(characters)
    ensures CurrentAlts(SetAltCharacters(p, characters)) == AltPicker.AltList(characters)
  {
  }

  /** After choosing, the stored alts are exactly the checked names. */
  lemma ChosenAltsStored(p: Prefs, d: AltPicker.AltDialog)
    ensures CurrentAlts(ChooseAltCharacters(p, d, true)) == AltPicker.AltList(AltPicker.GetSelected(d))
  {
    AltCharactersRoundTrip(p, AltPicker.GetSelected(d));
  }

  /** A stored text that is not empty checks the rows whose name occurs in
      it, not the rows whose name equals it. */
  lemma StoredTextChecksSubstrings(p: Prefs, listing: Option<seq<string>>, s: string)
    requires GetAltCharacters(p) == Str(s) && s != []
    ensures AltPicker.Open(listing, CurrentAlts(p)).Ok?
    ensures var d := AltPicker.Open(listing, CurrentAlts(p)).value;
            forall i :: 0 <= i < |d.entries| ==> (d.entries[i].marked <==> Contains(s, d.entries[i].text))
  {
  }

  /** With "Ryu Ken" stored, both "Ryu" and "Ken" are current alts, and a
      name that does not occur in the text is not. */
  lemma {:induction false} TextAltsExample()
    ensures CurrentAlts(map["alt_characters" := Str("Ryu Ken")]) == AltPicker.AltText("Ryu Ken")
    ensures AltPicker.IsCurrent(AltPicker.AltText("Ryu Ken"), "Ryu")
    ensures AltPicker.IsCurrent(AltPicker.AltText("Ryu Ken"), "Ken")
    ensures !AltPicker.IsCurrent(AltPicker.AltText("Ryu Ken"), "Cammy")
  {
    var text := "Ryu Ken";
    assert "Ryu" <= text;
    ContainsIff(text, "Ken");
    assert "Ken" <= text[4..];
    ContainsIff(text, "Cammy");
    forall i | 0 <= i <= |text| ensures !("Cammy" <= text[i..]) {
      if i <= 2 {
        assert text[i..][0] != 'C';
      }
    }
  }

  /** A truthy number or boolean stored as the alts makes the picker raise
      as soon as it has a row to check. */
  lemma StoredNumberFailsOpen(p: Prefs, listing: Option<seq<string>>)
    requires Truthy(GetAltCharacters(p)) && (GetAltCharacters(p).Num? || GetAltCharacters(p).Bool?)
    requires AltPicker.Available(listing) != []
    ensures AltPicker.Open(listing, CurrentAlts(p)) == Err(AltPicker.AltsNotIterable)
  {
  }

  /** The main character set is the one got back unless an override is in
      force, and the path stays when none is given. */
  lemma MainCharacterRoundTrip(p: Prefs, name: string, path: Option<string>)
    ensures !Truthy(Get(p, "character_name_override", Null)) ==>
              GetMainCharacter(SetMainCharacter(p, name, path)) == Str(name)
    ensures Truthy(Get(p, "character_name_override", Null)) ==>
              GetMainCharacter(SetMainCharacter(p, name, path)) == GetMainCharacter(p)
    ensures path.None? ==> Get(SetMainCharacter(p, name, path), "main_character_path", Null) == Get(p, "main_character_path", Null)
  {
  }

  /** A non-blank edited name wins over the main character; a blank one
      falls back to it. */
  lemma EditedNameWins(p: Prefs, text: string)
    ensures Strip(text) != [] ==> GetMainCharacter(EditCharacterName(p, text)) == Str(Strip(text))
    ensures Strip(text) == [] ==> GetMainCharacter(EditCharacterName(p, text)) == Get(p, "main_character", Null)
  {
  }

  /** Toggling twice restores a stored flag. */
  lemma ToggleTwice(p: Prefs)
    requires "dark_mode" in p && p["dark_mode"].Bool?
    ensures ToggleTheme(ToggleTheme(p)) == p
  {
    assert ToggleTheme(ToggleTheme(p))["dark_mode"] == p["dark_mode"];
  }
}

=== FILE: quotes.dfy ===
/** The quote pools of utils/quote_manager.py (`QuoteManager`). The parsed
    JSON file is a parameter: `None` when the file is missing, `NotObject`
    when it is not a JSON object or does not parse. List entries are given
    as the text `str(q)` makes of them. `random.choice` is an index
    parameter `pick`, reduced modulo the pool size, so every member of a
    pool can be returned. */
module Quotes {
  import opened Results
  import opened Text

  datatype RawValue = List(entries: seq<string>) | NotList
  /** The top-level JSON value: an object's pairs as the file writes them,
      in file order and possibly repeating a key, or anything else. */
  datatype Raw = Object(pairs: seq<(string, RawValue)>) | NotObject

  /** A Python dict from character to pool: its keys in insertion order and
      the pools by key. */
  datatype Pools = Pools(keys: seq<string>, pools: map<string, seq<string>>)

  const NoQuotes := "No quotes available"

  /** Keys and map agree, and no key is listed twice. */
  predicate Valid(d: Pools) {
    (forall k :: k in d.pools ==> k in d.keys) &&
    (forall i :: 0 <= i < |d.keys| ==> d.keys[i] in d.pools) &&
    (forall i, j :: 0 <= i < j < |d.keys| ==> d.keys[i] != d.keys[j])
  }

  /** A quote as stored: non-empty and trimmed. */
  predicate IsQuote(q: string) {
    q != [] && IsStripped(q)
  }

  /** A pool as stored: non-empty, of quotes. */
  predicate IsPool(p: seq<string>) {
    p != [] && forall k :: 0 <= k < |p| ==> IsQuote(p[k])
  }

  /** What the loader guarantees. */
  predicate WellFormed(d: Pools) {
    Valid(d) && forall k :: k in d.pools ==> Stored(k, d.pools[k])
  }

  /** A key and its pool as stored. */
  predicate Stored(k: string, pool: seq<string>) {
    IsStripped(k) && IsPool(pool)
  }

  const Empty := Pools([], map[])

  /** `[str(q).strip() for q in quote_list if str(q).strip()]`. */
  function CleanPool(entries: seq<string>): (r: seq<string>)
    ensures |r| <= |entries|
    ensures forall k :: 0 <= k < |r| ==> IsQuote(r[k])
    ensures forall q :: q in r <==> exists i :: 0 <= i < |entries| && Cleans(entries[i], q)
    decreases |entries|
  {
    if entries == [] then []
    else
      var rest := CleanPool(entries[1..]);
      CleanStep(entries, rest);
      Head(entries[0]) + rest
  }

  /** Entry `e` cleans to the quote `q`. */
  predicate Cleans(e: string, q: string) {
    Strip(e) == q && q != []
  }

  /** What the first entry contributes. */
  function Head(e: string): (r: seq<string>)
    ensures |r| <= 1
    ensures forall k :: 0 <= k < |r| ==> IsQuote(r[k])
    ensures forall q :: q in r <==> Cleans(e, q)
  {
    if Strip(e) != [] then [Strip(e)] else []
  }

  lemma CleanStep(entries: seq<string>, rest: seq<string>)
    requires entries != []
    requires forall k :: 0 <= k < |rest| ==> IsQuote(rest[k])
    requires forall q :: q in rest <==> exists i :: 0 <= i < |entries[1..]| && Cleans(entries[1..][i], q)
    ensures forall k :: 0 <= k < |Head(entries[0]) + rest| ==> IsQuote((Head(entries[0]) + rest)[k])
    ensures forall q :: q in Head(entries[0]) + rest <==> exists i :: 0 <= i < |entries| && Cleans(entries[i], q)
  {
    var r := Head(entries[0]) + rest;
    forall k | 0 <= k < |r| ensures IsQuote(r[k]) {
      if k >= |Head(entries[0])| {
        assert r[k] == rest[k - |Head(entries[0])|];
      }
    }
    forall q | q in r ensures exists i :: 0 <= i < |entries| && Cleans(entries[i], q) {
      if q in rest {
        var i :| 0 <= i < |entries[1..]| && Cleans(entries[1..][i], q);
        assert entries[i + 1] == entries[1..][i];
      } else {
        assert Cleans(entries[0], q);
      }
    }
    forall q, i | 0 <= i < |entries| && Cleans(entries[i], q) ensures q in r {
      if i > 0 {
        assert entries[1..][i - 1] == entries[i];
        assert q in rest;
      }
    }
  }

  /** `self.quotes[key] = pool`: an existing key keeps its place and takes
      the new pool; a new key goes last. */
  function Put(d: Pools, k: string, pool: seq<string>): (r: Pools)
    requires Valid(d)
    ensures Valid(r)
    ensures r.pools == d.pools[k := pool]
    ensures k in d.pools ==> r.keys == d.keys
    ensures k !in d.pools ==> r.keys == d.keys + [k]
  {
    if k in d.pools then Pools(d.keys, d.pools[k := pool])
    else
      var keys := d.keys + [k];
      assert forall i :: 0 <= i < |d.keys| ==> keys[i] == d.keys[i];
      Pools(keys, d.pools[k := pool])
  }

  /** One step of `load_quotes`: a list value with some non-empty entry
      stores its cleaned pool under the trimmed key; anything else is
      skipped. */
  function LoadPair(d: Pools, key: string, v: RawValue): (r: Pools)
    requires WellFormed(d)
    ensures WellFormed(r)
    ensures v.List? && CleanPool(v.entries) != [] ==> r.pools == d.pools[Strip(key) := CleanPool(v.entries)]
    ensures !(v.List? && CleanPool(v.entries) != []) ==> r == d
  {
    if v.List? && CleanPool(v.entries) != [] then
      StripSetNoop(Strip(key), Spaces);
      PutKeepsWellFormed(d, Strip(key), CleanPool(v.entries));
      Put(d, Strip(key), CleanPool(v.entries))
    else d
  }

  lemma PutKeepsWellFormed(d: Pools, k: string, pool: seq<string>)
    requires WellFormed(d) && Stored(k, pool)
    ensures WellFormed(Put(d, k, pool))
  {
  }

  // ---------------------------------------------------------------------------
  // `json.load` of an object: the file's pairs become a dict

  /** The keys of `pairs`, in order. */
  function RawKeys(pairs: seq<(string, RawValue)>): (r: seq<string>)
    ensures |r| == |pairs|
    ensures forall i :: 0 <= i < |r| ==> r[i] == pairs[i].0
  {
    seq(|pairs|, i requires 0 <= i < |pairs| => pairs[i].0)
  }

  /** The value the last pair with key `k` gives, if any. */
  function LastValue(pairs: seq<(string, RawValue)>, k: string): (r: Option<RawValue>)
    ensures r.Some? <==> k in RawKeys(pairs)
    decreases |pairs|
  {
    if pairs == [] then None
    else
      var n := |pairs| - 1;
      assert RawKeys(pairs) == RawKeys(pairs[..n]) + [pairs[n].0];
      if pairs[n].0 == k then Some(pairs[n].1) else LastValue(pairs[..n], k)
  }

  /** The position of the first pair with key `k`. */
  function FirstIndex(pairs: seq<(string, RawValue)>, k: string): (i: nat)
    requires k in RawKeys(pairs)
    ensures i < |pairs| && pairs[i].0 == k
    ensures forall j :: 0 <= j < i ==> pairs[j].0 != k
    decreases |pairs|
  {
    var n := |pairs| - 1;
    assert RawKeys(pairs) == RawKeys(pairs[..n]) + [pairs[n].0];
    if k in RawKeys(pairs[..n]) then FirstIndex(pairs[..n], k) else n
  }

  /** Keys appear once each. */
  predicate DistinctKeys(pairs: seq<(string, RawValue)>) {
    forall i, j :: 0 <= i < j < |pairs| ==> pairs[i].0 != pairs[j].0
  }

  /** A dict assignment `d[k] = v` on the pairs of a dict. */
  function Assign(d: seq<(string, RawValue)>, k: string, v: RawValue): (r: seq<(string, RawValue)>)
    requires DistinctKeys(d)
    ensures DistinctKeys(r)
    ensures k in RawKeys(d) ==> |r| == |d| && forall i :: 0 <= i < |d| ==> r[i].0 == d[i].0
    ensures k !in RawKeys(d) ==> r == d + [(k, v)]
    ensures forall i :: 0 <= i < |r| ==> r[i].1 == (if r[i].0 == k then v else d[i].1)
  {
    if k in RawKeys(d) then
      var j :| 0 <= j < |d| && d[j].0 == k;
      d[j := (k, v)]
    else d + [(k, v)]
  }

  /** The dict `json.load` builds from an object's pairs in file order: each
      key once, where it first appears, with the value it last appears
      with. `{"Ryu": ["a"], "Ryu": []}` is the dict `{"Ryu": []}`. */
  function DictOf(pairs: seq<(string, RawValue)>): (r: seq<(string, RawValue)>)
    ensures DistinctKeys(r)
    ensures forall k :: k in RawKeys(r) <==> k in RawKeys(pairs)
    ensures forall i :: 0 <= i < |r| ==> LastValue(pairs, r[i].0) == Some(r[i].1)
    ensures forall i, j :: 0 <= i < j < |r| ==> FirstIndex(pairs, r[i].0) < FirstIndex(pairs, r[j].0)
    decreases |pairs|
  {
    if pairs == [] then []
    else
      var n := |pairs| - 1;
      var d := DictOf(pairs[..n]);
      var r := Assign(d, pairs[n].0, pairs[n].1);
      DictStep(pairs, d, r);
      r
  }

  lemma DictStep(pairs: seq<(string, RawValue)>, d: seq<(string, RawValue)>, r: seq<(string, RawValue)>)
    requires pairs != []
    requires var init := pairs[..|pairs| - 1];
      && DistinctKeys(d)
      && (forall k :: k in RawKeys(d) <==> k in RawKeys(init))
      && (forall i :: 0 <= i < |d| ==> LastValue(init, d[i].0) == Some(d[i].1))
      && (forall i, j :: 0 <= i < j < |d| ==> FirstIndex(init, d[i].0) < FirstIndex(init, d[j].0))
    requires r == Assign(d, pairs[|pairs| - 1].0, pairs[|pairs| - 1].1)
    ensures forall k :: k in RawKeys(r) <==> k in RawKeys(pairs)
    ensures forall i :: 0 <= i < |r| ==> LastValue(pairs, r[i].0) == Some(r[i].1)
    ensures forall i, j :: 0 <= i < j < |r| ==> FirstIndex(pairs, r[i].0) < FirstIndex(pairs, r[j].0)
  {
    var n := |pairs| - 1;
    var init, k := pairs[..n], pairs[n].0;
    assert RawKeys(pairs) == RawKeys(init) + [k];
    forall x | x in RawKeys(init) ensures FirstIndex(pairs, x) == FirstIndex(init, x) {
      FirstIndexSnoc(pairs, x);
    }
    if k in RawKeys(d) {
      assert RawKeys(r) == RawKeys(d);
    } else {
      assert RawKeys(r) == RawKeys(d) + [k];
      assert FirstIndex(pairs, k) == n;
    }
  }

  lemma FirstIndexSnoc(pairs: seq<(string, RawValue)>, x: string)
    requires pairs != [] && x in RawKeys(pairs[..|pairs| - 1])
    ensures FirstIndex(pairs, x) == FirstIndex(pairs[..|pairs| - 1], x)
  {
  }

  /** The `for char, quote_list in raw.items()` loop over the pairs in file
      order; the last pair is the last step. */
  function LoadPairs(d: Pools, pairs: seq<(string, RawValue)>): (r: Pools)
    requires WellFormed(d)
    ensures WellFormed(r)
    decreases |pairs|
  {
    if pairs == [] then d
    else
      var n := |pairs| - 1;
      LoadPair(LoadPairs(d, pairs[..n]), pairs[n].0, pairs[n].1)
  }

  /** `load_quotes` on a new manager. */
  function Load(file: Option<Raw>): (r: Pools)
    ensures WellFormed(r)
    ensures file.None? || file.value.NotObject? ==> r == Empty
  {
    if file.Some? && file.value.Object? then LoadPairs(Empty, DictOf(file.value.pairs)) else Empty
  }

  // ---------------------------------------------------------------------------
  // The pool a key ends up with, read off the file directly

  /** The cleaned pool of the last pair whose trimmed key is `k` and that
      yields a non-empty pool. */
  function LastPool(pairs: seq<(string, RawValue)>, k: string): Option<seq<string>>
    decreases |pairs|
  {
    if pairs == [] then None
    else
      var last := pairs[|pairs| - 1];
      if Strip(last.0) == k && last.1.List? && CleanPool(last.1.entries) != [] then Some(CleanPool(last.1.entries))
      else LastPool(pairs[..|pairs| - 1], k)
  }

  /** `self.quotes[k]`, if present. */
  function Lookup(d: Pools, k: string): Option<seq<string>> {
    if k in d.pools then Some(d.pools[k]) else None
  }

  lemma {:induction false} LoadPairsLookup(d: Pools, pairs: seq<(string, RawValue)>, k: string)
    requires WellFormed(d)
    ensures Lookup(LoadPairs(d, pairs), k) == if LastPool(pairs, k).Some? then LastPool(pairs, k) else Lookup(d, k)
    decreases |pairs|
  {
    if pairs != [] {
      LoadPairsLookup(d, pairs[..|pairs| - 1], k);
    }
  }

  /** After loading, each key's pool is the one the last usable entry of
      the decoded dict for that trimmed key gives: later keys that trim the
      same way win, unusable ones are skipped, and a key no usable entry
      trims to is absent. With keys written once each in the file, the
      dict's entries are the file's own pairs. */
  lemma LoadedPool(pairs: seq<(string, RawValue)>, k: string)
    ensures Lookup(Load(Some(Object(pairs))), k) == LastPool(DictOf(pairs), k)
    ensures DistinctKeys(pairs) ==> Lookup(Load(Some(Object(pairs))), k) == LastPool(pairs, k)
  {
    LoadPairsLookup(Empty, DictOf(pairs), k);
    if DistinctKeys(pairs) {
      DictOfDistinct(pairs);
    }
  }

  /** An object whose keys are written once each decodes to its own pairs. */
  lemma {:induction false} DictOfDistinct(pairs: seq<(string, RawValue)>)
    requires DistinctKeys(pairs)
    ensures DictOf(pairs) == pairs
    decreases |pairs|
  {
    if pairs != [] {
      var n := |pairs| - 1;
      var init, k, v := pairs[..n], pairs[n].0, pairs[n].1;
      DistinctPrefix(pairs);
      calc {
        DictOf(pairs);
        Assign(DictOf(init), k, v);
        { DictOfDistinct(init); }
        Assign(init, k, v);
        { assert k !in RawKeys(init); }
        init + [(k, v)];
        { assert pairs == init + [pairs[n]]; }
        pairs;
      }
    }
  }

  /** Dropping the last pair keeps the keys distinct, and that pair's key is
      not among the others. */
  lemma DistinctPrefix(pairs: seq<(string, RawValue)>)
    requires pairs != [] && DistinctKeys(pairs)
    ensures DistinctKeys(pairs[..|pairs| - 1])
    ensures pairs[|pairs| - 1].0 !in RawKeys(pairs[..|pairs| - 1])
  {
    var init := pairs[..|pairs| - 1];
    forall i, j | 0 <= i < j < |init| ensures init[i].0 != init[j].0 {
      assert init[i] == pairs[i] && init[j] == pairs[j];
    }
    forall i | 0 <= i < |init| ensures RawKeys(init)[i] != pairs[|pairs| - 1].0 {
      assert init[i] == pairs[i];
    }
  }

  /** A key written twice takes its last value: with `{"Ryu": ["a"],
      "Ryu": []}` no quotes are stored for Ryu. */
  lemma RepeatedKeyLastWins()
    ensures Lookup(Load(Some(Object([("Ryu", List(["a"])), ("Ryu", List([]))]))), "Ryu") == None
  {
    var first, second := ("Ryu", List(["a"])), ("Ryu", List([]));
    var pairs := [first, second];
    assert pairs[..1] == [first] && [first][..0] == [];
    assert DictOf([first]) == [first] by {
      assert DictOf([first]) == Assign([], "Ryu", List(["a"]));
    }
    assert "Ryu" in RawKeys([first]);
    var d := DictOf(pairs);
    assert d == Assign([first], "Ryu", List([]));
    assert |d| == 1 && d[0] == second;
    assert CleanPool([]) == [];
    LoadedPool(pairs, "Ryu");
  }

  // ---------------------------------------------------------------------------
  // Lookups

  /** The first key, in insertion order, equal to `character` ignoring
      case. */
  function FirstCaseless(keys: seq<string>, character: string): (r: Option<nat>)
    ensures r.Some? ==> r.value < |keys| && Lower(keys[r.value]) == Lower(character)
    ensures r.Some? ==> forall j :: 0 <= j < r.value ==> Lower(keys[j]) != Lower(character)
    ensures r.None? ==> forall j :: 0 <= j < |keys| ==> Lower(keys[j]) != Lower(character)
    decreases |keys|
  {
    if keys == [] then None
    else if Lower(keys[0]) == Lower(character) then Some(0)
    else
      var r := FirstCaseless(keys[1..], character);
      assert forall j :: 1 <= j < |keys| ==> keys[j] == keys[1..][j - 1];
      if r.Some? then Some(r.value + 1) else None
  }

  /** `random.choice` over a pool. */
  function Choose(pool: seq<string>, pick: nat): (q: string)
    requires pool != []
    ensures q in pool
  {
    pool[pick % |pool|]
  }

  /** `get_random_quote`: the exact key first, then the first key equal
      ignoring case, else the fallback text. */
  function GetRandomQuote(d: Pools, character: string, pick: nat): (q: string)
    requires WellFormed(d)
    ensures character in d.pools ==> q in d.pools[character]
    ensures character !in d.pools && FirstCaseless(d.keys, character).Some? ==>
              q in d.pools[d.keys[FirstCaseless(d.keys, character).value]]
    ensures character !in d.pools && FirstCaseless(d.keys, character).None? ==> q == NoQuotes
  {
    if character in d.pools then Choose(d.pools[character], pick)
    else
      var i := FirstCaseless(d.keys, character);
      if i.Some? then
        assert d.keys[i.value] in d.pools;
        Choose(d.pools[d.keys[i.value]], pick)
      else NoQuotes
  }

  /** `has_quotes`. */
  predicate HasQuotes(d: Pools, character: string) {
    character in d.pools || exists i :: 0 <= i < |d.keys| && Lower(d.keys[i]) == Lower(character)
  }

  // ---------------------------------------------------------------------------
  // Properties

  /** Without quotes for a character the fallback text comes back; with
      them, a stored quote does. */
  lemma HasQuotesDecides(d: Pools, character: string, pick: nat)
    requires WellFormed(d)
    ensures !HasQuotes(d, character) ==> GetRandomQuote(d, character, pick) == NoQuotes
    ensures HasQuotes(d, character) ==> exists k :: k in d.pools && GetRandomQuote(d, character, pick) in d.pools[k]
  {
    if HasQuotes(d, character) && character !in d.pools {
      var i := FirstCaseless(d.keys, character);
      assert i.Some?;
      assert d.keys[i.value] in d.pools;
    }
  }

  /** Every returned quote is trimmed and non-empty when the character has
      quotes; the pool is never empty, so `random.choice` never raises. */
  lemma QuotesAreClean(d: Pools, character: string, pick: nat)
    requires WellFormed(d) && HasQuotes(d, character)
    ensures IsQuote(GetRandomQuote(d, character, pick))
  {
    HasQuotesDecides(d, character, pick);
    var k :| k in d.pools && GetRandomQuote(d, character, pick) in d.pools[k];
    var p := d.pools[k];
    var j :| 0 <= j < |p| && p[j] == GetRandomQuote(d, character, pick);
  }

  /** A key written with other case still finds a pool: the first such key
      in insertion order. */
  lemma CaselessFindsFirst(d: Pools, character: string, i: nat, pick: nat)
    requires WellFormed(d) && character !in d.pools
    requires i < |d.keys| && Lower(d.keys[i]) == Lower(character)
    requires forall j :: 0 <= j < i ==> Lower(d.keys[j]) != Lower(character)
    ensures GetRandomQuote(d, character, pick) in d.pools[d.keys[i]]
  {
    var f := FirstCaseless(d.keys, character);
    assert f.Some?;
    assert f.value == i;
  }

  /** An exact key wins over a key that differs in case only, wherever it
      stands. */
  lemma ExactKeyWins(d: Pools, character: string, pick: nat)
    requires WellFormed(d) && character in d.pools
    ensures GetRandomQuote(d, character, pick) in d.pools[character]
  {
  }
}

=== FILE: recyclebin.dfy ===
/** The recycle-bin dialog of ui/dialogs/utility_dialogs.py: restoring,
    permanently deleting and emptying bin rows. A restore batch runs in one
    transaction, so one failing insert undoes the whole batch. */
module RecycleBin {
  import opened Results
  import opened Seqs
  import opened Store
  import Stamps
  import Text

  /** One iteration of `_restore_items`: the bin row with key `ufc` is
      inserted into `replays` without its `deleted_date` and removed from the
      bin; a key not in the bin is skipped; a key already active makes the
      insert fail. */
  function RestoreOne(c: Catalog, ufc: string): (r: Result<Catalog, StoreError>)
    ensures !InBin(c.bin, ufc) ==> r == Ok(c)
    ensures InBin(c.bin, ufc) ==> (r.Err? <==> HasKey(c.replays, ufc))
    ensures r.Err? ==> r.error == DuplicateUfc(ufc)
    ensures InBin(c.bin, ufc) && r.Ok? ==>
      && r.value.dbCode == c.dbCode
      && r.value.replays == c.replays + [FindInBin(c.bin, ufc).value.item]
      && (forall x :: x in r.value.bin <==> x in c.bin && x.item.ufc != ufc)
  {
    match FindInBin(c.bin, ufc)
    case None => Ok(c)
    case Some(x) =>
      if HasKey(c.replays, ufc) then Err(DuplicateUfc(ufc))
      else Ok(c.(replays := c.replays + [x.item], bin := BinWithout(c.bin, ufc)))
  }

  /** `_restore_items(ufc_list)` up to its commit: every key in turn, stopping
      at the first failing insert. */
  function RestoreItems(c: Catalog, ufcs: seq<string>): (r: Result<Catalog, StoreError>)
    ensures r.Ok? ==> r.value.dbCode == c.dbCode
    decreases |ufcs|
  {
    if |ufcs| == 0 then Ok(c)
    else
      match RestoreOne(c, ufcs[0])
      case Err(e) => Err(e)
      case Ok(c1) => RestoreItems(c1, ufcs[1..])
  }

  /** The catalogue after the dialog's restore: the batch's result, or the
      catalogue untouched when the transaction rolled back. */
  function RestoreSelected(c: Catalog, ufcs: seq<string>): Catalog {
    RestoreItems(c, ufcs).GetOr(c)
  }

  /** A restore that goes through leaves none of the keys in the bin. */
  lemma {:induction false} RestoreItemsEmptiesKeys(c: Catalog, ufcs: seq<string>)
    ensures var r := RestoreItems(c, ufcs);
            r.Ok? ==> forall u :: u in ufcs ==> !InBin(r.value.bin, u)
    decreases |ufcs|
  {
    if |ufcs| > 0 {
      match RestoreOne(c, ufcs[0])
      case Err(_) =>
      case Ok(c1) =>
        assert !InBin(c1.bin, ufcs[0]) by {
          forall x | x in c1.bin ensures x.item.ufc != ufcs[0] {
            assert x in c.bin;
          }
        }
        RestoreItemsEmptiesKeys(c1, ufcs[1..]);
        RestoreKeepsAbsence(c1, ufcs[1..], ufcs[0]);
        assert forall u :: u in ufcs ==> u == ufcs[0] || u in ufcs[1..];
    }
  }

  /** A key that is not in the bin does not come back into it. */
  lemma {:induction false} RestoreKeepsAbsence(c: Catalog, ufcs: seq<string>, u: string)
    requires !InBin(c.bin, u)
    ensures var r := RestoreItems(c, ufcs); r.Ok? ==> !InBin(r.value.bin, u)
    decreases |ufcs|
  {
    if |ufcs| > 0 {
      match RestoreOne(c, ufcs[0])
      case Err(_) =>
      case Ok(c1) =>
        assert !InBin(c1.bin, u) by {
          forall x | x in c1.bin ensures x.item.ufc != u {
            assert x in c.bin;
          }
        }
        RestoreKeepsAbsence(c1, ufcs[1..], u);
    }
  }

  /** All or nothing: if any key of the batch is both in the bin and already
      active when its turn comes, the dialog leaves the catalogue unchanged. */
  lemma RestoreFailureRollsBack(c: Catalog, ufcs: seq<string>)
    requires RestoreItems(c, ufcs).Err?
    ensures RestoreSelected(c, ufcs) == c
  {
  }

  lemma RestoreOneKeepsValid(c: Catalog, ufc: string)
    requires Valid(c)
    ensures var r := RestoreOne(c, ufc); r.Ok? ==> Valid(r.value)
  {
    var r := RestoreOne(c, ufc);
    if r.Ok? && InBin(c.bin, ufc) {
      var x := FindInBin(c.bin, ufc).value;
      AppendKeepsUniqueKeys(c.replays, x.item);
      BinFilterKeepsUniqueKeys(c.bin, (y: BinRow) => y.item.ufc != ufc);
    }
  }

  lemma {:induction false} RestoreItemsKeepsValid(c: Catalog, ufcs: seq<string>)
    requires Valid(c)
    ensures var r := RestoreItems(c, ufcs); r.Ok? ==> Valid(r.value)
    decreases |ufcs|
  {
    if |ufcs| > 0 {
      RestoreOneKeepsValid(c, ufcs[0]);
      match RestoreOne(c, ufcs[0])
      case Err(_) =>
      case Ok(c1) => RestoreItemsKeepsValid(c1, ufcs[1..]);
    }
  }

  /** `_delete_items(ufc_list)`: removes exactly the listed keys from the bin;
      `replays` is untouched. */
  function DeleteItems(c: Catalog, ufcs: seq<string>): (r: Catalog)
    ensures r.replays == c.replays && r.dbCode == c.dbCode
    ensures forall x :: x in r.bin <==> x in c.bin && x.item.ufc !in ufcs
  {
    c.(bin := Filter(c.bin, (x: BinRow) => x.item.ufc !in ufcs))
  }

  lemma DeleteItemsKeepsValid(c: Catalog, ufcs: seq<string>)
    requires Valid(c)
    ensures Valid(DeleteItems(c, ufcs))
  {
    BinFilterKeepsUniqueKeys(c.bin, (x: BinRow) => x.item.ufc !in ufcs);
  }

  /** `_empty_recycle_bin` after the user's answer `confirmed`: an already
      empty bin only shows a message; otherwise, when confirmed, every bin row
      goes and nothing else changes. */
  function EmptyRecycleBin(c: Catalog, confirmed: bool): (r: Catalog)
    ensures r.replays == c.replays && r.dbCode == c.dbCode
    ensures r.bin == (if confirmed then [] else c.bin)
  {
    if |c.bin| == 0 || !confirmed then c else c.(bin := [])
  }

  // ---------------------------------------------------------------------------
  // Soft delete followed by restore

  /** The bin row appended last is the one found by its key, and deleting it
      by key gives the earlier bin back. */
  lemma AppendedBinRow(b: seq<BinRow>, x: BinRow)
    requires !InBin(b, x.item.ufc)
    ensures FindInBin(b + [x], x.item.ufc) == Some(x)
    ensures BinWithout(b + [x], x.item.ufc) == b
  {
    var u := x.item.ufc;
    var keep := (y: BinRow) => y.item.ufc != u;
    FilterAppend(b, [x], keep);
    forall k | 0 <= k < |b| ensures keep(b[k]) {
      assert b[k] in b;
    }
    assert Filter([x], keep) == [];
  }

  /** Soft delete then restore of an active row whose key is not in the bin:
      the row comes back with all nine columns it had, at the end of the
      table, and the bin is as it was. */
  lemma SoftDeleteThenRestore(c: Catalog, ufc: string, now: Stamps.DateTime)
    requires Valid(c) && Stamps.Valid(now)
    requires HasKey(c.replays, ufc) && !InBin(c.bin, ufc)
    ensures MoveToRecycleBin(c, ufc, now).Ok?
    ensures var c1 := MoveToRecycleBin(c, ufc, now).value;
            var row := Find(c.replays, ufc).value;
            && RestoreItems(c1, [ufc]) == Ok(Catalog(Without(c.replays, ufc) + [row], c.bin, c.dbCode))
  {
    var row := Find(c.replays, ufc).value;
    var c1 := MoveToRecycleBin(c, ufc, now).value;
    var x := BinRow(row, Str(Stamps.RecordStamp(now)));
    AppendedBinRow(c.bin, x);
    assert c1.bin == c.bin + [x];
    assert !HasKey(c1.replays, ufc);
    assert InBin(c1.bin, ufc) by {
      assert x in c1.bin;
    }
    var c2 := RestoreOne(c1, ufc).value;
    assert c2 == Catalog(Without(c.replays, ufc) + [row], c.bin, c.dbCode);
    assert [ufc][1..] == [];
  }

  /** The same round trip with the bin insert as written: the row comes back
      with the deletion stamp as its tags, and its own tags are gone. */
  lemma SoftDeleteThenRestoreAsWritten(c: Catalog, ufc: string, now: Stamps.DateTime)
    requires Valid(c) && Stamps.Valid(now)
    requires HasKey(c.replays, ufc) && !InBin(c.bin, ufc)
    ensures MoveToRecycleBinAsWritten(c, ufc, now).Ok?
    ensures var c1 := MoveToRecycleBinAsWritten(c, ufc, now).value;
            var row := Find(c.replays, ufc).value;
            RestoreItems(c1, [ufc]) ==
              Ok(Catalog(Without(c.replays, ufc) + [row.(tags := Str(Stamps.RecordStamp(now)))], c.bin, c.dbCode))
  {
    var row := Find(c.replays, ufc).value;
    var c1 := MoveToRecycleBinAsWritten(c, ufc, now).value;
    var x := BinRowAsWritten(row, Stamps.RecordStamp(now));
    AppendedBinRow(c.bin, x);
    assert c1.bin == c.bin + [x];
    assert !HasKey(c1.replays, ufc);
    assert InBin(c1.bin, ufc) by {
      assert x in c1.bin;
    }
    var c2 := RestoreOne(c1, ufc).value;
    assert c2 == Catalog(Without(c.replays, ufc) + [x.item], c.bin, c.dbCode);
    assert [ufc][1..] == [];
  }

  /** A catalogue with one tagged replay, used by the concrete lemmas below. */
  function OneReplay(tags: string): Catalog {
    Catalog([Replay(Str("https://example.invalid/v"), Str("ryu_UFC-1A2B"), Str("00:42"), "UFC-1A2B",
                    Str(""), Num(0), Null, Str("01-02-2025 10:00:00"), Str(tags))], [], None)
  }

  /** As written, soft-deleting a replay tagged "combo" and restoring it gives
      back a replay tagged with the deletion stamp, not "combo". */
  lemma RoundTripLosesTagsAsWritten()
    ensures var c := OneReplay("combo");
            var now := Stamps.DateTime(2025, 1, 15, 9, 30, 0);
            && MoveToRecycleBinAsWritten(c, "UFC-1A2B", now).Ok?
            && var c2 := RestoreSelected(MoveToRecycleBinAsWritten(c, "UFC-1A2B", now).value, ["UFC-1A2B"]);
               && |c2.replays| == 1
               && c2.replays[0].tags == Str("01-15-2025 09:30:00")
               && c2.replays[0].tags != c.replays[0].tags
  {
    var c := OneReplay("combo");
    var now := Stamps.DateTime(2025, 1, 15, 9, 30, 0);
    assert c.replays[0] in c.replays;
    SoftDeleteThenRestoreAsWritten(c, "UFC-1A2B", now);
    assert Without(c.replays, "UFC-1A2B") == [];
    FindUnique(c.replays, "UFC-1A2B", c.replays[0]);
    MorningStamp();
  }

  lemma MorningStamp()
    ensures Stamps.RecordStamp(Stamps.DateTime(2025, 1, 15, 9, 30, 0)) == "01-15-2025 09:30:00"
  {
  }

  /** As written, a replay deleted with empty tags is swept by the very next
      clean-up whatever the threshold, because its `deleted_date` cell holds
      the empty tag text, which sorts before every stamp. */
  lemma EmptyTagsPurgedAsWritten(threshold: Stamps.DateTime)
    requires Stamps.Valid(threshold)
    ensures var c := OneReplay("");
            var now := Stamps.DateTime(2025, 1, 15, 9, 30, 0);
            && MoveToRecycleBinAsWritten(c, "UFC-1A2B", now).Ok?
            && AutoCleanup(MoveToRecycleBinAsWritten(c, "UFC-1A2B", now).value, threshold).bin == []
  {
    var c := OneReplay("");
    var now := Stamps.DateTime(2025, 1, 15, 9, 30, 0);
    assert c.replays[0] in c.replays;
    FindUnique(c.replays, "UFC-1A2B", c.replays[0]);
    var c1 := MoveToRecycleBinAsWritten(c, "UFC-1A2B", now).value;
    assert c1.bin[0].deletedDate == Str("");
    var t := Stamps.RecordStamp(threshold);
    assert Text.LexLess("", t);
    var r := AutoCleanup(c1, threshold);
    Text.HeadIn(r.bin);
  }

  /** With the corrected insert the same replay survives a sweep whose
      threshold is older than its deletion. */
  lemma EmptyTagsKeptCorrected()
    ensures var c := OneReplay("");
            var now := Stamps.DateTime(2025, 1, 15, 9, 30, 0);
            var threshold := Stamps.DateTime(2024, 12, 16, 9, 30, 0);
            && MoveToRecycleBin(c, "UFC-1A2B", now).Ok?
            && |AutoCleanupChronological(MoveToRecycleBin(c, "UFC-1A2B", now).value, threshold).bin| == 1
  {
    var c := OneReplay("");
    var now := Stamps.DateTime(2025, 1, 15, 9, 30, 0);
    var threshold := Stamps.DateTime(2024, 12, 16, 9, 30, 0);
    assert c.replays[0] in c.replays;
    FindUnique(c.replays, "UFC-1A2B", c.replays[0]);
    var c1 := MoveToRecycleBin(c, "UFC-1A2B", now).value;
    var x := c1.bin[0];
    assert c1.bin == [x];
    ChronologicalSweepIsExact(c1, threshold, now, x);
    var r := AutoCleanupChronological(c1, threshold);
    assert x in r.bin;
    assert |r.bin| <= 1;
  }
}

=== FILE: renamedialog.dfy ===
/** The dialog of ui/dialogs/rename_character_dialog.py that sets the
    character used when files are renamed. Its state is the text in the
    input box, the selected character and whether the dialog was accepted;
    the sanitizer it uses is the main window's (`Naming.Sanitize`). */
module RenameDialog {
  import opened Results
  import opened Text
  import Stamps
  import opened Naming

  datatype Dialog = Dialog(input: string, selected: Option<string>, accepted: bool)

  /** `__init__` with the current character: the box shows it when it is
      set and non-empty, and it is the selection until something else is
      accepted. */
  function Open(current: Option<string>): (d: Dialog)
    ensures d.selected == current && !d.accepted
    ensures current.Some? ==> d.input == current.value
    ensures current.None? ==> d.input == []
  {
    Dialog(if current.Some? then current.value else "", current, false)
  }

  /** Typing replaces the text in the box. */
  function Type(d: Dialog, text: string): (r: Dialog)
    ensures r.input == text && r.selected == d.selected && r.accepted == d.accepted
  {
    d.(input := text)
  }

  /** `_clear_character`. */
  function Clear(d: Dialog): (r: Dialog)
    ensures r.input == [] && r.selected == d.selected && r.accepted == d.accepted
  {
    d.(input := "")
  }

  const NoCharacterSet := "No character set"

  /** The fixed codes, date and extension the preview shows after the
      sanitized character. */
  const PreviewTail := "_" + "UFC-XXXX" + "_UDC-" + "YYYY" + "_" + "01-15-2025_14-30-45" + ".mp4"

  /** The preview text for a non-empty sanitized character. */
  function PreviewOf(safe: string): (r: string)
    ensures |r| > |NoCharacterSet|
    ensures EndsWith(r, ".mp4")
  {
    var r := safe + PreviewTail;
    assert r[|r| - 4..] == PreviewTail[|PreviewTail| - 4..] == ".mp4";
    r
  }

  /** `_update_preview` for the text in the box. */
  function Preview(input: string): (r: string)
    ensures Strip(input) == [] <==> r == NoCharacterSet
    ensures Strip(input) != [] ==> EndsWith(r, ".mp4")
  {
    var character := Strip(input);
    if character != [] then PreviewOf(Sanitize(character)) else NoCharacterSet
  }

  /** The clock reading the preview shows: 15 January 2025, 14:30:45. */
  const PreviewTime := Stamps.DateTime(2025, 1, 15, 14, 30, 45)

  lemma PreviewStamp()
    ensures Stamps.Valid(PreviewTime)
    ensures Stamps.FileStamp(PreviewTime) == "01-15-2025_14-30-45"
  {
  }

  /** The preview shows the systematic name that a character gets, with
      "UFC-XXXX" and "YYYY" standing for the two codes, followed by ".mp4". */
  lemma PreviewOfIsSystematicName(safe: string)
    ensures Stamps.Valid(PreviewTime)
    ensures PreviewOf(safe) == SystematicName(safe, "UFC-XXXX", "YYYY", PreviewTime) + ".mp4"
  {
    PreviewStamp();
    var stamp := Stamps.FileStamp(PreviewTime);
    assert SystematicName(safe, "UFC-XXXX", "YYYY", PreviewTime) == safe + "_" + "UFC-XXXX" + "_UDC-" + "YYYY" + "_" + stamp;
  }

  /** So the preview of a non-blank input is the systematic name of its
      sanitized, trimmed text. */
  lemma PreviewIsSystematicName(input: string)
    requires Strip(input) != []
    ensures Stamps.Valid(PreviewTime)
    ensures Preview(input) == SystematicName(Sanitize(Strip(input)), "UFC-XXXX", "YYYY", PreviewTime) + ".mp4"
  {
    PreviewOfIsSystematicName(Sanitize(Strip(input)));
  }

  /** `_accept`. An empty trimmed input clears the selection and accepts.
      A trimmed input that sanitizes to nothing shows a warning and leaves
      the dialog as it was. Otherwise the trimmed input, not its sanitized
      form, becomes the selection and the dialog is accepted. */
  function Accept(d: Dialog): (r: Dialog)
    ensures r.input == d.input
    ensures Strip(d.input) == [] ==> r.accepted && r.selected.None?
    ensures Strip(d.input) != [] && Sanitize(Strip(d.input)) == [] ==> r == d
    ensures Strip(d.input) != [] && Sanitize(Strip(d.input)) != [] ==> r.accepted && r.selected == Some(Strip(d.input))
  {
    var character := Strip(d.input);
    if character != [] then
      if Sanitize(character) == [] then d
      else d.(selected := Some(character), accepted := true)
    else d.(selected := None, accepted := true)
  }

  /** `get_character`. */
  function GetCharacter(d: Dialog): Option<string> {
    d.selected
  }

  /** `_accept` refuses exactly the inputs whose trimmed text is non-empty
      and made only of dashes and spaces, such as "-" or "- -". */
  lemma AcceptRefusesOnlyDashes(d: Dialog)
    requires !d.accepted
    ensures !Accept(d).accepted <==>
              Strip(d.input) != [] && forall i :: 0 <= i < |Strip(d.input)| ==> Strip(d.input)[i] == '-' || Strip(d.input)[i] == ' '
  {
    SanitizeEmpty(Strip(d.input));
  }

  /** An accepted character always gives the rename flow a non-empty safe
      name, and the selection is trimmed. */
  lemma AcceptedCharacterIsUsable(d: Dialog)
    requires Accept(d).selected.Some? && Accept(d) != d
    ensures Sanitize(GetCharacter(Accept(d)).value) != []
    ensures Strip(GetCharacter(Accept(d)).value) == GetCharacter(Accept(d)).value
  {
    StripSetNoop(Strip(d.input), Spaces);
  }

  /** For instance "- -" is refused. */
  lemma DashesRefused(d: Dialog)
    requires !d.accepted && d.input == "- -"
    ensures Accept(d) == d
  {
    DashSpaceDash();
  }

  lemma DashSpaceDash()
    ensures Strip("- -") == "- -" && Sanitize("- -") == []
  {
    var s := "- -";
    assert IsStrippedBy(s, Spaces);
    StripSetNoop(s, Spaces);
    assert forall i :: 0 <= i < |s| ==> s[i] == '-' || s[i] == ' ';
    SanitizeEmpty(s);
  }
}

=== FILE: results.dfy ===
/** Optional values and success/failure results used across the catalogue model.
    `Option` stands for a nullable value (a SQL NULL or a Python `None`);
    `Result` stands for an operation that may raise. */
module Results {

  datatype Option<+T> = None | Some(value: T) {

    /** The value, or `default` when there is none (Python's `x if x is not None else d`). */
    function GetOr(default: T): T {
      match this
      case Some(v) => v
      case None => default
    }
  }

  datatype Result<+T, +E> = Ok(value: T) | Err(error: E) {

    /** The value on success, `default` after a failure. */
    function GetOr(default: T): T {
      match this
      case Ok(v) => v
      case Err(_) => default
    }
  }
}

=== FILE: seqs.dfy ===
/** Order-preserving selection over sequences: the shape of every
    `DELETE ... WHERE` and `SELECT ... WHERE` the catalogue issues. */
module Seqs {

  /** The elements of `s` that satisfy `keep`, in their original order. */
  function Filter<T(!new)>(s: seq<T>, keep: T -> bool): (r: seq<T>)
    ensures |r| <= |s|
    ensures forall x :: x in r <==> x in s && keep(x)
    ensures (forall k :: 0 <= k < |s| ==> keep(s[k])) ==> r == s
    decreases |s|
  {
    if |s| == 0 then []
    else
      assert forall x :: x in s <==> x == s[0] || x in s[1..];
      (if keep(s[0]) then [s[0]] else []) + Filter(s[1..], keep)
  }

  /** Filtering distributes over concatenation. */
  lemma {:induction false} FilterAppend<T(!new)>(a: seq<T>, b: seq<T>, keep: T -> bool)
    ensures Filter(a + b, keep) == Filter(a, keep) + Filter(b, keep)
    decreases |a|
  {
    if |a| == 0 {
      assert a + b == b;
    } else {
      assert (a + b)[0] == a[0];
      assert (a + b)[1..] == a[1..] + b;
      FilterAppend(a[1..], b, keep);
    }
  }

  /** When `keep` rejects exactly the element at `i`, filtering cuts that
      element out and leaves the rest in place. */
  lemma {:induction false} FilterDropsOne<T(!new)>(s: seq<T>, keep: T -> bool, i: int)
    requires 0 <= i < |s| && !keep(s[i])
    requires forall k :: 0 <= k < |s| && k != i ==> keep(s[k])
    ensures Filter(s, keep) == s[..i] + s[i + 1..]
    decreases i
  {
    var tail := s[1..];
    forall k | 0 <= k < |tail| && k != i - 1 ensures keep(tail[k]) {
      assert tail[k] == s[k + 1];
    }
    if i == 0 {
      assert Filter(s, keep) == Filter(tail, keep);
      assert Filter(tail, keep) == tail;
    } else {
      calc {
        Filter(s, keep);
        [s[0]] + Filter(tail, keep);
        { FilterDropsOne(tail, keep, i - 1); }
        [s[0]] + (tail[..i - 1] + tail[i..]);
        { assert tail[..i - 1] == s[1..i] && tail[i..] == s[i + 1..]; }
        [s[0]] + (s[1..i] + s[i + 1..]);
        ([s[0]] + s[1..i]) + s[i + 1..];
        { assert [s[0]] + s[1..i] == s[..i]; }
        s[..i] + s[i + 1..];
      }
    }
  }

  /** The positions of `s` whose element satisfies `keep`. */
  function Positions<T>(s: seq<T>, keep: T -> bool): set<int> {
    set k | 0 <= k < |s| && keep(s[k])
  }

  /** Filtering keeps one element per position that satisfies `keep`. */
  lemma {:induction false} FilterCountsPositions<T(!new)>(s: seq<T>, keep: T -> bool)
    ensures |Filter(s, keep)| == |Positions(s, keep)|
    decreases |s|
  {
    if |s| == 0 {
      assert Positions(s, keep) == {};
    } else {
      var init, x := s[..|s| - 1], s[|s| - 1];
      FilterCountsPositions(init, keep);
      calc {
        |Filter(s, keep)|;
        { assert s == init + [x]; FilterAppend(init, [x], keep); }
        |Filter(init, keep) + Filter([x], keep)|;
        |Filter(init, keep)| + (if keep(x) then 1 else 0);
        |Positions(init, keep)| + (if keep(x) then 1 else 0);
        { PositionsSnoc(s, keep); }
        |Positions(s, keep)|;
      }
    }
  }

  /** The positions of a non-empty sequence: those of all but its last
      element, and the last one when it is kept. */
  lemma PositionsSnoc<T>(s: seq<T>, keep: T -> bool)
    requires |s| > 0
    ensures |Positions(s, keep)| == |Positions(s[..|s| - 1], keep)| + (if keep(s[|s| - 1]) then 1 else 0)
  {
    var init := s[..|s| - 1];
    var last: set<int> := if keep(s[|s| - 1]) then {|s| - 1} else {};
    assert Positions(s, keep) == Positions(init, keep) + last;
    assert |s| - 1 !in Positions(init, keep);
  }

  /** How many elements satisfy `keep` (SQL's `COUNT(*) ... WHERE`). */
  function Count<T(!new)>(s: seq<T>, keep: T -> bool): (n: nat)
    ensures n <= |s|
    ensures n == 0 <==> forall k :: 0 <= k < |s| ==> !keep(s[k])
    ensures n == |Positions(s, keep)|
  {
    var r := Filter(s, keep);
    FilterCountsPositions(s, keep);
    assert (exists k :: 0 <= k < |s| && keep(s[k])) ==> |r| > 0 by {
      if k :| 0 <= k < |s| && keep(s[k]) {
        assert s[k] in r;
      }
    }
    assert |r| > 0 ==> exists k :: 0 <= k < |s| && keep(s[k]) by {
      if |r| > 0 {
        assert r[0] in r;
        var k :| 0 <= k < |s| && s[k] == r[0];
      }
    }
    |r|
  }
}

=== FILE: stamps.dfy ===
/** Wall-clock stamps and the two `strftime` layouts the application writes:
    "%m-%d-%Y %H:%M:%S" for `date_added` / `deleted_date` and the recycle-bin
    threshold (core/database.py), and "%m-%d-%Y_%H-%M-%S" inside generated
    file names (ui/main_window.py). `datetime.now()` is never called here: a
    stamp is always a parameter. */
module Stamps {
  import opened Text
  import opened Results

  datatype DateTime = DateTime(year: int, month: int, day: int, hour: int, minute: int, second: int)

  /** Field ranges of a `datetime`, over-approximated: day 31 is allowed in
      every month, so some values here (30 February) are not dates. Every
      date `datetime` builds in years 1000 to 9999 is one, and nothing proved
      here depends on month lengths. Years are kept to four digits because
      `%Y` prints years below 1000 with fewer digits on some platforms, and
      the fixed-width layouts need four. */
  predicate Valid(t: DateTime) {
    && 1000 <= t.year <= 9999
    && 1 <= t.month <= 12
    && 1 <= t.day <= 31
    && 0 <= t.hour <= 23
    && 0 <= t.minute <= 59
    && 0 <= t.second <= 59
  }

  /** Chronological order: earlier year first, then month, day, hour, minute, second. */
  predicate Before(a: DateTime, b: DateTime) {
    if a.year != b.year then a.year < b.year
    else if a.month != b.month then a.month < b.month
    else if a.day != b.day then a.day < b.day
    else if a.hour != b.hour then a.hour < b.hour
    else if a.minute != b.minute then a.minute < b.minute
    else a.second < b.second
  }

  /** The value of two digit characters. */
  function Value2(a: char, b: char): (n: int)
    requires IsDigit(a) && IsDigit(b)
    ensures 0 <= n < 100
  {
    DigitValue(a) * 10 + DigitValue(b)
  }

  /** The value of four digit characters. */
  function Value4(a: char, b: char, c: char, d: char): (n: int)
    requires IsDigit(a) && IsDigit(b) && IsDigit(c) && IsDigit(d)
    ensures 0 <= n < 10000
  {
    DigitValue(a) * 1000 + DigitValue(b) * 100 + DigitValue(c) * 10 + DigitValue(d)
  }

  /** The nineteen-character `strftime` layout shared by both stamp formats:
      month, day and year joined by `dateSep`, then `middle`, then hour,
      minute and second joined by `timeSep`, every field zero-padded. */
  function Layout(t: DateTime, dateSep: char, middle: char, timeSep: char): (r: string)
    requires Valid(t)
    ensures |r| == 19
  {
    [ Digit(t.month / 10), Digit(t.month % 10), dateSep,
      Digit(t.day / 10), Digit(t.day % 10), dateSep,
      Digit(t.year / 1000), Digit(t.year / 100 % 10), Digit(t.year / 10 % 10), Digit(t.year % 10),
      middle,
      Digit(t.hour / 10), Digit(t.hour % 10), timeSep,
      Digit(t.minute / 10), Digit(t.minute % 10), timeSep,
      Digit(t.second / 10), Digit(t.second % 10) ]
  }

  /** "%m-%d-%Y %H:%M:%S", the layout of `date_added`, `deleted_date` and the
      clean-up threshold. */
  function RecordStamp(t: DateTime): (r: string)
    requires Valid(t)
    ensures |r| == 19 && r[2] == '-' && r[5] == '-' && r[10] == ' ' && r[13] == ':' && r[16] == ':'
  {
    Layout(t, '-', ' ', ':')
  }

  /** "%m-%d-%Y_%H-%M-%S", the layout used inside generated file names. */
  function FileStamp(t: DateTime): (r: string)
    requires Valid(t)
    ensures |r| == 19
    ensures forall i :: 0 <= i < |r| ==> IsDigit(r[i]) || r[i] == '-' || r[i] == '_'
  {
    Layout(t, '-', '_', '-')
  }

  /** The positions of a layout that hold digits. */
  predicate DigitSlots(s: string)
    requires |s| == 19
  {
    forall i :: 0 <= i < 19 && i !in {2, 5, 10, 13, 16} ==> IsDigit(s[i])
  }

  /** Reads the fields of a layout back. */
  function Fields(s: string): DateTime
    requires |s| == 19 && DigitSlots(s)
  {
    DateTime(Value4(s[6], s[7], s[8], s[9]), Value2(s[0], s[1]), Value2(s[3], s[4]),
             Value2(s[11], s[12]), Value2(s[14], s[15]), Value2(s[17], s[18]))
  }

  /** Reads a "%m-%d-%Y %H:%M:%S" string back, or None when it is not one. */
  function ParseRecordStamp(s: string): (r: Option<DateTime>)
    ensures r.Some? ==> Valid(r.value) && RecordStamp(r.value) == s
  {
    if |s| == 19 && s[2] == '-' && s[5] == '-' && s[10] == ' ' && s[13] == ':' && s[16] == ':'
       && DigitSlots(s) && Valid(Fields(s))
    then
      FieldsPrintBack(s);
      Some(Fields(s))
    else None
  }

  /** A two-digit field prints and reads back unchanged, both ways round. */
  lemma Pad2RoundTrip(n: int)
    requires 0 <= n < 100
    ensures Value2(Digit(n / 10), Digit(n % 10)) == n
  {
  }

  lemma Value2PrintsBack(a: char, b: char)
    requires IsDigit(a) && IsDigit(b)
    ensures Digit(Value2(a, b) / 10) == a && Digit(Value2(a, b) % 10) == b
  {
  }

  /** A four-digit field prints and reads back unchanged, both ways round. */
  lemma Pad4RoundTrip(n: int)
    requires 0 <= n < 10000
    ensures Value4(Digit(n / 1000), Digit(n / 100 % 10), Digit(n / 10 % 10), Digit(n % 10)) == n
  {
    var a, b, c, d := n / 1000, n / 100 % 10, n / 10 % 10, n % 10;
    DigitRoundTrip(a);
    DigitRoundTrip(b);
    DigitRoundTrip(c);
    DigitRoundTrip(d);
    Places(n);
  }

  /** The four decimal places of a number below 10000. */
  lemma Places(n: int)
    requires 0 <= n < 10000
    ensures n == n / 1000 * 1000 + n / 100 % 10 * 100 + n / 10 % 10 * 10 + n % 10
  {
    var q1 := n / 10;
    var q2 := q1 / 10;
    assert n / 100 == q2;
    assert n / 1000 == q2 / 10;
  }

  lemma Value4PrintsBack(a: char, b: char, c: char, d: char)
    requires IsDigit(a) && IsDigit(b) && IsDigit(c) && IsDigit(d)
    ensures var n := Value4(a, b, c, d);
            Digit(n / 1000) == a && Digit(n / 100 % 10) == b && Digit(n / 10 % 10) == c && Digit(n % 10) == d
  {
    var va, vb, vc, vd := DigitValue(a), DigitValue(b), DigitValue(c), DigitValue(d);
    var n := Value4(a, b, c, d);
    assert n / 10 == va * 100 + vb * 10 + vc && n % 10 == vd;
    assert n / 100 == va * 10 + vb;
    assert n / 1000 == va;
  }

  /** Printing the fields read from a record stamp gives the stamp back. */
  lemma FieldsPrintBack(s: string)
    requires |s| == 19 && s[2] == '-' && s[5] == '-' && s[10] == ' ' && s[13] == ':' && s[16] == ':'
    requires DigitSlots(s) && Valid(Fields(s))
    ensures RecordStamp(Fields(s)) == s
  {
    assert IsDigit(s[0]) && IsDigit(s[1]) && IsDigit(s[3]) && IsDigit(s[4]);
    assert IsDigit(s[6]) && IsDigit(s[7]) && IsDigit(s[8]) && IsDigit(s[9]);
    assert IsDigit(s[11]) && IsDigit(s[12]) && IsDigit(s[14]) && IsDigit(s[15]);
    assert IsDigit(s[17]) && IsDigit(s[18]);
    Value2PrintsBack(s[0], s[1]);
    Value2PrintsBack(s[3], s[4]);
    Value4PrintsBack(s[6], s[7], s[8], s[9]);
    Value2PrintsBack(s[11], s[12]);
    Value2PrintsBack(s[14], s[15]);
    Value2PrintsBack(s[17], s[18]);
    var r := RecordStamp(Fields(s));
    assert forall i | 0 <= i < 19 :: r[i] == s[i];
  }

  /** Formatting then parsing returns the stamp: the layout loses nothing. */
  lemma RecordStampRoundTrip(t: DateTime)
    requires Valid(t)
    ensures ParseRecordStamp(RecordStamp(t)) == Some(t)
  {
    var s := RecordStamp(t);
    Pad2RoundTrip(t.month);
    Pad2RoundTrip(t.day);
    Pad4RoundTrip(t.year);
    Pad2RoundTrip(t.hour);
    Pad2RoundTrip(t.minute);
    Pad2RoundTrip(t.second);
    assert DigitSlots(s);
    assert Fields(s) == t;
  }

  /** String order of the record layout disagrees with time order: a stamp from
      December 2024 sorts after one from January 2025, and one from January 2025
      sorts before one from December 2024. */
  lemma RecordStampOrderIsNotChronological()
    ensures var old_ := DateTime(2024, 12, 20, 10, 0, 0);
            var threshold := DateTime(2025, 1, 16, 12, 0, 0);
            Before(old_, threshold) && !LexLess(RecordStamp(old_), RecordStamp(threshold))
    ensures var recent := DateTime(2025, 1, 1, 0, 0, 0);
            var threshold := DateTime(2024, 12, 15, 9, 0, 0);
            !Before(recent, threshold) && LexLess(RecordStamp(recent), RecordStamp(threshold))
  {
    var a := RecordStamp(DateTime(2024, 12, 20, 10, 0, 0));
    var b := RecordStamp(DateTime(2025, 1, 16, 12, 0, 0));
    assert a[0] == '1' && b[0] == '0';
    var c := RecordStamp(DateTime(2025, 1, 1, 0, 0, 0));
    var d := RecordStamp(DateTime(2024, 12, 15, 9, 0, 0));
    assert c[0] == '0' && d[0] == '1';
  }
}

=== FILE: store.dfy ===
/** The replay catalogue of core/database.py: an active table `replays`, a
    soft-delete table `recycle_bin` with the same columns plus
    `deleted_date`, and the one-row table `db_info` holding the database
    code. Each table is a sequence of rows in insertion (`id`) order; `ufc`
    is UNIQUE within each table separately. Every operation runs inside one
    `with sqlite3.connect(...)` block, so it either commits completely or,
    on an exception, leaves the catalogue as it was: that is a `Result`
    whose error case keeps no partial state. */
module Store {
  import opened Results
  import opened Text
  import opened Seqs
  import Stamps
  import TagStrings

  /** A value in a SQLite cell. Python `None` is `Null`; a `bool` or `int`
      argument arrives as `Num` (sqlite3 stores `True` as 1). */
  datatype Cell = Null | Str(s: string) | Num(n: int)

  /** The columns of a replay row other than `id` and the key `ufc`. */
  datatype Field = VideoLink | FileName | Timestamp | ExtendedDesc | Recorded | RenamedFilename | DateAdded | Tags

  /** A row of `replays`; the `id` column is the row's position. */
  datatype Replay = Replay(
    videoLink: Cell, fileName: Cell, timestamp: Cell, ufc: string, extendedDesc: Cell,
    recorded: Cell, renamedFilename: Cell, dateAdded: Cell, tags: Cell)

  /** A row of `recycle_bin`: the columns of a replay plus `deleted_date`. */
  datatype BinRow = BinRow(item: Replay, deletedDate: Cell)

  datatype Catalog = Catalog(replays: seq<Replay>, bin: seq<BinRow>, dbCode: Option<string>)

  /** `sqlite3.IntegrityError: UNIQUE constraint failed` on a `ufc`. */
  datatype StoreError = DuplicateUfc(ufc: string)

  const Empty := Catalog([], [], None)

  // ---------------------------------------------------------------------------
  // Columns

  function ColumnName(f: Field): string {
    match f
    case VideoLink => "video_link"
    case FileName => "file_name"
    case Timestamp => "timestamp"
    case ExtendedDesc => "extended_desc"
    case Recorded => "recorded"
    case RenamedFilename => "renamed_filename"
    case DateAdded => "date_added"
    case Tags => "tags"
  }

  lemma ColumnNameInjective(f: Field, g: Field)
    requires ColumnName(f) == ColumnName(g)
    ensures f == g
  {
  }

  function Get(r: Replay, f: Field): Cell {
    match f
    case VideoLink => r.videoLink
    case FileName => r.fileName
    case Timestamp => r.timestamp
    case ExtendedDesc => r.extendedDesc
    case Recorded => r.recorded
    case RenamedFilename => r.renamedFilename
    case DateAdded => r.dateAdded
    case Tags => r.tags
  }

  /** Writes one column and nothing else. */
  function Set(r: Replay, f: Field, v: Cell): (r': Replay)
    ensures r'.ufc == r.ufc
    ensures Get(r', f) == v
    ensures forall g :: g != f ==> Get(r', g) == Get(r, g)
  {
    match f
    case VideoLink => r.(videoLink := v)
    case FileName => r.(fileName := v)
    case Timestamp => r.(timestamp := v)
    case ExtendedDesc => r.(extendedDesc := v)
    case Recorded => r.(recorded := v)
    case RenamedFilename => r.(renamedFilename := v)
    case DateAdded => r.(dateAdded := v)
    case Tags => r.(tags := v)
  }

  /** TEXT affinity: a number written to a TEXT column is kept as its decimal text. */
  function AsText(v: Cell): (r: Cell)
    ensures !r.Num?
    ensures !v.Num? ==> r == v
  {
    if v.Num? then Str(IntText(v.n)) else v
  }

  /** The white space SQLite skips around a numeric text. */
  predicate SqlSpace(c: char) {
    c == ' ' || '\t' <= c <= '\r'
  }

  /** `s` without SQLite white space at either end. */
  function SqlTrim(s: string): (r: string)
    ensures |r| <= |s|
    ensures r != [] ==> !SqlSpace(r[0]) && !SqlSpace(r[|r| - 1])
    decreases |s|
  {
    if s != [] && SqlSpace(s[0]) then SqlTrim(s[1..])
    else if s != [] && SqlSpace(s[|s| - 1]) then SqlTrim(s[..|s| - 1])
    else s
  }

  predicate AllDigits(s: string) {
    forall i :: 0 <= i < |s| ==> IsDigit(s[i])
  }

  /** The value of a run of decimal digits. */
  function DigitsValue(s: string): (n: nat)
    requires AllDigits(s)
    decreases |s|
  {
    if s == [] then 0 else DigitsValue(s[..|s| - 1]) * 10 + DigitValue(s[|s| - 1])
  }

  /** The range of a SQLite INTEGER, a signed 64-bit number. */
  predicate InInt64(n: int) {
    -0x8000_0000_0000_0000 <= n <= 0x7FFF_FFFF_FFFF_FFFF
  }

  /** The value of a text SQLite reads as a well-formed integer literal:
      white space, an optional sign, one or more digits, white space, and a
      value that fits 64 bits. Anything else is None. */
  function IntegerLiteral(s: string): (r: Option<int>)
    ensures r.Some? ==> InInt64(r.value)
  {
    var t := SqlTrim(s);
    var body := if t != [] && (t[0] == '+' || t[0] == '-') then t[1..] else t;
    if body == [] || !AllDigits(body) then None
    else
      var v: int := DigitsValue(body);
      var n := if t[0] == '-' then -v else v;
      if InInt64(n) then Some(n) else None
  }

  /** What a column holds after `v` is written to it. `recorded` is the only
      INTEGER column: a text that reads as an integer literal is stored as
      that integer. Every other column has TEXT affinity. */
  function Stored(f: Field, v: Cell): (r: Cell)
    ensures f != Recorded ==> !r.Num?
    ensures f != Recorded ==> r == AsText(v)
    ensures f == Recorded && v.Str? && IntegerLiteral(v.s).Some? ==> r == Num(IntegerLiteral(v.s).value)
    ensures f == Recorded && !(v.Str? && IntegerLiteral(v.s).Some?) ==> r == v
  {
    if f != Recorded then AsText(v)
    else if v.Str? && IntegerLiteral(v.s).Some? then Num(IntegerLiteral(v.s).value)
    else v
  }

  /** The digits of `str(n)` read back as `n`. */
  lemma {:induction false} DecimalValue(n: nat)
    ensures AllDigits(Decimal(n)) && DigitsValue(Decimal(n)) == n
    decreases n
  {
    if n >= 10 {
      DecimalValue(n / 10);
      var d := Decimal(n);
      assert d[..|d| - 1] == Decimal(n / 10);
      DigitRoundTrip(n % 10);
    } else {
      DigitRoundTrip(n);
    }
  }

  /** Writing `str(n)` to `recorded` stores the integer `n`, as INTEGER
      affinity converts it. */
  lemma {:induction false} RecordedTextOfNumber(n: int)
    requires InInt64(n)
    ensures Stored(Recorded, Str(IntText(n))) == Num(n)
  {
    IntegerLiteralOfText(n);
  }

  /** SQLite reads `str(n)` back as `n`. */
  lemma {:induction false} IntegerLiteralOfText(n: int)
    requires InInt64(n)
    ensures IntegerLiteral(IntText(n)) == Some(n)
  {
    var s := IntText(n);
    assert !SqlSpace(s[0]) && !SqlSpace(s[|s| - 1]);
    assert SqlTrim(s) == s;
    var body := Decimal(if n < 0 then -n else n);
    DecimalValue(if n < 0 then -n else n);
    SignedDigitsLiteral(s, body, n < 0);
  }

  /** A text with no white space at its ends, an optional minus sign and
      then digits reads as that signed number, when it fits 64 bits. */
  lemma SignedDigitsLiteral(s: string, body: string, negative: bool)
    requires SqlTrim(s) == s && body != [] && AllDigits(body)
    requires s == if negative then "-" + body else body
    requires InInt64(if negative then -(DigitsValue(body) as int) else DigitsValue(body))
    ensures IntegerLiteral(s) == Some(if negative then -(DigitsValue(body) as int) else DigitsValue(body))
  {
    if negative {
      assert s[0] == '-' && s[1..] == body;
    } else {
      assert IsDigit(s[0]);
    }
  }

  /** The text "0" written to `recorded` becomes the integer 0, which reads
      back as not recorded; a text that is no number stays text. */
  lemma RecordedTextExamples()
    ensures Stored(Recorded, Str("0")) == Num(0) && !Truthy(Stored(Recorded, Str("0")))
    ensures Stored(Recorded, Str(" -12 ")) == Num(-12)
    ensures Stored(Recorded, Str("yes")) == Str("yes") && Truthy(Stored(Recorded, Str("yes")))
  {
    assert SqlTrim("0") == "0";
    assert SqlTrim(" -12 ") == "-12" by {
      assert " -12 "[1..] == "-12 ";
      assert "-12 "[..3] == "-12";
    }
    assert "-12"[1..] == "12";
    assert DigitsValue("12") == 12 by {
      assert "12"[..1] == "1";
      assert "1"[..0] == "";
    }
    assert SqlTrim("yes") == "yes";
  }

  /** A row as TEXT affinity leaves it: no number outside `recorded`. */
  predicate TextColumns(r: Replay) {
    forall f :: f != Recorded ==> !Get(r, f).Num?
  }

  // ---------------------------------------------------------------------------
  // Keys and the table invariant

  predicate HasKey(rs: seq<Replay>, u: string) {
    exists r :: r in rs && r.ufc == u
  }

  predicate UniqueKeys(rs: seq<Replay>) {
    forall i, j :: 0 <= i < j < |rs| ==> rs[i].ufc != rs[j].ufc
  }

  function Items(b: seq<BinRow>): (r: seq<Replay>)
    ensures |r| == |b|
    ensures forall k :: 0 <= k < |b| ==> r[k] == b[k].item
  {
    seq(|b|, k requires 0 <= k < |b| => b[k].item)
  }

  predicate InBin(b: seq<BinRow>, u: string) {
    exists x :: x in b && x.item.ufc == u
  }

  /** The schema's guarantees: `ufc` UNIQUE in each table, TEXT affinity on
      the text columns of both. */
  predicate Valid(c: Catalog) {
    && UniqueKeys(c.replays)
    && UniqueKeys(Items(c.bin))
    && (forall r :: r in c.replays ==> TextColumns(r))
    && (forall x :: x in c.bin ==> TextColumns(x.item) && !x.deletedDate.Num?)
  }

  lemma EmptyValid()
    ensures Valid(Empty)
  {
  }

  /** The row with key `u`, if there is one. */
  function Find(rs: seq<Replay>, u: string): (r: Option<Replay>)
    ensures r.Some? <==> HasKey(rs, u)
    ensures r.Some? ==> r.value in rs && r.value.ufc == u
    decreases |rs|
  {
    if |rs| == 0 then None
    else if rs[0].ufc == u then Some(rs[0])
    else
      assert forall x :: x in rs <==> x == rs[0] || x in rs[1..];
      Find(rs[1..], u)
  }

  /** In a table with unique keys, the row found is the only one with its key. */
  lemma FindUnique(rs: seq<Replay>, u: string, x: Replay)
    requires UniqueKeys(rs) && x in rs && x.ufc == u
    ensures Find(rs, u) == Some(x)
  {
    var y := Find(rs, u).value;
    var i :| 0 <= i < |rs| && rs[i] == x;
    var j :| 0 <= j < |rs| && rs[j] == y;
    assert i == j;
  }

  /** `BinRow` lookup by the key of its item. */
  function FindInBin(b: seq<BinRow>, u: string): (r: Option<BinRow>)
    ensures r.Some? <==> InBin(b, u)
    ensures r.Some? ==> r.value in b && r.value.item.ufc == u
    decreases |b|
  {
    if |b| == 0 then None
    else if b[0].item.ufc == u then Some(b[0])
    else
      assert forall x :: x in b <==> x == b[0] || x in b[1..];
      FindInBin(b[1..], u)
  }

  /** `DELETE FROM replays WHERE ufc = ?`. The other rows keep their order;
      with unique keys, the one row with the key is cut out in place. */
  function Without(rs: seq<Replay>, u: string): (r: seq<Replay>)
    ensures forall x :: x in r <==> x in rs && x.ufc != u
    ensures !HasKey(r, u)
    ensures !HasKey(rs, u) ==> r == rs
    ensures UniqueKeys(rs) ==> forall i :: 0 <= i < |rs| && rs[i].ufc == u ==> r == rs[..i] + rs[i + 1..]
  {
    var keep := (x: Replay) => x.ufc != u;
    forall i | UniqueKeys(rs) && 0 <= i < |rs| && rs[i].ufc == u
      ensures Filter(rs, keep) == rs[..i] + rs[i + 1..]
    {
      forall k | 0 <= k < |rs| && k != i ensures keep(rs[k]) {
        if k < i { assert rs[k].ufc != rs[i].ufc; } else { assert rs[i].ufc != rs[k].ufc; }
      }
      FilterDropsOne(rs, keep, i);
    }
    Filter(rs, keep)
  }

  /** `DELETE FROM recycle_bin WHERE ufc = ?`. */
  function BinWithout(b: seq<BinRow>, u: string): (r: seq<BinRow>)
    ensures forall x :: x in r <==> x in b && x.item.ufc != u
    ensures !InBin(r, u)
    ensures !InBin(b, u) ==> r == b
  {
    Filter(b, (x: BinRow) => x.item.ufc != u)
  }

  /** Deleting rows keeps the keys of the rest unique. */
  lemma {:induction false} FilterKeepsUniqueKeys(rs: seq<Replay>, keep: Replay -> bool)
    requires UniqueKeys(rs)
    ensures UniqueKeys(Filter(rs, keep))
    decreases |rs|
  {
    if |rs| > 0 {
      FilterKeepsUniqueKeys(rs[1..], keep);
      var tail := Filter(rs[1..], keep);
      forall x | x in tail
        ensures x.ufc != rs[0].ufc
      {
        var j :| 0 <= j < |rs[1..]| && rs[1..][j] == x;
        assert rs[j + 1] == x;
      }
    }
  }

  lemma {:induction false} BinFilterKeepsUniqueKeys(b: seq<BinRow>, keep: BinRow -> bool)
    requires UniqueKeys(Items(b))
    ensures UniqueKeys(Items(Filter(b, keep)))
    decreases |b|
  {
    if |b| > 0 {
      assert Items(b[1..]) == Items(b)[1..];
      BinFilterKeepsUniqueKeys(b[1..], keep);
      var tail := Filter(b[1..], keep);
      BinTailKeysDiffer(b, keep);
      var r := Filter(b, keep);
      if keep(b[0]) {
        var rest := Items(tail);
        forall k | 0 <= k < |rest| ensures rest[k].ufc != b[0].item.ufc {
          assert tail[k] in tail;
        }
        PrependKeepsUniqueKeys(b[0].item, rest);
        assert r == [b[0]] + tail;
        assert Items(r) == [b[0].item] + rest;
      } else {
        assert r == tail;
      }
    }
  }

  /** With unique keys, no later bin row that a filter keeps shares the
      first row's key. */
  lemma BinTailKeysDiffer(b: seq<BinRow>, keep: BinRow -> bool)
    requires |b| > 0 && UniqueKeys(Items(b))
    ensures forall x :: x in Filter(b[1..], keep) ==> x.item.ufc != b[0].item.ufc
  {
    forall x | x in Filter(b[1..], keep)
      ensures x.item.ufc != b[0].item.ufc
    {
      var j :| 0 <= j < |b[1..]| && b[1..][j] == x;
      assert b[j + 1] == x;
      assert Items(b)[0].ufc != Items(b)[j + 1].ufc;
    }
  }

  /** Putting a row in front of rows with other keys keeps keys unique. */
  lemma PrependKeepsUniqueKeys(x: Replay, rs: seq<Replay>)
    requires UniqueKeys(rs) && forall k :: 0 <= k < |rs| ==> rs[k].ufc != x.ufc
    ensures UniqueKeys([x] + rs)
  {
    var s := [x] + rs;
    forall i, j | 0 <= i < j < |s| ensures s[i].ufc != s[j].ufc {
      assert s[j] == rs[j - 1];
      if i > 0 {
        assert s[i] == rs[i - 1];
      }
    }
  }

  /** Appending a row whose key is new keeps keys unique. */
  lemma AppendKeepsUniqueKeys(rs: seq<Replay>, r: Replay)
    requires UniqueKeys(rs) && !HasKey(rs, r.ufc)
    ensures UniqueKeys(rs + [r])
  {
    forall i | 0 <= i < |rs|
      ensures rs[i].ufc != r.ufc
    {
      assert rs[i] in rs;
    }
  }

  lemma AppendKeepsUniqueBinKeys(b: seq<BinRow>, x: BinRow)
    requires UniqueKeys(Items(b)) && !InBin(b, x.item.ufc)
    ensures UniqueKeys(Items(b + [x]))
  {
    forall i | 0 <= i < |b|
      ensures b[i].item.ufc != x.item.ufc
    {
      assert b[i] in b;
    }
  }

  // ---------------------------------------------------------------------------
  // add_replay

  /** `f"UFC-{str(uuid.uuid4())[:4].upper()}"`; the uuid text is a parameter. */
  function GenerateUfc(uuidText: string): (r: string)
    ensures "UFC-" <= r
    ensures |uuidText| >= 4 ==> |r| == 8
    ensures forall k :: 4 <= k < |r| ==> !IsLower(r[k])
  {
    var n := if |uuidText| < 4 then |uuidText| else 4;
    "UFC-" + Upper(uuidText[..n])
  }

  /** Only the first four characters of the uuid reach the code, ignoring
      case: two uuids sharing them give the same code. */
  lemma UfcCollision(a: string, b: string)
    requires |a| >= 4 && |b| >= 4
    ensures GenerateUfc(a) == GenerateUfc(b) <==> Upper(a[..4]) == Upper(b[..4])
  {
    if GenerateUfc(a) == GenerateUfc(b) {
      assert GenerateUfc(a)[4..] == Upper(a[..4]);
      assert GenerateUfc(b)[4..] == Upper(b[..4]);
    }
  }

  /** `add_replay(file_name, timestamp, video_link, description, tags)` at
      wall-clock time `now` with uuid text `uuidText`: appends one active row
      with `recorded = 0`, no renamed file name and a `date_added` stamp, and
      returns its code. A code already present in `replays` makes the insert
      fail and the catalogue stays as it was. */
  function AddReplay(c: Catalog, fileName: string, timestamp: string, videoLink: string,
                     description: string, tags: string, uuidText: string, now: Stamps.DateTime)
    : (r: Result<(Catalog, string), StoreError>)
    requires Stamps.Valid(now)
    ensures r.Ok? <==> !HasKey(c.replays, GenerateUfc(uuidText))
    ensures r.Err? ==> r.error == DuplicateUfc(GenerateUfc(uuidText))
    ensures r.Ok? ==>
      var (c', u) := r.value;
      && u == GenerateUfc(uuidText)
      && c'.bin == c.bin && c'.dbCode == c.dbCode
      && |c'.replays| == |c.replays| + 1
      && c'.replays[..|c.replays|] == c.replays
      && var row := c'.replays[|c.replays|];
         && row.ufc == u && row.fileName == Str(fileName) && row.timestamp == Str(timestamp)
         && row.videoLink == Str(videoLink) && row.extendedDesc == Str(description)
         && row.tags == Str(tags) && row.recorded == Num(0) && row.renamedFilename == Null
         && row.dateAdded == Str(Stamps.RecordStamp(now))
  {
    var u := GenerateUfc(uuidText);
    var row := Replay(Str(videoLink), Str(fileName), Str(timestamp), u, Str(description),
                      Num(0), Null, Str(Stamps.RecordStamp(now)), Str(tags));
    if HasKey(c.replays, u) then Err(DuplicateUfc(u))
    else
      assert (c.replays + [row])[..|c.replays|] == c.replays;
      Ok((c.(replays := c.replays + [row]), u))
  }

  /** `add_replay` as its caller in the main window evidently means to call
      it, with the code `u` chosen by the caller instead of a fresh one. */
  function AddReplayWithUfc(c: Catalog, fileName: string, timestamp: string, videoLink: string,
                            description: string, tags: string, u: string, now: Stamps.DateTime)
    : (r: Result<Catalog, StoreError>)
    requires Stamps.Valid(now)
    ensures r.Ok? <==> !HasKey(c.replays, u)
    ensures r.Err? ==> r.error == DuplicateUfc(u)
    ensures r.Ok? ==>
      && r.value.bin == c.bin && r.value.dbCode == c.dbCode
      && |r.value.replays| == |c.replays| + 1
      && r.value.replays[..|c.replays|] == c.replays
      && r.value.replays[|c.replays|].ufc == u
      && r.value.replays[|c.replays|].fileName == Str(fileName)
  {
    var row := Replay(Str(videoLink), Str(fileName), Str(timestamp), u, Str(description),
                      Num(0), Null, Str(Stamps.RecordStamp(now)), Str(tags));
    if HasKey(c.replays, u) then Err(DuplicateUfc(u))
    else
      assert (c.replays + [row])[..|c.replays|] == c.replays;
      Ok(c.(replays := c.replays + [row]))
  }

  /** `add_replay` is the code-taking variant applied to a fresh code. */
  lemma AddReplayIsWithFreshUfc(c: Catalog, fileName: string, timestamp: string, videoLink: string,
                                description: string, tags: string, uuidText: string, now: Stamps.DateTime)
    requires Stamps.Valid(now)
    ensures var r := AddReplay(c, fileName, timestamp, videoLink, description, tags, uuidText, now);
            var w := AddReplayWithUfc(c, fileName, timestamp, videoLink, description, tags, GenerateUfc(uuidText), now);
            r.Ok? == w.Ok? && (r.Ok? ==> r.value == (w.value, GenerateUfc(uuidText)))
  {
  }

  /** A new uuid whose first four characters match, ignoring case, those of
      the uuid behind an active code makes `add_replay` fail as a duplicate. */
  lemma AddReplayCollides(c: Catalog, fileName: string, timestamp: string, videoLink: string,
                          description: string, tags: string, first: string, uuidText: string, now: Stamps.DateTime)
    requires Stamps.Valid(now) && |first| >= 4 && |uuidText| >= 4
    requires HasKey(c.replays, GenerateUfc(first)) && Upper(first[..4]) == Upper(uuidText[..4])
    ensures AddReplay(c, fileName, timestamp, videoLink, description, tags, uuidText, now) ==
            Err(DuplicateUfc(GenerateUfc(first)))
  {
    UfcCollision(first, uuidText);
  }

  /** Two distinct uuids, "1a2b3c4d-..." and "1A2Bffff-...", give the same code. */
  lemma UfcCollisionExample()
    ensures GenerateUfc("1a2b3c4d") == GenerateUfc("1A2Bffff") == "UFC-1A2B"
  {
  }

  lemma AddReplayKeepsValid(c: Catalog, fileName: string, timestamp: string, videoLink: string,
                            description: string, tags: string, uuidText: string, now: Stamps.DateTime)
    requires Valid(c) && Stamps.Valid(now)
    ensures var r := AddReplay(c, fileName, timestamp, videoLink, description, tags, uuidText, now);
            r.Ok? ==> Valid(r.value.0)
  {
    var r := AddReplay(c, fileName, timestamp, videoLink, description, tags, uuidText, now);
    if r.Ok? {
      var rs := r.value.0.replays;
      var row := rs[|c.replays|];
      assert rs == c.replays + [row];
      AppendKeepsUniqueKeys(c.replays, row);
      assert TextColumns(row) by {
        forall f | f != Recorded ensures !Get(row, f).Num? {}
      }
    }
  }

  // ---------------------------------------------------------------------------
  // get_all_replays

  /** One dictionary of `get_all_replays`. */
  datatype ReplayRecord = ReplayRecord(
    fileName: string, timestamp: string, ufc: string, recorded: bool, videoLink: string,
    description: string, dateAdded: string, tags: string)

  /** `value or ""` for a TEXT column: NULL and the empty text both read as "". */
  function OrEmpty(v: Cell): (r: string)
    requires !v.Num?
    ensures v.Str? ==> r == v.s
    ensures v.Null? ==> r == ""
  {
    if v.Str? then v.s else ""
  }

  /** Python's `bool(value)` of the `recorded` cell. */
  predicate Truthy(v: Cell) {
    match v
    case Null => false
    case Num(n) => n != 0
    case Str(s) => s != ""
  }

  /** The record field that shows column `f`; `renamed_filename` is not read. */
  function Shown(rec: ReplayRecord, f: Field): Option<string> {
    match f
    case VideoLink => Some(rec.videoLink)
    case FileName => Some(rec.fileName)
    case Timestamp => Some(rec.timestamp)
    case ExtendedDesc => Some(rec.description)
    case DateAdded => Some(rec.dateAdded)
    case Tags => Some(rec.tags)
    case Recorded => None
    case RenamedFilename => None
  }

  function ToRecord(r: Replay): (rec: ReplayRecord)
    requires TextColumns(r)
    ensures rec.ufc == r.ufc
    ensures rec.recorded <==> Truthy(r.recorded)
    ensures forall f :: Shown(rec, f).Some? ==>
              (Get(r, f).Str? ==> Shown(rec, f).value == Get(r, f).s) &&
              (Get(r, f).Null? ==> Shown(rec, f).value == "")
  {
    assert !Get(r, FileName).Num? && !Get(r, Timestamp).Num? && !Get(r, VideoLink).Num?;
    assert !Get(r, ExtendedDesc).Num? && !Get(r, DateAdded).Num? && !Get(r, Tags).Num?;
    ReplayRecord(OrEmpty(r.fileName), OrEmpty(r.timestamp), r.ufc, Truthy(r.recorded),
                 OrEmpty(r.videoLink), OrEmpty(r.extendedDesc), OrEmpty(r.dateAdded), OrEmpty(r.tags))
  }

  /** `get_all_replays`: one record per active row, in table order; the bin is not read. */
  function GetAllReplays(c: Catalog): (r: seq<ReplayRecord>)
    requires Valid(c)
    ensures |r| == |c.replays|
    ensures forall k :: 0 <= k < |r| ==> r[k] == ToRecord(c.replays[k])
  {
    seq(|c.replays|, k requires 0 <= k < |c.replays| => ToRecord(c.replays[k]))
  }

  /** A freshly added replay reads back with the given texts and unrecorded. */
  lemma AddThenRead(c: Catalog, fileName: string, timestamp: string, videoLink: string,
                    description: string, tags: string, uuidText: string, now: Stamps.DateTime)
    requires Valid(c) && Stamps.Valid(now)
    requires !HasKey(c.replays, GenerateUfc(uuidText))
    ensures var c' := AddReplay(c, fileName, timestamp, videoLink, description, tags, uuidText, now).value.0;
            Valid(c') &&
            var rec := GetAllReplays(c')[|c.replays|];
            && rec == ReplayRecord(fileName, timestamp, GenerateUfc(uuidText), false, videoLink,
                                   description, Stamps.RecordStamp(now), tags)
            && GetAllReplays(c')[..|c.replays|] == GetAllReplays(c)
  {
    AddReplayKeepsValid(c, fileName, timestamp, videoLink, description, tags, uuidText, now);
    var c' := AddReplay(c, fileName, timestamp, videoLink, description, tags, uuidText, now).value.0;
    var all := GetAllReplays(c');
    var rec := all[|c.replays|];
    var row := c'.replays[|c.replays|];
    assert Shown(rec, FileName).value == fileName;
    assert Shown(rec, Timestamp).value == timestamp;
    assert Shown(rec, VideoLink).value == videoLink;
    assert Shown(rec, ExtendedDesc).value == description;
    assert Shown(rec, DateAdded).value == Stamps.RecordStamp(now);
    assert Shown(rec, Tags).value == tags;
    forall k | 0 <= k < |c.replays|
      ensures all[k] == GetAllReplays(c)[k]
    {
      assert c'.replays[k] == c'.replays[..|c.replays|][k];
    }
  }

  // ---------------------------------------------------------------------------
  // update_replay

  /** The `valid_fields` allow-list of `update_replay`. */
  predicate Editable(f: Field) {
    f == FileName || f == Timestamp || f == VideoLink || f == ExtendedDesc || f == Recorded || f == Tags
  }

  /** The value column `f` gets from the keyword arguments, or its old value. */
  function Pick(row: Replay, kwargs: map<string, Cell>, f: Field): Cell {
    if Editable(f) && ColumnName(f) in kwargs then Stored(f, kwargs[ColumnName(f)]) else Get(row, f)
  }

  /** The `SET` list of `update_replay` applied to one row. */
  function ApplyEdits(row: Replay, kwargs: map<string, Cell>): (r: Replay)
    ensures r.ufc == row.ufc
    ensures forall f :: !Editable(f) ==> Get(r, f) == Get(row, f)
    ensures forall f :: Editable(f) && ColumnName(f) !in kwargs ==> Get(r, f) == Get(row, f)
    ensures forall f :: Editable(f) && ColumnName(f) in kwargs ==> Get(r, f) == Stored(f, kwargs[ColumnName(f)])
  {
    Replay(Pick(row, kwargs, VideoLink), Pick(row, kwargs, FileName), Pick(row, kwargs, Timestamp),
           row.ufc, Pick(row, kwargs, ExtendedDesc), Pick(row, kwargs, Recorded),
           row.renamedFilename, row.dateAdded, Pick(row, kwargs, Tags))
  }

  /** `update_replay(ufc, recorded="0")` stores the integer 0, so the
      replay then reads back as not recorded. */
  lemma EditRecordedZeroText(row: Replay)
    requires TextColumns(row)
    ensures var r := ApplyEdits(row, map["recorded" := Str("0")]);
            r.recorded == Num(0) && TextColumns(r) && !ToRecord(r).recorded
  {
    var kwargs := map["recorded" := Str("0")];
    var r := ApplyEdits(row, kwargs);
    assert ColumnName(Recorded) in kwargs;
    RecordedTextExamples();
    forall f | f != Recorded ensures ColumnName(f) !in kwargs {
      if ColumnName(f) == ColumnName(Recorded) {
        ColumnNameInjective(f, Recorded);
      }
    }
  }

  /** Some keyword names an allow-listed column. */
  predicate AnyEditable(kwargs: map<string, Cell>) {
    exists f :: Editable(f) && ColumnName(f) in kwargs
  }

  /** `update_replay(ufc, **kwargs)`: only allow-listed keywords are written,
      only on the row whose key is `ufc`; everything else, including every
      other key such as `renamed_filename`, is ignored. An unknown `ufc`
      matches no row and nothing is raised. */
  function UpdateReplay(c: Catalog, ufc: string, kwargs: map<string, Cell>): (r: Catalog)
    ensures r.bin == c.bin && r.dbCode == c.dbCode
    ensures |r.replays| == |c.replays|
    ensures forall k :: 0 <= k < |c.replays| ==> r.replays[k].ufc == c.replays[k].ufc
    ensures forall k :: 0 <= k < |c.replays| && c.replays[k].ufc != ufc ==> r.replays[k] == c.replays[k]
    ensures forall k, f :: 0 <= k < |c.replays| && c.replays[k].ufc == ufc ==>
              Get(r.replays[k], f) ==
                (if Editable(f) && ColumnName(f) in kwargs then Stored(f, kwargs[ColumnName(f)])
                 else Get(c.replays[k], f))
  {
    if !AnyEditable(kwargs) then
      assert forall k :: 0 <= k < |c.replays| ==> ApplyEdits(c.replays[k], kwargs) == c.replays[k];
      c
    else
      c.(replays := seq(|c.replays|, k requires 0 <= k < |c.replays| =>
                          if c.replays[k].ufc == ufc then ApplyEdits(c.replays[k], kwargs) else c.replays[k]))
  }

  /** Two rows with the same key and the same columns are the same row. */
  lemma SameColumns(a: Replay, b: Replay)
    requires a.ufc == b.ufc && forall f :: Get(a, f) == Get(b, f)
    ensures a == b
  {
    assert Get(a, VideoLink) == Get(b, VideoLink) && Get(a, FileName) == Get(b, FileName);
    assert Get(a, Timestamp) == Get(b, Timestamp) && Get(a, ExtendedDesc) == Get(b, ExtendedDesc);
    assert Get(a, Recorded) == Get(b, Recorded) && Get(a, RenamedFilename) == Get(b, RenamedFilename);
    assert Get(a, DateAdded) == Get(b, DateAdded) && Get(a, Tags) == Get(b, Tags);
  }

  /** Keywords outside the allow-list change nothing at all. */
  lemma UpdateWithoutEditableKeysIsNoop(c: Catalog, ufc: string, kwargs: map<string, Cell>)
    requires forall f :: Editable(f) ==> ColumnName(f) !in kwargs
    ensures UpdateReplay(c, ufc, kwargs) == c
  {
  }

  /** The rename flow's `update_replay(ufc, renamed_filename=...)` leaves the
      catalogue exactly as it was. */
  lemma UpdateIgnoresRenamedFilename(c: Catalog, ufc: string, name: string)
    ensures UpdateReplay(c, ufc, map["renamed_filename" := Str(name)]) == c
  {
    UpdateWithoutEditableKeysIsNoop(c, ufc, map["renamed_filename" := Str(name)]);
  }

  /** An update for a key that is not active changes nothing. */
  lemma UpdateUnknownKeyIsNoop(c: Catalog, ufc: string, kwargs: map<string, Cell>)
    requires !HasKey(c.replays, ufc)
    ensures UpdateReplay(c, ufc, kwargs) == c
  {
    var r := UpdateReplay(c, ufc, kwargs);
    forall k | 0 <= k < |c.replays|
      ensures r.replays[k] == c.replays[k]
    {
      assert c.replays[k] in c.replays;
    }
  }

  lemma UpdateKeepsValid(c: Catalog, ufc: string, kwargs: map<string, Cell>)
    requires Valid(c)
    ensures Valid(UpdateReplay(c, ufc, kwargs))
  {
    var r := UpdateReplay(c, ufc, kwargs);
    forall x | x in r.replays
      ensures TextColumns(x)
    {
      var k :| 0 <= k < |r.replays| && r.replays[k] == x;
      assert c.replays[k] in c.replays;
      forall f | f != Recorded ensures !Get(x, f).Num? {
        if c.replays[k].ufc == ufc {
          assert Get(x, f) == (if Editable(f) && ColumnName(f) in kwargs then Stored(f, kwargs[ColumnName(f)])
                               else Get(c.replays[k], f));
        }
      }
    }
  }

  // ---------------------------------------------------------------------------
  // delete_replay and _move_to_recycle_bin

  /** The shape of `_move_to_recycle_bin` for a given bin-row builder: look the
      row up (absent: nothing happens), insert the bin row (its key already in
      the bin: the whole move fails), delete the active row. */
  function MoveWith(c: Catalog, ufc: string, build: Replay -> BinRow): Result<Catalog, StoreError> {
    match Find(c.replays, ufc)
    case None => Ok(c)
    case Some(row) =>
      var x := build(row);
      if InBin(c.bin, x.item.ufc) then Err(DuplicateUfc(x.item.ufc))
      else Ok(c.(replays := Without(c.replays, ufc), bin := c.bin + [x]))
  }

  /** The bin row `_move_to_recycle_bin` means to write: every column of the
      active row, then the deletion stamp as `deleted_date`. */
  function BinRowFor(row: Replay, stamp: string): BinRow {
    BinRow(row, Str(stamp))
  }

  /** Soft delete at time `now`: the row with key `ufc` leaves `replays` and the
      same row, stamped, is appended to `recycle_bin`. */
  function MoveToRecycleBin(c: Catalog, ufc: string, now: Stamps.DateTime): (r: Result<Catalog, StoreError>)
    requires Stamps.Valid(now)
    ensures !HasKey(c.replays, ufc) ==> r == Ok(c)
    ensures HasKey(c.replays, ufc) ==> (r.Err? <==> InBin(c.bin, ufc))
    ensures r.Err? ==> r.error == DuplicateUfc(ufc)
    ensures HasKey(c.replays, ufc) && r.Ok? ==>
      && r.value.dbCode == c.dbCode
      && (forall x :: x in r.value.replays <==> x in c.replays && x.ufc != ufc)
      && r.value.bin == c.bin + [BinRow(Find(c.replays, ufc).value, Str(Stamps.RecordStamp(now)))]
    ensures UniqueKeys(c.replays) && r.Ok? ==>
      forall i :: 0 <= i < |c.replays| && c.replays[i].ufc == ufc ==> r.value.replays == c.replays[..i] + c.replays[i + 1..]
  {
    var stamp := Stamps.RecordStamp(now);
    MoveWith(c, ufc, (row: Replay) => BinRowFor(row, stamp))
  }

  /** The bin row `_move_to_recycle_bin` actually writes. Its INSERT lists the
      columns as (..., date_added, deleted_date, tags) but passes the values
      as (*data, deleted_date), where `data` ends with `tags`; so the deletion
      stamp lands in `tags` and the row's tags land in `deleted_date`. */
  function BinRowAsWritten(row: Replay, stamp: string): (x: BinRow)
    ensures x.item.ufc == row.ufc
    ensures x.item.tags == Str(stamp) && x.deletedDate == row.tags
    ensures forall f :: f != Tags ==> Get(x.item, f) == Get(row, f)
  {
    BinRow(row.(tags := Str(stamp)), row.tags)
  }

  /** Soft delete with the column order as the source writes it. */
  function MoveToRecycleBinAsWritten(c: Catalog, ufc: string, now: Stamps.DateTime): (r: Result<Catalog, StoreError>)
    requires Stamps.Valid(now)
    ensures !HasKey(c.replays, ufc) ==> r == Ok(c)
    ensures HasKey(c.replays, ufc) ==> (r.Err? <==> InBin(c.bin, ufc))
    ensures r.Err? ==> r.error == DuplicateUfc(ufc)
    ensures HasKey(c.replays, ufc) && r.Ok? ==>
      && r.value.dbCode == c.dbCode
      && (forall x :: x in r.value.replays <==> x in c.replays && x.ufc != ufc)
      && r.value.bin == c.bin + [BinRowAsWritten(Find(c.replays, ufc).value, Stamps.RecordStamp(now))]
    ensures UniqueKeys(c.replays) && r.Ok? ==>
      forall i :: 0 <= i < |c.replays| && c.replays[i].ufc == ufc ==> r.value.replays == c.replays[..i] + c.replays[i + 1..]
  {
    var stamp := Stamps.RecordStamp(now);
    MoveWith(c, ufc, (row: Replay) => BinRowAsWritten(row, stamp))
  }

  lemma MoveKeepsValid(c: Catalog, ufc: string, now: Stamps.DateTime)
    requires Valid(c) && Stamps.Valid(now)
    ensures var r := MoveToRecycleBin(c, ufc, now); r.Ok? ==> Valid(r.value)
  {
    var r := MoveToRecycleBin(c, ufc, now);
    if r.Ok? && HasKey(c.replays, ufc) {
      var row := Find(c.replays, ufc).value;
      FilterKeepsUniqueKeys(c.replays, (x: Replay) => x.ufc != ufc);
      AppendKeepsUniqueBinKeys(c.bin, BinRow(row, Str(Stamps.RecordStamp(now))));
    }
  }

  /** The as-written soft delete also keeps the catalogue valid: the swapped
      columns still hold text. */
  lemma MoveAsWrittenKeepsValid(c: Catalog, ufc: string, now: Stamps.DateTime)
    requires Valid(c) && Stamps.Valid(now)
    ensures var r := MoveToRecycleBinAsWritten(c, ufc, now); r.Ok? ==> Valid(r.value)
  {
    var r := MoveToRecycleBinAsWritten(c, ufc, now);
    if r.Ok? && HasKey(c.replays, ufc) {
      var row := Find(c.replays, ufc).value;
      FilterKeepsUniqueKeys(c.replays, (x: Replay) => x.ufc != ufc);
      var x := BinRowAsWritten(row, Stamps.RecordStamp(now));
      assert row in c.replays && TextColumns(row);
      assert !Get(row, Tags).Num?;
      assert TextColumns(x.item) && !x.deletedDate.Num? by {
        forall f | f != Recorded
          ensures !Get(x.item, f).Num?
        {
          if f != Tags {
            assert Get(x.item, f) == Get(row, f);
          }
        }
      }
      AppendKeepsUniqueBinKeys(c.bin, x);
      assert r.value == c.(replays := Without(c.replays, ufc), bin := c.bin + [x]);
    }
  }

  /** The two bin-row layouts differ only in the row appended to the bin: the
      moves fail on the same input with the same error, and on success leave
      the same `replays` and database code. */
  lemma MovesAgreeOffTheBin(c: Catalog, ufc: string, now: Stamps.DateTime)
    requires Stamps.Valid(now)
    ensures var a := MoveToRecycleBinAsWritten(c, ufc, now);
            var b := MoveToRecycleBin(c, ufc, now);
            && (a.Ok? <==> b.Ok?)
            && (a.Err? ==> a.error == b.error)
            && (a.Ok? ==> a.value.(bin := b.value.bin) == b.value)
  {
    var stamp := Stamps.RecordStamp(now);
    match Find(c.replays, ufc)
    case None =>
    case Some(row) =>
      assert BinRowAsWritten(row, stamp).item.ufc == BinRowFor(row, stamp).item.ufc;
  }

  /** `delete_replay(ufc, permanent)`: a permanent delete removes the active row
      and leaves the bin alone; otherwise it calls `_move_to_recycle_bin`,
      which writes the bin row with its tag and stamp columns swapped. */
  function DeleteReplay(c: Catalog, ufc: string, permanent: bool, now: Stamps.DateTime): (r: Result<Catalog, StoreError>)
    requires Stamps.Valid(now)
    ensures permanent ==> r.Ok? && r.value.bin == c.bin && r.value.dbCode == c.dbCode
    ensures permanent ==> forall x :: x in r.value.replays <==> x in c.replays && x.ufc != ufc
    ensures permanent && UniqueKeys(c.replays) ==>
      forall i :: 0 <= i < |c.replays| && c.replays[i].ufc == ufc ==> r.value.replays == c.replays[..i] + c.replays[i + 1..]
    ensures !permanent ==> (r.Err? <==> HasKey(c.replays, ufc) && InBin(c.bin, ufc))
    ensures !permanent && r.Ok? && HasKey(c.replays, ufc) ==>
      r.value.bin == c.bin + [BinRowAsWritten(Find(c.replays, ufc).value, Stamps.RecordStamp(now))]
    ensures !permanent ==> r == MoveToRecycleBinAsWritten(c, ufc, now)
  {
    if permanent then Ok(c.(replays := Without(c.replays, ufc)))
    else MoveToRecycleBinAsWritten(c, ufc, now)
  }

  /** `delete_replay` as its authors mean it: the soft delete writes the bin
      row with every column in its place. */
  function DeleteReplayIntended(c: Catalog, ufc: string, permanent: bool, now: Stamps.DateTime): (r: Result<Catalog, StoreError>)
    requires Stamps.Valid(now)
    ensures permanent ==> r == DeleteReplay(c, ufc, permanent, now)
    ensures !permanent ==> (r.Err? <==> HasKey(c.replays, ufc) && InBin(c.bin, ufc))
    ensures !permanent && r.Ok? && HasKey(c.replays, ufc) ==>
      r.value.bin == c.bin + [BinRow(Find(c.replays, ufc).value, Str(Stamps.RecordStamp(now)))]
    ensures !permanent ==> r == MoveToRecycleBin(c, ufc, now)
  {
    if permanent then Ok(c.(replays := Without(c.replays, ufc)))
    else MoveToRecycleBin(c, ufc, now)
  }

  lemma DeleteKeepsValid(c: Catalog, ufc: string, permanent: bool, now: Stamps.DateTime)
    requires Valid(c) && Stamps.Valid(now)
    ensures var r := DeleteReplay(c, ufc, permanent, now); r.Ok? ==> Valid(r.value)
    ensures var r := DeleteReplayIntended(c, ufc, permanent, now); r.Ok? ==> Valid(r.value)
  {
    if permanent {
      FilterKeepsUniqueKeys(c.replays, (x: Replay) => x.ufc != ufc);
    } else {
      MoveAsWrittenKeepsValid(c, ufc, now);
      MoveKeepsValid(c, ufc, now);
    }
  }

  /** The main window's delete loop: one `delete_replay(ufc, permanent=False)`
      per selected key, each its own transaction stamped with its own
      `datetime.now()` reading `clock[k]`; the first failure stops the loop and
      the moves before it stay done. Each move writes the as-written bin row. */
  function DeleteAll(c: Catalog, ufcs: seq<string>, clock: seq<Stamps.DateTime>): (r: (Catalog, Option<StoreError>))
    requires |clock| == |ufcs| && forall k :: 0 <= k < |clock| ==> Stamps.Valid(clock[k])
    decreases |ufcs|
  {
    if |ufcs| == 0 then (c, None)
    else
      match MoveToRecycleBinAsWritten(c, ufcs[0], clock[0])
      case Err(e) => (c, Some(e))
      case Ok(c1) =>
        DeleteAll(c1, ufcs[1..], clock[1..])
  }

  /** A key missing from `replays` stays missing through further moves. */
  lemma {:induction false} DeleteAllKeepsAbsence(c: Catalog, ufcs: seq<string>, clock: seq<Stamps.DateTime>, u: string)
    requires |clock| == |ufcs| && forall k :: 0 <= k < |clock| ==> Stamps.Valid(clock[k])
    requires !HasKey(c.replays, u)
    ensures !HasKey(DeleteAll(c, ufcs, clock).0.replays, u)
    decreases |ufcs|
  {
    if |ufcs| > 0 {
      match MoveToRecycleBinAsWritten(c, ufcs[0], clock[0])
      case Err(_) =>
      case Ok(c1) =>
        assert !HasKey(c1.replays, u) by {
          forall x | x in c1.replays ensures x.ufc != u {
            assert x in c.replays;
          }
        }
        DeleteAllKeepsAbsence(c1, ufcs[1..], clock[1..], u);
    }
  }

  /** When the loop finishes without an error, none of the keys is active any more. */
  lemma {:induction false} DeleteAllRemoves(c: Catalog, ufcs: seq<string>, clock: seq<Stamps.DateTime>)
    requires |clock| == |ufcs| && forall k :: 0 <= k < |clock| ==> Stamps.Valid(clock[k])
    ensures var r := DeleteAll(c, ufcs, clock);
            r.1.None? ==> forall u :: u in ufcs ==> !HasKey(r.0.replays, u)
    decreases |ufcs|
  {
    if |ufcs| > 0 {
      match MoveToRecycleBinAsWritten(c, ufcs[0], clock[0])
      case Err(_) =>
      case Ok(c1) =>
        DeleteAllRemoves(c1, ufcs[1..], clock[1..]);
        DeleteAllKeepsAbsence(c1, ufcs[1..], clock[1..], ufcs[0]);
        assert forall u :: u in ufcs ==> u == ufcs[0] || u in ufcs[1..];
    }
  }

  // ---------------------------------------------------------------------------
  // get_all_tags

  /** The tags of every active row, in table order, repeats kept. */
  function AllSegments(rs: seq<Replay>): (r: seq<string>)
    ensures forall t :: t in r <==> exists x :: x in rs && x.tags.Str? && t in TagStrings.Segments(x.tags.s)
    decreases |rs|
  {
    if |rs| == 0 then []
    else
      var own := if rs[0].tags.Str? then TagStrings.Segments(rs[0].tags.s) else [];
      assert forall x :: x in rs <==> x == rs[0] || x in rs[1..];
      own + AllSegments(rs[1..])
  }

  /** `get_all_tags`: the distinct tags of active rows, sorted, compared
      case-sensitively; the bin is not read. */
  function GetAllTags(c: Catalog): (r: seq<string>)
    ensures StrictlySorted(r)
    ensures forall t :: t in r <==> exists x :: x in c.replays && x.tags.Str? && t in TagStrings.Segments(x.tags.s)
    ensures forall k :: 0 <= k < |r| ==> TagStrings.IsTag(r[k])
  {
    var r := SortedUnique(AllSegments(c.replays));
    forall k | 0 <= k < |r|
      ensures TagStrings.IsTag(r[k])
    {
      assert r[k] in r;
      var x :| x in c.replays && x.tags.Str? && r[k] in TagStrings.Segments(x.tags.s);
    }
    r
  }

  /** The tag list depends on the active rows alone. */
  lemma GetAllTagsIgnoresBin(c: Catalog, bin: seq<BinRow>)
    ensures GetAllTags(c.(bin := bin)) == GetAllTags(c)
  {
  }

  // ---------------------------------------------------------------------------
  // auto_cleanup_recycle_bin

  /** SQL's `deleted_date < threshold` for a TEXT threshold: NULL compares as
      unknown and is kept, any number sorts before any text, and two texts
      compare character by character. */
  predicate SqlLess(v: Cell, threshold: string) {
    match v
    case Null => false
    case Num(_) => true
    case Str(s) => LexLess(s, threshold)
  }

  /** `auto_cleanup_recycle_bin` with `threshold` = now − days: deletes exactly
      the bin rows whose `deleted_date` text sorts before the threshold's
      "%m-%d-%Y %H:%M:%S" text. Active rows are untouched. */
  function AutoCleanup(c: Catalog, threshold: Stamps.DateTime): (r: Catalog)
    requires Stamps.Valid(threshold)
    ensures r.replays == c.replays && r.dbCode == c.dbCode
    ensures forall x :: x in r.bin <==> x in c.bin && !SqlLess(x.deletedDate, Stamps.RecordStamp(threshold))
  {
    var t := Stamps.RecordStamp(threshold);
    c.(bin := Filter(c.bin, (x: BinRow) => !SqlLess(x.deletedDate, t)))
  }

  /** A deletion stamp that is chronologically older than `threshold`. */
  predicate Expired(v: Cell, threshold: Stamps.DateTime) {
    v.Str? && Stamps.ParseRecordStamp(v.s).Some? && Stamps.Before(Stamps.ParseRecordStamp(v.s).value, threshold)
  }

  /** The sweep as intended: deletes exactly the bin rows whose `deleted_date`
      is a stamp earlier in time than the threshold. */
  function AutoCleanupChronological(c: Catalog, threshold: Stamps.DateTime): (r: Catalog)
    ensures r.replays == c.replays && r.dbCode == c.dbCode
    ensures forall x :: x in r.bin <==> x in c.bin && !Expired(x.deletedDate, threshold)
  {
    c.(bin := Filter(c.bin, (x: BinRow) => !Expired(x.deletedDate, threshold)))
  }

  lemma AutoCleanupChronologicalKeepsValid(c: Catalog, threshold: Stamps.DateTime)
    requires Valid(c)
    ensures Valid(AutoCleanupChronological(c, threshold))
  {
    BinFilterKeepsUniqueKeys(c.bin, (x: BinRow) => !Expired(x.deletedDate, threshold));
  }

  /** The intended sweep removes a row exactly when its stamp is older in time. */
  lemma ChronologicalSweepIsExact(c: Catalog, threshold: Stamps.DateTime, t: Stamps.DateTime, x: BinRow)
    requires Stamps.Valid(t) && x in c.bin && x.deletedDate == Str(Stamps.RecordStamp(t))
    ensures x in AutoCleanupChronological(c, threshold).bin <==> !Stamps.Before(t, threshold)
  {
    Stamps.RecordStampRoundTrip(t);
  }
}

=== FILE: tagpicker.dfy ===
/** The tag picker of ui/dialogs/character_dialogs.py (`TagPickerDialog`).
    It lists the catalogue's tags, lets the user search and select them and
    type new ones, shows a preview of the tag string and, once accepted,
    hands that string back. A row's mark is its selection; Qt's
    `selectedItems()` is taken in list order. */
module TagPicker {
  import opened Text
  import opened TagStrings
  import opened ListItems
  import Seqs

  /** The dialog: the list, the new-tag box, the preview label and the tags
      chosen on accept. */
  datatype Picker = Picker(items: seq<Item>, input: string, preview: string, chosen: seq<string>, accepted: bool)

  /** The tags typed into the box: `[t.strip() for t in new.split(',') if
      t.strip()]` over the trimmed box, or none when the box is blank. */
  function NewTags(input: string): (r: seq<string>)
    ensures forall k :: 0 <= k < |r| ==> IsTag(r[k])
    ensures Strip(input) == [] ==> r == []
  {
    var typed := Strip(input);
    if typed != [] then Segments(typed) else []
  }

  /** The tags `_update_preview` and `_on_accept` both build: the selected
      list rows first, in list order, then the typed ones. */
  function Compose(p: Picker): (r: seq<string>)
    ensures |r| >= |NewTags(p.input)|
    ensures r[|r| - |NewTags(p.input)|..] == NewTags(p.input)
    ensures forall t :: t in r <==> t in Marked(p.items) || t in NewTags(p.input)
  {
    Marked(p.items) + NewTags(p.input)
  }

  /** `", ".join(tags)` when there are tags, else "". */
  function Show(tags: seq<string>): (r: string)
    ensures tags == [] ==> r == []
  {
    if tags != [] then JoinTags(tags) else ""
  }

  /** `_update_preview`. */
  function UpdatePreview(p: Picker): (r: Picker)
    ensures r.items == p.items && r.input == p.input && r.chosen == p.chosen && r.accepted == p.accepted
  {
    p.(preview := Show(Compose(p)))
  }

  /** `__init__` with the catalogue's tags and the replay's current tag
      string: every tag listed, visible and unselected, the box empty, and
      the current string shown as the preview. */
  function Open(allTags: seq<string>, currentTags: string): (p: Picker)
    ensures Texts(p.items) == allTags
    ensures forall i :: 0 <= i < |p.items| ==> !p.items[i].hidden && !p.items[i].marked
    ensures p.input == [] && p.preview == currentTags && p.chosen == [] && !p.accepted
  {
    var items := seq(|allTags|, i requires 0 <= i < |allTags| => Item(allTags[i], false, false));
    assert Texts(items) == allTags;
    Picker(items, "", currentTags, [], false)
  }

  /** `_filter_tags`: hides exactly the rows the search does not show; the
      selection and the preview stay as they were. */
  function FilterTags(p: Picker, search: string): (r: Picker)
    ensures r.items == Filter(p.items, search)
    ensures r.input == p.input && r.preview == p.preview && r.chosen == p.chosen && r.accepted == p.accepted
  {
    p.(items := Filter(p.items, search))
  }

  /** `_select_all`: selects every visible row, then refreshes the
      preview. */
  function SelectAll(p: Picker): (r: Picker)
    ensures r.items == MarkVisible(p.items)
    ensures r.input == p.input && r.chosen == p.chosen && r.accepted == p.accepted
    ensures r.preview == Show(Compose(r))
  {
    UpdatePreview(p.(items := MarkVisible(p.items)))
  }

  /** `_clear_selection`: nothing is selected, then the preview refreshes
      to the typed tags alone. */
  function ClearSelection(p: Picker): (r: Picker)
    ensures r.items == Unmark(p.items)
    ensures r.input == p.input && r.chosen == p.chosen && r.accepted == p.accepted
    ensures Compose(r) == NewTags(p.input)
    ensures r.preview == Show(NewTags(p.input))
  {
    var r := UpdatePreview(p.(items := Unmark(p.items)));
    assert Compose(r) == [] + NewTags(p.input);
    r
  }

  /** A click that selects or deselects one row; Qt reports the selection
      change and the preview refreshes. */
  function SetSelected(p: Picker, i: nat, on: bool): (r: Picker)
    requires i < |p.items|
    ensures r.items == p.items[i := p.items[i].(marked := on)]
    ensures r.input == p.input && r.chosen == p.chosen && r.accepted == p.accepted
    ensures r.preview == Show(Compose(r))
  {
    UpdatePreview(p.(items := p.items[i := p.items[i].(marked := on)]))
  }

  /** Typing in the new-tag box; its `textChanged` refreshes the preview. */
  function TypeTags(p: Picker, text: string): (r: Picker)
    ensures r.items == p.items && r.input == text && r.chosen == p.chosen && r.accepted == p.accepted
    ensures r.preview == Show(Compose(r))
  {
    UpdatePreview(p.(input := text))
  }

  /** `_on_accept`: the composed tags become the result. */
  function OnAccept(p: Picker): (r: Picker)
    ensures r.items == p.items && r.input == p.input && r.preview == p.preview
    ensures r.accepted && r.chosen == Compose(p)
  {
    p.(chosen := Compose(p), accepted := true)
  }

  /** `_on_double_click`: the clicked row's text alone is the result,
      whatever else is selected or typed. */
  function OnDoubleClick(p: Picker, i: nat): (r: Picker)
    requires i < |p.items|
    ensures r.items == p.items && r.input == p.input && r.preview == p.preview
    ensures r.accepted && r.chosen == [p.items[i].text]
  {
    p.(chosen := [p.items[i].text], accepted := true)
  }

  /** `get_selected_tags`. */
  function GetSelectedTags(p: Picker): (r: string)
    ensures p.chosen == [] ==> r == []
  {
    Show(p.chosen)
  }

  // ---------------------------------------------------------------------------
  // Properties

  /** The preview shows what accepting would hand back. */
  predicate InSync(p: Picker) {
    p.preview == GetSelectedTags(OnAccept(p))
  }

  /** Every refresh brings the preview in line with the result. */
  lemma UpdatesSync(p: Picker, i: nat, on: bool, text: string)
    requires i < |p.items|
    ensures InSync(SelectAll(p)) && InSync(ClearSelection(p))
    ensures InSync(SetSelected(p, i, on)) && InSync(TypeTags(p, text))
  {
    RefreshSyncs(p.(items := MarkVisible(p.items)));
    RefreshSyncs(p.(items := Unmark(p.items)));
    RefreshSyncs(p.(items := p.items[i := p.items[i].(marked := on)]));
    RefreshSyncs(p.(input := text));
  }

  lemma RefreshSyncs(q: Picker)
    ensures InSync(UpdatePreview(q))
  {
  }

  /** Searching changes neither the selection nor the box, so it keeps the
      preview in line: a selected row stays in the result when the search
      hides it. */
  lemma FilterKeepsResult(p: Picker, search: string)
    ensures Compose(FilterTags(p, search)) == Compose(p)
    ensures InSync(p) ==> InSync(FilterTags(p, search))
  {
    FilterKeepsMarked(p.items, search);
  }

  /** On opening, the preview is in line exactly when there is no current
      tag string: a non-empty one is shown although nothing is selected. */
  lemma OpenSyncedIff(allTags: seq<string>, currentTags: string)
    ensures InSync(Open(allTags, currentTags)) <==> currentTags == []
  {
    var p := Open(allTags, currentTags);
    NoneMarked(p.items);
  }

  /** Reading the result back the way the catalogue reads a tags column
      gives the composed tags again, provided the listed texts are tags (as
      the catalogue's tag list always is). */
  lemma ResultRoundTrip(p: Picker)
    requires forall i :: 0 <= i < |p.items| ==> IsTag(p.items[i].text)
    ensures Segments(GetSelectedTags(OnAccept(p))) == Compose(p)
  {
    var tags := Compose(p);
    forall k | 0 <= k < |tags| ensures IsTag(tags[k]) {
      assert tags[k] in tags;
      if tags[k] in Marked(p.items) {
        var i :| 0 <= i < |p.items| && p.items[i].marked && p.items[i].text == tags[k];
      } else {
        var n := NewTags(p.input);
        var j :| 0 <= j < |n| && n[j] == tags[k];
      }
    }
    if tags == [] {
      assert Segments("") == Keep([""]);
    } else {
      SegmentsOfJoin(tags);
    }
  }

  /** A double click hands back the clicked tag alone. */
  lemma DoubleClickRoundTrip(p: Picker, i: nat)
    requires i < |p.items| && IsTag(p.items[i].text)
    ensures GetSelectedTags(OnDoubleClick(p, i)) == p.items[i].text
    ensures Segments(GetSelectedTags(OnDoubleClick(p, i))) == [p.items[i].text]
  {
    SegmentsOfJoin([p.items[i].text]);
  }

  /** A blank search shows every row. */
  lemma BlankSearchShowsAll(p: Picker, search: string)
    requires Strip(Lower(search)) == []
    ensures forall i :: 0 <= i < |FilterTags(p, search).items| ==> !FilterTags(p, search).items[i].hidden
  {
    forall i | 0 <= i < |p.items| ensures Shows(p.items[i].text, search) {
      BlankSearchShows(p.items[i].text, search);
    }
  }

  /** Clearing, searching and selecting all picks exactly the listed tags
      the search shows, in list order, followed by the typed ones. */
  lemma SelectMatching(p: Picker, search: string)
    ensures Compose(SelectAll(FilterTags(ClearSelection(p), search))) ==
            Seqs.Filter(Texts(p.items), Matching(search)) + NewTags(p.input)
  {
    MarkMatching(p.items, search);
  }

  /** The dialog opened on the catalogue's tag list lists only tags, so its
      result always reads back as composed. */
  lemma OpenedOnCatalogueTags(allTags: seq<string>, currentTags: string)
    requires forall k :: 0 <= k < |allTags| ==> IsTag(allTags[k])
    ensures forall i :: 0 <= i < |Open(allTags, currentTags).items| ==> IsTag(Open(allTags, currentTags).items[i].text)
  {
    var p := Open(allTags, currentTags);
    forall i | 0 <= i < |p.items| ensures IsTag(p.items[i].text) {
      assert Texts(p.items)[i] == p.items[i].text;
    }
  }
}

=== FILE: tags.dfy ===
/** Tag strings. A replay's `tags` column is free text holding comma-separated
    tags; every reader splits it on ',', strips each piece and drops the empty
    ones (core/database.py `get_all_tags`, the table's tag filter and the tag
    picker), and the tag picker writes tags back joined with ", ". */
module TagStrings {
  import opened Text

  /** A tag as the picker produces and the readers keep: non-empty, stripped,
      and free of the ',' separator. */
  predicate IsTag(t: string) {
    t != [] && IsStripped(t) && ',' !in t
  }

  /** Strips every piece and drops those left empty. */
  function Keep(pieces: seq<string>): (r: seq<string>)
    requires forall k :: 0 <= k < |pieces| ==> ',' !in pieces[k]
    ensures |r| <= |pieces|
    ensures forall k :: 0 <= k < |r| ==> IsTag(r[k])
    decreases |pieces|
  {
    if |pieces| == 0 then []
    else
      var t := Strip(pieces[0]);
      StripSetKeepsAbsence(pieces[0], Spaces, ',');
      (if t == [] then [] else [t]) + Keep(pieces[1..])
  }

  /** `[t.strip() for t in s.split(',') if t.strip()]`. */
  function Segments(s: string): (r: seq<string>)
    ensures forall k :: 0 <= k < |r| ==> IsTag(r[k])
  {
    Keep(Split(s, ','))
  }

  /** `", ".join(tags)`. */
  function JoinTags(tags: seq<string>): string {
    Join(tags, ", ")
  }

  predicate AllSpace(pad: string) {
    forall i :: 0 <= i < |pad| ==> IsSpace(pad[i])
  }

  lemma SpacesHoldNoComma(pad: string, t: string)
    requires AllSpace(pad) && ',' !in t
    ensures ',' !in pad + t
  {
    forall i | 0 <= i < |pad| ensures pad[i] != ',' {
      assert IsSpace(pad[i]);
    }
  }

  /** Whitespace alone strips to nothing. */
  lemma StripSpaces(pad: string)
    requires AllSpace(pad)
    ensures Strip(pad) == []
  {
    var t := TrimStart(pad, Spaces);
    assert t == pad[|pad| - |t|..];
  }

  /** Reading back the padded join of no tags. */
  lemma SegmentsOfPaddedNone(pad: string)
    requires AllSpace(pad)
    ensures Segments(pad + JoinTags([])) == []
  {
    assert pad + JoinTags([]) == pad;
    SpacesHoldNoComma(pad, "");
    assert pad + "" == pad;
    SplitNoSep(pad, ',');
    StripSpaces(pad);
  }

  /** Reading back the padded join of one tag. */
  lemma SegmentsOfPaddedOne(pad: string, t: string)
    requires AllSpace(pad) && IsTag(t)
    ensures Segments(pad + JoinTags([t])) == [t]
  {
    assert pad + JoinTags([t]) == pad + t;
    SpacesHoldNoComma(pad, t);
    SplitNoSep(pad + t, ',');
    StripLeadingSpaces(pad, t);
  }

  /** Whitespace in front of a joined list does not change what is read back. */
  lemma {:induction false} SegmentsOfPaddedJoin(pad: string, tags: seq<string>)
    requires AllSpace(pad)
    requires forall k :: 0 <= k < |tags| ==> IsTag(tags[k])
    ensures Segments(pad + JoinTags(tags)) == tags
    decreases |tags|
  {
    if |tags| == 0 {
      SegmentsOfPaddedNone(pad);
    } else if |tags| == 1 {
      SegmentsOfPaddedOne(pad, tags[0]);
      assert tags == [tags[0]];
    } else {
      var t := tags[0];
      var rest := JoinTags(tags[1..]);
      JoinCons(pad, tags);
      SpacesHoldNoComma(pad, t);
      SplitAtSep(pad + t, ',', " " + rest);
      StripLeadingSpaces(pad, t);
      KeepCons(pad + t, Split(" " + rest, ','));
      SegmentsOfPaddedJoin(" ", tags[1..]);
      assert tags == [t] + tags[1..];
    }
  }

  lemma JoinCons(pad: string, tags: seq<string>)
    requires |tags| >= 2
    ensures pad + JoinTags(tags) == (pad + tags[0]) + [','] + (" " + JoinTags(tags[1..]))
  {
  }

  lemma KeepCons(a: string, rest: seq<string>)
    requires ',' !in a
    requires forall k :: 0 <= k < |rest| ==> ',' !in rest[k]
    requires Strip(a) != []
    ensures Keep([a] + rest) == [Strip(a)] + Keep(rest)
  {
    assert ([a] + rest)[1..] == rest;
  }

  /** Joining tags with ", " and reading the string back recovers the list. */
  lemma SegmentsOfJoin(tags: seq<string>)
    requires forall k :: 0 <= k < |tags| ==> IsTag(tags[k])
    ensures Segments(JoinTags(tags)) == tags
  {
    SegmentsOfPaddedJoin("", tags);
    assert "" + JoinTags(tags) == JoinTags(tags);
  }
}

=== FILE: text.dfy ===
/** ASCII string primitives with Python's meaning: `lower`, `upper`, `strip`,
    `split`, `join`, substring tests, `str(int)` and code-point ordering.
    Non-ASCII characters are left alone by the case mappings, which is where
    this model stops following Python's full Unicode tables. */
module Text {

  // ---------------------------------------------------------------------------
  // Character classes and case

  predicate IsUpper(c: char) { 'A' <= c <= 'Z' }
  predicate IsLower(c: char) { 'a' <= c <= 'z' }
  predicate IsLetter(c: char) { IsUpper(c) || IsLower(c) }
  predicate IsDigit(c: char) { '0' <= c <= '9' }

  /** Python's `str.isspace` restricted to ASCII: tab through carriage return,
      the four information separators 0x1C-0x1F, and the space. */
  predicate IsSpace(c: char) {
    c == ' ' || ('\t' <= c <= '\r') || ('\U{1C}' <= c <= '\U{1F}')
  }

  /** The characters a strip removes: Python's default whitespace for
      `strip()`, or one given character for `strip(ch)`. */
  datatype CharSet = Spaces | Only(ch: char)

  predicate In(c: char, cut: CharSet) {
    match cut
    case Spaces => IsSpace(c)
    case Only(d) => c == d
  }

  function LowerChar(c: char): (r: char)
    ensures !IsUpper(r)
    ensures IsLetter(c) <==> IsLetter(r)
    ensures !IsLetter(c) ==> r == c
  {
    if IsUpper(c) then (c as int + 32) as char else c
  }

  function UpperChar(c: char): (r: char)
    ensures !IsLower(r)
    ensures IsLetter(c) <==> IsLetter(r)
    ensures !IsLetter(c) ==> r == c
  {
    if IsLower(c) then (c as int - 32) as char else c
  }

  /** `s.lower()`. */
  function Lower(s: string): (r: string)
    ensures |r| == |s|
    ensures forall i :: 0 <= i < |s| ==> r[i] == LowerChar(s[i])
  {
    seq(|s|, i requires 0 <= i < |s| => LowerChar(s[i]))
  }

  /** `s.upper()`. */
  function Upper(s: string): (r: string)
    ensures |r| == |s|
    ensures forall i :: 0 <= i < |s| ==> r[i] == UpperChar(s[i])
  {
    seq(|s|, i requires 0 <= i < |s| => UpperChar(s[i]))
  }

  lemma LowerIdempotent(s: string)
    ensures Lower(Lower(s)) == Lower(s)
  {
  }

  lemma LowerAppend(a: string, b: string)
    ensures Lower(a + b) == Lower(a) + Lower(b)
  {
  }

  // ---------------------------------------------------------------------------
  // Stripping

  /** Drops leading characters that belong to `cut`. */
  function TrimStart(s: string, cut: CharSet): (r: string)
    ensures |r| <= |s| && r == s[|s| - |r|..]
    ensures r == [] || !In(r[0], cut)
    ensures forall i :: 0 <= i < |s| - |r| ==> In(s[i], cut)
  {
    if |s| > 0 && In(s[0], cut) then TrimStart(s[1..], cut) else s
  }

  /** Drops trailing characters that belong to `cut`. */
  function TrimEnd(s: string, cut: CharSet): (r: string)
    ensures |r| <= |s| && r == s[..|r|]
    ensures r == [] || !In(r[|r| - 1], cut)
    ensures forall i :: |r| <= i < |s| ==> In(s[i], cut)
  {
    if |s| > 0 && In(s[|s| - 1], cut) then TrimEnd(s[..|s| - 1], cut) else s
  }

  /** `s` has nothing that a strip of `cut` would remove. */
  predicate IsStrippedBy(s: string, cut: CharSet) {
    s == [] || (!In(s[0], cut) && !In(s[|s| - 1], cut))
  }

  /** Python's `s.strip(chars)` for the characters of `cut`, at both ends. */
  function StripSet(s: string, cut: CharSet): (r: string)
    ensures IsStrippedBy(r, cut)
  {
    TrimEnd(TrimStart(s, cut), cut)
  }

  /** Python's `s.strip()`. */
  function Strip(s: string): (r: string)
    ensures IsStrippedBy(r, Spaces)
  {
    StripSet(s, Spaces)
  }

  /** Stripping only removes characters: whatever is absent stays absent. */
  lemma StripSetKeepsAbsence(s: string, cut: CharSet, c: char)
    requires c !in s
    ensures c !in StripSet(s, cut)
  {
    var t := TrimStart(s, cut);
    var r := TrimEnd(t, cut);
    forall j | 0 <= j < |r|
      ensures r[j] != c
    {
      assert r[j] == t[j] == s[|s| - |t| + j];
    }
  }

  /** Stripping keeps every character that it does not cut. */
  lemma StripSetKeepsPresence(s: string, cut: CharSet, c: char)
    requires c in s && !In(c, cut)
    ensures c in StripSet(s, cut)
  {
    var i :| 0 <= i < |s| && s[i] == c;
    var t := TrimStart(s, cut);
    var r := TrimEnd(t, cut);
    var j := i - (|s| - |t|);
    assert t[j] == c;
    assert r[j] == c;
  }

  /** A strip is a contiguous piece of the text it strips. */
  lemma StripSetSlice(s: string, cut: CharSet)
    ensures var a := |s| - |TrimStart(s, cut)|;
            a + |StripSet(s, cut)| <= |s| && StripSet(s, cut) == s[a..a + |StripSet(s, cut)|]
  {
  }

  predicate IsStripped(s: string) {
    IsStrippedBy(s, Spaces)
  }

  /** Stripping something already stripped changes nothing. */
  lemma StripSetNoop(s: string, cut: CharSet)
    requires IsStrippedBy(s, cut)
    ensures StripSet(s, cut) == s
  {
  }

  /** A stripped non-empty word preceded by whitespace strips back to the word. */
  lemma {:induction false} StripLeadingSpaces(pad: string, w: string)
    requires forall i :: 0 <= i < |pad| ==> IsSpace(pad[i])
    requires w != [] && IsStripped(w)
    ensures Strip(pad + w) == w
    decreases |pad|
  {
    if pad == [] {
      assert pad + w == w;
      StripSetNoop(w, Spaces);
    } else {
      assert (pad + w)[0] == pad[0];
      assert (pad + w)[1..] == pad[1..] + w;
      StripLeadingSpaces(pad[1..], w);
    }
  }

  // ---------------------------------------------------------------------------
  // Substrings, prefixes and suffixes

  /** Python's `needle in hay` for strings. */
  predicate Contains(hay: string, needle: string)
    decreases |hay|
  {
    needle <= hay || (|hay| > 0 && Contains(hay[1..], needle))
  }

  /** `Contains` means some position of `hay` starts with `needle`. */
  lemma {:induction false} ContainsIff(hay: string, needle: string)
    ensures Contains(hay, needle) <==> exists i :: 0 <= i <= |hay| && needle <= hay[i..]
    decreases |hay|
  {
    assert hay[0..] == hay;
    if |hay| > 0 {
      ContainsIff(hay[1..], needle);
      forall i | 1 <= i <= |hay|
        ensures hay[1..][i - 1..] == hay[i..]
      {
      }
    }
  }

  /** The empty string is in every string, as in Python. */
  lemma ContainsEmpty(hay: string)
    ensures Contains(hay, "")
  {
  }

  /** Python's `s.endswith(suffix)`. */
  predicate EndsWith(s: string, suffix: string) {
    |suffix| <= |s| && s[|s| - |suffix|..] == suffix
  }

  // ---------------------------------------------------------------------------
  // Splitting and joining

  /** Python's `s.split(sep)` for a one-character separator: the pieces
      between separators, always at least one. */
  function Split(s: string, sep: char): (parts: seq<string>)
    ensures |parts| >= 1
    ensures forall k :: 0 <= k < |parts| ==> sep !in parts[k]
    decreases |s|
  {
    if |s| == 0 then [""]
    else
      var rest := Split(s[1..], sep);
      if s[0] == sep then [""] + rest
      else [[s[0]] + rest[0]] + rest[1..]
  }

  /** A string without the separator splits into itself. */
  lemma {:induction false} SplitNoSep(a: string, sep: char)
    requires sep !in a
    ensures Split(a, sep) == [a]
    decreases |a|
  {
    if |a| > 0 {
      SplitNoSep(a[1..], sep);
      assert [a[0]] + a[1..] == a;
    }
  }

  /** Splitting at a separator preceded by a separator-free piece. */
  lemma {:induction false} SplitAtSep(a: string, sep: char, b: string)
    requires sep !in a
    ensures Split(a + [sep] + b, sep) == [a] + Split(b, sep)
    decreases |a|
  {
    var s := a + [sep] + b;
    if |a| == 0 {
      assert s[0] == sep && s[1..] == b;
    } else {
      assert s[0] == a[0] && s[1..] == a[1..] + [sep] + b;
      SplitAtSep(a[1..], sep, b);
      assert [a[0]] + a[1..] == a;
    }
  }

  /** Python's `sep.join(parts)`. */
  function Join(parts: seq<string>, sep: string): string
    decreases |parts|
  {
    if |parts| == 0 then ""
    else if |parts| == 1 then parts[0]
    else parts[0] + sep + Join(parts[1..], sep)
  }

  /** Python's `s.split()` with no argument: the maximal runs of
      non-whitespace characters. */
  function Words(s: string): (ws: seq<string>)
    ensures forall k :: 0 <= k < |ws| ==> IsWord(ws[k])
    decreases |s|
  {
    if TrimStart(s, Spaces) == [] then []
    else
      var rest := Words(AfterFirstWord(s));
      var ws := [FirstWord(s)] + rest;
      assert forall k :: 0 <= k < |ws| ==> IsWord(ws[k]) by {
        forall k | 0 < k < |ws| ensures IsWord(ws[k]) {
          assert ws[k] == rest[k - 1];
        }
      }
      ws
  }

  /** The first word of `s`, once leading whitespace is skipped. */
  function FirstWord(s: string): (w: string)
    ensures TrimStart(s, Spaces) != [] ==> IsWord(w)
  {
    Word(TrimStart(s, Spaces))
  }

  /** What follows the first word of `s`. */
  function AfterFirstWord(s: string): (r: string)
    ensures TrimStart(s, Spaces) != [] ==> |r| < |s|
  {
    var t := TrimStart(s, Spaces);
    t[|Word(t)|..]
  }

  /** A non-empty run of non-whitespace characters. */
  predicate IsWord(w: string) {
    w != [] && forall j :: 0 <= j < |w| ==> !IsSpace(w[j])
  }

  /** The leading run of non-whitespace characters of `s`. */
  function Word(s: string): (w: string)
    ensures w <= s
    ensures forall j :: 0 <= j < |w| ==> !IsSpace(w[j])
    ensures |w| < |s| ==> IsSpace(s[|w|])
    ensures |s| > 0 && !IsSpace(s[0]) ==> |w| > 0
    decreases |s|
  {
    if |s| == 0 || IsSpace(s[0]) then "" else [s[0]] + Word(s[1..])
  }

  // ---------------------------------------------------------------------------
  // Decimal rendering, as Python's `str(int)`

  function Digit(d: nat): (c: char)
    requires d < 10
    ensures IsDigit(c)
  {
    ('0' as int + d) as char
  }

  function DigitValue(c: char): nat
    requires IsDigit(c)
  {
    c as int - '0' as int
  }

  lemma DigitRoundTrip(d: nat)
    requires d < 10
    ensures DigitValue(Digit(d)) == d
  {
  }

  /** `str(n)` for a natural number. */
  function Decimal(n: nat): (r: string)
    ensures |r| >= 1
    ensures n >= 10 ==> |r| >= 2
    ensures forall i :: 0 <= i < |r| ==> IsDigit(r[i])
    decreases n
  {
    if n < 10 then [Digit(n)] else Decimal(n / 10) + [Digit(n % 10)]
  }

  /** Distinct numbers print differently, so counter-suffixed names never repeat. */
  lemma {:induction false} DecimalInjective(a: nat, b: nat)
    requires Decimal(a) == Decimal(b)
    ensures a == b
    decreases a
  {
    if a < 10 && b < 10 {
      DigitRoundTrip(a);
      DigitRoundTrip(b);
    } else if a >= 10 && b >= 10 {
      var da, db := Decimal(a), Decimal(b);
      assert da[|da| - 1] == Digit(a % 10) && db[|db| - 1] == Digit(b % 10);
      DigitRoundTrip(a % 10);
      DigitRoundTrip(b % 10);
      assert da[..|da| - 1] == Decimal(a / 10);
      assert db[..|db| - 1] == Decimal(b / 10);
      DecimalInjective(a / 10, b / 10);
    }
  }

  /** `str(i)` for any integer. */
  function IntText(i: int): (r: string)
    ensures |r| >= 1
    ensures forall k :: 0 <= k < |r| ==> IsDigit(r[k]) || r[k] == '-'
  {
    if i < 0 then "-" + Decimal(-i) else Decimal(i)
  }

  // ---------------------------------------------------------------------------
  // Code-point ordering, as Python's `<` on `str`

  predicate LexLess(a: string, b: string)
    decreases |a|
  {
    if |a| == 0 then |b| > 0
    else if |b| == 0 then false
    else if a[0] != b[0] then a[0] < b[0]
    else LexLess(a[1..], b[1..])
  }

  lemma {:induction false} LexLessIrreflexive(a: string)
    ensures !LexLess(a, a)
    decreases |a|
  {
    if |a| > 0 {
      LexLessIrreflexive(a[1..]);
    }
  }

  lemma {:induction false} LexLessTransitive(a: string, b: string, c: string)
    requires LexLess(a, b) && LexLess(b, c)
    ensures LexLess(a, c)
    decreases |a|
  {
    if |a| > 0 && |b| > 0 && |c| > 0 && a[0] == b[0] && b[0] == c[0] {
      LexLessTransitive(a[1..], b[1..], c[1..]);
    }
  }

  lemma {:induction false} LexLessTotal(a: string, b: string)
    requires a != b
    ensures LexLess(a, b) || LexLess(b, a)
    decreases |a|
  {
    if |a| > 0 && |b| > 0 && a[0] == b[0] {
      assert a == [a[0]] + a[1..] && b == [b[0]] + b[1..];
      LexLessTotal(a[1..], b[1..]);
    }
  }

  lemma LexLessAsymmetric(a: string, b: string)
    requires LexLess(a, b)
    ensures !LexLess(b, a)
  {
    if LexLess(b, a) {
      LexLessTransitive(a, b, a);
      LexLessIrreflexive(a);
    }
  }

  predicate StrictlySorted(s: seq<string>) {
    forall i, j :: 0 <= i < j < |s| ==> LexLess(s[i], s[j])
  }

  /** A strictly sorted sequence repeats nothing. */
  lemma StrictlySortedDistinct(s: seq<string>)
    requires StrictlySorted(s)
    ensures forall i, j :: 0 <= i < j < |s| ==> s[i] != s[j]
  {
    forall i, j | 0 <= i < j < |s|
      ensures s[i] != s[j]
    {
      if s[i] == s[j] {
        LexLessIrreflexive(s[i]);
      }
    }
  }

  /** Inserts `x` into a strictly sorted sequence, keeping it strictly sorted
      and without a duplicate. */
  function InsertSorted(x: string, s: seq<string>): (r: seq<string>)
    requires StrictlySorted(s)
    ensures StrictlySorted(r)
    ensures forall y :: y in r <==> y == x || y in s
    decreases |s|
  {
    if |s| == 0 then [x]
    else if x == s[0] then s
    else if LexLess(x, s[0]) then
      BelowHeadBelowAll(x, s);
      LemmaPrependSorted(x, s);
      [x] + s
    else
      LexLessTotal(x, s[0]);
      var t := InsertSorted(x, s[1..]);
      assert forall y :: y in t ==> LexLess(s[0], y) by {
        forall y | y in t
          ensures LexLess(s[0], y)
        {
          if y != x {
            var i :| 0 <= i < |s[1..]| && s[1..][i] == y;
            assert s[i + 1] == y;
          }
        }
      }
      LemmaPrependSorted(s[0], t);
      assert StrictlySorted(s[1..]);
      [s[0]] + t
  }

  /** Something below the head of a strictly sorted sequence is below all of it. */
  lemma BelowHeadBelowAll(x: string, s: seq<string>)
    requires StrictlySorted(s) && |s| > 0 && LexLess(x, s[0])
    ensures forall y :: y in s ==> LexLess(x, y)
  {
    forall y | y in s
      ensures LexLess(x, y)
    {
      var j :| 0 <= j < |s| && s[j] == y;
      if j > 0 {
        LexLessTransitive(x, s[0], y);
      }
    }
  }

  /** Prepending an element below the head of a strictly sorted sequence. */
  lemma LemmaPrependSorted(x: string, s: seq<string>)
    requires StrictlySorted(s)
    requires forall y :: y in s ==> LexLess(x, y)
    ensures StrictlySorted([x] + s)
  {
    var r := [x] + s;
    forall i, j | 0 <= i < j < |r|
      ensures LexLess(r[i], r[j])
    {
      if i > 0 {
        assert r[i] == s[i - 1] && r[j] == s[j - 1];
      } else {
        assert r[j] == s[j - 1] && r[j] in s;
      }
    }
  }

  /** Python's `sorted(set(xs))`: the distinct elements in ascending order. */
  function SortedUnique(xs: seq<string>): (r: seq<string>)
    ensures StrictlySorted(r)
    ensures forall y :: y in r <==> y in xs
    decreases |xs|
  {
    if |xs| == 0 then []
    else
      var r := InsertSorted(xs[|xs| - 1], SortedUnique(xs[..|xs| - 1]));
      assert forall y :: y in xs <==> y in xs[..|xs| - 1] || y == xs[|xs| - 1] by {
        assert xs == xs[..|xs| - 1] + [xs[|xs| - 1]];
      }
      r
  }

  lemma HeadIn<T>(s: seq<T>)
    ensures |s| > 0 ==> s[0] in s
  {
  }

  /** A strictly sorted sequence is determined by its elements; so the order
      of the input to `SortedUnique` does not matter. */
  lemma {:induction false} StrictlySortedUnique(a: seq<string>, b: seq<string>)
    requires StrictlySorted(a) && StrictlySorted(b)
    requires forall y :: y in a <==> y in b
    ensures a == b
    decreases |a|
  {
    if |a| > 0 && |b| == 0 {
      HeadIn(a);
      assert false;
    }
    if |a| == 0 && |b| > 0 {
      HeadIn(b);
      assert false;
    }
    if |a| > 0 && |b| > 0 {
      assert a[0] in a && b[0] in b;
      var j :| 0 <= j < |b| && b[j] == a[0];
      var k :| 0 <= k < |a| && a[k] == b[0];
      if j > 0 && k > 0 {
        LexLessAsymmetric(a[0], a[k]);
        assert false;
      }
      assert a[0] == b[0];
      forall y | y in a[1..]
        ensures y in b[1..]
      {
        var i' :| 0 <= i' < |a[1..]| && a[1..][i'] == y;
        var i := i' + 1;
        assert a[i] == y && y in a && y in b;
        LexLessIrreflexive(a[0]);
        var m :| 0 <= m < |b| && b[m] == y;
        assert m > 0;
        assert b[1..][m - 1] == y;
      }
      forall y | y in b[1..]
        ensures y in a[1..]
      {
        var i' :| 0 <= i' < |b[1..]| && b[1..][i'] == y;
        var i := i' + 1;
        assert b[i] == y && y in b && y in a;
        LexLessIrreflexive(b[0]);
        var m :| 0 <= m < |a| && a[m] == y;
        assert m > 0;
        assert a[1..][m - 1] == y;
      }
      StrictlySortedUnique(a[1..], b[1..]);
      assert a == [a[0]] + a[1..] && b == [b[0]] + b[1..];
    }
  }
}

=== FILE: winpath.dfy ===
/** The part of Python's Windows path module (`ntpath`, as of Python 3.12)
    that the rename flow uses: `splitroot`, `split` (hence `dirname` and
    `basename`), `splitext` and two-argument `join`. Both '\' and '/'
    separate; a drive is "X:" or a UNC "\\server\share" prefix. */
module WinPath {
  import opened Text

  predicate IsSep(c: char) { c == '\\' || c == '/' }

  predicate NoSeps(s: string) {
    forall i :: 0 <= i < |s| ==> !IsSep(s[i])
  }

  /** `normp.find('\\', start)` on the text with '/' turned into '\': the
      first separator at or after `start`, or -1. */
  function FindSep(p: string, start: nat): (r: int)
    ensures r == -1 || (start <= r < |p| && IsSep(p[r]))
    ensures r == -1 ==> forall i :: start <= i < |p| ==> !IsSep(p[i])
    ensures r != -1 ==> forall i :: start <= i < r ==> !IsSep(p[i])
    decreases |p| - start
  {
    if start >= |p| then -1
    else if IsSep(p[start]) then start
    else FindSep(p, start + 1)
  }

  /** `normp[:8].upper() == '\\\\?\\UNC\\'`. */
  predicate UncPrefix(p: string) {
    |p| >= 8 && IsSep(p[0]) && IsSep(p[1]) && p[2] == '?' && IsSep(p[3]) &&
    UpperChar(p[4]) == 'U' && UpperChar(p[5]) == 'N' && UpperChar(p[6]) == 'C' && IsSep(p[7])
  }

  /** The drive, the root (one separator or nothing) and the rest. */
  datatype Parts = Parts(drive: string, root: string, path: string)

  /** `ntpath.splitroot`. */
  function SplitRoot(p: string): (r: Parts)
    ensures r.drive + r.root + r.path == p
    ensures r.root == [] || (|r.root| == 1 && IsSep(r.root[0]))
    ensures |p| > 0 && !IsSep(p[0]) ==> |r.drive| + |r.root| <= 3
  {
    if |p| >= 1 && IsSep(p[0]) then
      if |p| >= 2 && IsSep(p[1]) then SplitUnc(p)
      else
        Cut(p, 0);
        Parts("", p[..1], p[1..])
    else if |p| >= 2 && p[1] == ':' then
      if |p| >= 3 && IsSep(p[2]) then
        Cut(p, 2);
        Parts(p[..2], p[2..3], p[3..])
      else
        assert p[..2] + p[2..] == p;
        Parts(p[..2], "", p[2..])
    else Parts("", "", p)
  }

  /** The UNC case of `splitroot`: the drive runs to the separator after
      the share name, which is the root; without one, all of `p` is the
      drive. */
  function SplitUnc(p: string): (r: Parts)
    requires |p| >= 2 && IsSep(p[0]) && IsSep(p[1])
    ensures r.drive + r.root + r.path == p
    ensures r.root == [] || (|r.root| == 1 && IsSep(r.root[0]))
  {
    var start := if UncPrefix(p) then 8 else 2;
    var index := FindSep(p, start);
    if index == -1 then Parts(p, "", "")
    else
      var index2 := FindSep(p, index + 1);
      if index2 == -1 then Parts(p, "", "")
      else
        Cut(p, index2);
        Parts(p[..index2], p[index2..index2 + 1], p[index2 + 1..])
  }

  /** `p` cut around position `i`. */
  lemma Cut(p: string, i: nat)
    requires i < |p|
    ensures p[..i] + p[i..i + 1] + p[i + 1..] == p
  {
  }

  /** A name with neither a drive nor a root: `join` appends it. */
  predicate Relative(x: string) {
    (|x| == 0 || !IsSep(x[0])) && (|x| < 2 || x[1] != ':')
  }

  lemma RelativeSplitRoot(x: string)
    requires Relative(x)
    ensures SplitRoot(x) == Parts("", "", x)
  {
  }

  /** The position just past the last separator of `s`, or 0. */
  function AfterLastSep(s: string): (i: nat)
    ensures i <= |s|
    ensures i > 0 ==> IsSep(s[i - 1])
    ensures NoSeps(s[i..])
    decreases |s|
  {
    if |s| == 0 then 0
    else if IsSep(s[|s| - 1]) then |s|
    else
      var i := AfterLastSep(s[..|s| - 1]);
      assert s[i..] == s[..|s| - 1][i..] + [s[|s| - 1]];
      i
  }

  /** `s.rstrip('\\/')`. */
  function RStripSeps(s: string): (r: string)
    ensures |r| <= |s| && r == s[..|r|]
    ensures r == [] || !IsSep(r[|r| - 1])
    decreases |s|
  {
    if |s| > 0 && IsSep(s[|s| - 1]) then RStripSeps(s[..|s| - 1]) else s
  }

  /** `ntpath.split`: the head is the drive, the root and the directory part
      without trailing separators; the tail is the last component, which
      holds no separator. */
  function Split(p: string): (r: (string, string))
    ensures NoSeps(r.1)
    ensures EndsWith(p, r.1)
  {
    var parts := SplitRoot(p);
    var i := AfterLastSep(parts.path);
    assert p == parts.drive + parts.root + parts.path[..i] + parts.path[i..];
    (parts.drive + parts.root + RStripSeps(parts.path[..i]), parts.path[i..])
  }

  function Dirname(p: string): string { Split(p).0 }

  function Basename(p: string): string { Split(p).1 }

  /** The last position holding `c`, or -1. */
  function LastIndex(s: string, c: char): (r: int)
    ensures -1 <= r < |s|
    ensures r >= 0 ==> s[r] == c
    ensures forall i :: r < i < |s| ==> s[i] != c
    decreases |s|
  {
    if |s| == 0 then -1
    else if s[|s| - 1] == c then |s| - 1
    else LastIndex(s[..|s| - 1], c)
  }

  /** Some character of `s[lo..hi]` is not a dot. */
  predicate HasNonDot(s: string, lo: int, hi: int)
    requires 0 <= lo <= hi <= |s|
  {
    exists i :: lo <= i < hi && s[i] != '.'
  }

  /** `ntpath.splitext`: the extension starts at the last dot when that dot
      lies in the last component and some character before it in that
      component is not a dot; otherwise there is none. */
  function SplitExt(p: string): (r: (string, string))
    ensures r.0 + r.1 == p
    ensures r.1 == [] || (r.1[0] == '.' && NoSeps(r.1) && '.' !in r.1[1..])
  {
    var sepIndex := if LastIndex(p, '\\') < LastIndex(p, '/') then LastIndex(p, '/') else LastIndex(p, '\\');
    var dotIndex := LastIndex(p, '.');
    if dotIndex > sepIndex && HasNonDot(p, sepIndex + 1, dotIndex) then
      assert p[..dotIndex] + p[dotIndex..] == p;
      var e := p[dotIndex + 1..];
      assert forall i :: 0 <= i < |e| ==> e[i] == p[dotIndex + 1 + i];
      (p[..dotIndex], p[dotIndex..])
    else (p, "")
  }

  /** The path part of the left operand, with a separator added unless it
      is empty or already ends in one. */
  function WithSep(path: string): string {
    if path != [] && !IsSep(path[|path| - 1]) then path + "\\" else path
  }

  /** The end of `join`: a separator goes between a bare UNC drive and a
      non-empty relative path. */
  function FinishJoin(drive: string, root: string, path: string): string {
    if path != [] && root == [] && drive != [] && drive[|drive| - 1] !in ":\\/" then drive + "\\" + path
    else drive + root + path
  }

  /** `ntpath.join` on the split forms of its two operands. An absolute
      right operand replaces the left (keeping the left's drive when it has
      none); one on another drive replaces it; otherwise the right is
      appended to the left with a separator between. */
  function JoinParts(ra: Parts, rb: Parts): string {
    if rb.root != [] then
      var drive := if rb.drive != [] || ra.drive == [] then rb.drive else ra.drive;
      FinishJoin(drive, rb.root, rb.path)
    else if rb.drive != [] && rb.drive != ra.drive && Lower(rb.drive) != Lower(ra.drive) then
      FinishJoin(rb.drive, rb.root, rb.path)
    else
      var drive := if rb.drive != [] then rb.drive else ra.drive;
      FinishJoin(drive, ra.root, WithSep(ra.path) + rb.path)
  }

  /** `ntpath.join(a, b)`. */
  function Join(a: string, b: string): string {
    JoinParts(SplitRoot(a), SplitRoot(b))
  }

  /** The prefix that `join(a, x)` puts before a relative, non-empty `x`. */
  function JoinBase(ra: Parts): string {
    if ra.root == [] && ra.drive != [] && ra.drive[|ra.drive| - 1] !in ":\\/" then ra.drive + "\\" + WithSep(ra.path)
    else ra.drive + ra.root + WithSep(ra.path)
  }

  /** Joining a relative, non-empty name appends it to a prefix that depends
      on `a` alone. */
  lemma JoinRelative(a: string, x: string)
    requires x != [] && Relative(x)
    ensures Join(a, x) == JoinBase(SplitRoot(a)) + x
  {
    RelativeSplitRoot(x);
    JoinPartsRelative(SplitRoot(a), x);
  }

  lemma JoinPartsRelative(ra: Parts, x: string)
    requires x != []
    ensures JoinParts(ra, Parts("", "", x)) == JoinBase(ra) + x
  {
    var w := WithSep(ra.path);
    assert JoinParts(ra, Parts("", "", x)) == FinishJoin(ra.drive, ra.root, w + x);
    if ra.root == [] && ra.drive != [] && ra.drive[|ra.drive| - 1] !in ":\\/" {
      assert FinishJoin(ra.drive, ra.root, w + x) == ra.drive + "\\" + (w + x);
    } else {
      assert FinishJoin(ra.drive, ra.root, w + x) == ra.drive + ra.root + (w + x);
    }
  }

  /** A name whose second character is ':' has a drive of two characters. */
  lemma DriveSplitRoot(x: string)
    requires |x| >= 3 && !IsSep(x[0]) && x[1] == ':'
    ensures SplitRoot(x) == if IsSep(x[2]) then Parts(x[..2], x[2..3], x[3..]) else Parts(x[..2], "", x[2..])
  {
  }

  /** Whatever `x` is, provided it does not start with a separator, `join`
      keeps all of `x` after its first two characters, behind a prefix that
      depends on `a` and those first three characters only. */
  lemma JoinKeepsTail(a: string, x: string, y: string) returns (pre: string, m: nat)
    requires |x| >= 3 && |y| >= 3 && x[..3] == y[..3] && !IsSep(x[0])
    ensures m <= 2 && Join(a, x) == pre + x[m..] && Join(a, y) == pre + y[m..]
  {
    var ra := SplitRoot(a);
    assert x[0] == y[0] && x[1] == y[1] && x[2] == y[2];
    if x[1] != ':' {
      JoinRelative(a, x);
      JoinRelative(a, y);
      assert x[0..] == x && y[0..] == y;
      pre, m := JoinBase(ra), 0;
    } else {
      DriveSplitRoot(x);
      DriveSplitRoot(y);
      pre, m := JoinDrive(ra, x, y);
    }
  }

  lemma {:induction false} JoinDrive(ra: Parts, x: string, y: string) returns (pre: string, m: nat)
    requires |x| >= 3 && |y| >= 3 && x[..3] == y[..3] && x[1] == ':'
    ensures m <= 2
    ensures JoinParts(ra, if IsSep(x[2]) then Parts(x[..2], x[2..3], x[3..]) else Parts(x[..2], "", x[2..])) == pre + x[m..]
    ensures JoinParts(ra, if IsSep(y[2]) then Parts(y[..2], y[2..3], y[3..]) else Parts(y[..2], "", y[2..])) == pre + y[m..]
  {
    assert x[2] == y[2] && x[..2] == y[..2];
    if IsSep(x[2]) {
      assert x == x[..2] + x[2..3] + x[3..] && y == y[..2] + y[2..3] + y[3..];
      assert x[0..] == x && y[0..] == y;
      pre, m := "", 0;
    } else if x[..2] != ra.drive && Lower(x[..2]) != Lower(ra.drive) {
      assert x[..2] + x[2..] == x && y[..2] + y[2..] == y;
      assert x[0..] == x && y[0..] == y;
      pre, m := "", 0;
    } else {
      pre, m := x[..2] + ra.root + WithSep(ra.path), 2;
    }
  }

  // ---------------------------------------------------------------------------
  // dirname and basename of a join

  /** A UNC drive with nothing after it, such as "\\server\share". */
  predicate BareUncDrive(p: string) {
    |p| >= 2 && IsSep(p[0]) && IsSep(p[1]) && SplitRoot(p).root == []
  }

  /** `FindSep` only looks as far as the separator it finds. */
  lemma {:induction false} FindSepAgree(p: string, q: string, start: nat, k: int)
    requires 0 <= k <= |p| && k <= |q| && p[..k] == q[..k]
    requires start <= FindSep(p, start) < k
    ensures FindSep(q, start) == FindSep(p, start)
    decreases |p| - start
  {
    assert p[start] == p[..k][start] == q[..k][start] == q[start];
    if !IsSep(p[start]) {
      FindSepAgree(p, q, start + 1, k);
    }
  }

  /** The root text after the drive and root of a path, when that path is
      not a bare UNC drive, does not start with a separator unless the path
      has both a drive and a root. */
  lemma PathStart(p: string)
    requires !BareUncDrive(p)
    ensures var r := SplitRoot(p);
            (r.drive == [] || r.root == []) ==> r.path == [] || !IsSep(r.path[0])
    ensures var r := SplitRoot(p);
            r.drive == [] && r.root == [] ==> |r.path| < 2 || r.path[1] != ':'
  {
  }

  /** Replacing what follows the drive and root of `p` keeps the drive and
      the root, as long as the new text cannot be read as a root or a drive
      of its own. */
  lemma SplitRootRebuild(p: string, rest: string)
    requires !BareUncDrive(p)
    requires var r := SplitRoot(p); (r.drive == [] || r.root == []) ==> rest == [] || !IsSep(rest[0])
    requires var r := SplitRoot(p); r.drive == [] && r.root == [] ==> |rest| < 2 || rest[1] != ':'
    ensures var r := SplitRoot(p); SplitRoot(r.drive + r.root + rest) == Parts(r.drive, r.root, rest)
  {
    if |p| >= 2 && IsSep(p[0]) && IsSep(p[1]) {
      UncRebuild(p, rest);
    } else if |p| >= 1 && IsSep(p[0]) {
      RootRebuild(p, rest);
    } else if |p| >= 2 && p[1] == ':' {
      DriveRebuild(p, rest);
    } else {
      assert SplitRoot(p) == Parts([], [], p);
      assert [] + [] + rest == rest;
    }
  }

  lemma RootRebuild(p: string, rest: string)
    requires |p| >= 1 && IsSep(p[0]) && !(|p| >= 2 && IsSep(p[1]))
    requires rest == [] || !IsSep(rest[0])
    ensures var r := SplitRoot(p); SplitRoot(r.drive + r.root + rest) == Parts(r.drive, r.root, rest)
  {
    var r := SplitRoot(p);
    var q := r.drive + r.root + rest;
    assert q[0] == p[0];
    assert q[..1] == r.root && q[1..] == rest;
  }

  lemma DriveRebuild(p: string, rest: string)
    requires |p| >= 2 && !IsSep(p[0]) && p[1] == ':'
    requires !(|p| >= 3 && IsSep(p[2])) ==> rest == [] || !IsSep(rest[0])
    ensures var r := SplitRoot(p); SplitRoot(r.drive + r.root + rest) == Parts(r.drive, r.root, rest)
  {
    var r := SplitRoot(p);
    var q := r.drive + r.root + rest;
    assert q[..2] == p[..2];
    if |p| >= 3 && IsSep(p[2]) {
      assert q[2..3] == r.root && q[3..] == rest;
    } else {
      assert q[2..] == rest;
    }
  }

  lemma UncRebuild(p: string, rest: string)
    requires |p| >= 2 && IsSep(p[0]) && IsSep(p[1]) && !BareUncDrive(p)
    ensures var r := SplitRoot(p); SplitRoot(r.drive + r.root + rest) == Parts(r.drive, r.root, rest)
  {
    var start := if UncPrefix(p) then 8 else 2;
    var index := FindSep(p, start);
    var index2 := FindSep(p, index + 1);
    var r := Parts(p[..index2], p[index2..index2 + 1], p[index2 + 1..]);
    assert SplitRoot(p) == r;
    UncRebuildAt(p, rest, start, index, index2);
  }

  lemma UncRebuildAt(p: string, rest: string, start: nat, index: int, index2: int)
    requires |p| >= 2 && IsSep(p[0]) && IsSep(p[1])
    requires start == if UncPrefix(p) then 8 else 2
    requires index == FindSep(p, start) && index != -1
    requires index2 == FindSep(p, index + 1) && index2 != -1
    ensures var q := p[..index2] + p[index2..index2 + 1] + rest;
            SplitRoot(q) == Parts(p[..index2], p[index2..index2 + 1], rest)
  {
    var q := p[..index2] + p[index2..index2 + 1] + rest;
    var k := index2 + 1;
    Rebuilt(p, rest, index2);
    UncPrefixAgree(p, q, k, index, index2);
    FindSepAgree(p, q, start, k);
    FindSepAgree(p, q, index + 1, k);
    assert SplitRoot(q) == SplitUnc(q);
  }

  /** `p` up to and including position `i`, then `rest`. */
  lemma Rebuilt(p: string, rest: string, i: nat)
    requires i < |p|
    ensures var q := p[..i] + p[i..i + 1] + rest;
            q[..i + 1] == p[..i + 1] && (forall j :: 0 <= j <= i ==> q[j] == p[j]) &&
            q[..i] == p[..i] && q[i..i + 1] == p[i..i + 1] && q[i + 1..] == rest
  {
  }

  lemma UncPrefixAgree(p: string, q: string, k: int, sepA: int, sepB: int)
    requires 2 <= sepA < sepB < k <= |p| && k <= |q| && forall i :: 0 <= i < k ==> q[i] == p[i]
    requires IsSep(p[sepA]) && IsSep(p[sepB]) && (UncPrefix(p) ==> sepA >= 8)
    ensures UncPrefix(q) == UncPrefix(p)
  {
    if k < 8 {
      assert q[sepA] == p[sepA] && q[sepB] == p[sepB];
    } else {
      assert forall i :: 0 <= i < 8 ==> q[i] == p[i];
    }
  }

  /** The last separator of `a + x` is the last of `a` when `x` has none and
      `a` ends in one. */
  lemma {:induction false} AfterLastSepAppend(a: string, x: string)
    requires NoSeps(x) && (a == [] || IsSep(a[|a| - 1]))
    ensures AfterLastSep(a + x) == |a|
    decreases |x|
  {
    if x == [] {
      assert a + x == a;
    } else {
      var s := a + x;
      assert s[..|s| - 1] == a + x[..|x| - 1];
      assert s[|s| - 1] == x[|x| - 1];
      AfterLastSepAppend(a, x[..|x| - 1]);
    }
  }

  /** The directory text of `p` after its drive and root. */
  function DirPath(p: string): string {
    var r := SplitRoot(p);
    RStripSeps(r.path[..AfterLastSep(r.path)])
  }

  lemma DirPathStart(p: string)
    requires !BareUncDrive(p)
    ensures var r := SplitRoot(p); var h := DirPath(p);
            ((r.drive == [] || r.root == []) ==> h == [] || !IsSep(h[0])) &&
            (r.drive == [] && r.root == [] ==> |h| < 2 || h[1] != ':')
  {
    var r := SplitRoot(p);
    var h := DirPath(p);
    PathStart(p);
    assert h == [] || (h[0] == r.path[0] && (|h| < 2 || h[1] == r.path[1]));
  }

  /** The directory of `p` splits into the same drive and root. */
  lemma DirnameSplitRoot(p: string)
    requires !BareUncDrive(p)
    ensures var r := SplitRoot(p);
            Dirname(p) == r.drive + r.root + DirPath(p) &&
            SplitRoot(Dirname(p)) == Parts(r.drive, r.root, DirPath(p))
  {
    DirPathStart(p);
    SplitRootRebuild(p, DirPath(p));
  }

  /** Joining onto the directory of `p` puts a separator after the
      directory text (unless it is empty) and then the name. */
  lemma JoinOntoDirname(p: string, x: string)
    requires !BareUncDrive(p) && x != [] && Relative(x)
    ensures var r := SplitRoot(p);
            Join(Dirname(p), x) == r.drive + r.root + (WithSep(DirPath(p)) + x)
  {
    var r := SplitRoot(p);
    DirnameSplitRoot(p);
    JoinRelative(Dirname(p), x);
    DriveEnd(p);
    JoinBaseOf(r.drive, r.root, DirPath(p), x);
  }

  /** Unless `p` is a bare UNC drive, a drive without a root is "X:". */
  lemma DriveEnd(p: string)
    requires !BareUncDrive(p)
    ensures var r := SplitRoot(p); r.root == [] && r.drive != [] ==> r.drive[|r.drive| - 1] == ':'
  {
  }

  lemma JoinBaseOf(drive: string, root: string, h: string, x: string)
    requires root == [] && drive != [] ==> drive[|drive| - 1] == ':'
    ensures JoinBase(Parts(drive, root, h)) + x == drive + root + (WithSep(h) + x)
  {
  }

  lemma SplitOfRebuilt(drive: string, root: string, h: string, x: string)
    requires NoSeps(x) && (h == [] || !IsSep(h[|h| - 1]))
    ensures var ws := WithSep(h);
            AfterLastSep(ws + x) == |ws| && (ws + x)[..|ws|] == ws && (ws + x)[|ws|..] == x &&
            RStripSeps(ws) == h
  {
    var ws := WithSep(h);
    AfterLastSepAppend(ws, x);
    if h != [] {
      assert ws[..|ws| - 1] == h;
    }
  }

  /** Joining the directory of `p` with a plain file name `x`, then taking
      the directory and the base name again, gives back the directory of `p`
      and `x`: a join onto `dirname` keeps the directory. A bare UNC drive
      `p` is the exception. */
  lemma DirnameOfJoin(p: string, x: string)
    requires !BareUncDrive(p)
    requires x != [] && Relative(x) && NoSeps(x)
    ensures Dirname(Join(Dirname(p), x)) == Dirname(p)
    ensures Basename(Join(Dirname(p), x)) == x
  {
    var r := SplitRoot(p);
    var h := DirPath(p);
    DirnameSplitRoot(p);
    JoinOntoDirname(p, x);
    var rest := WithSep(h) + x;
    DirPathStart(p);
    RestStart(h, x);
    SplitRootRebuild(p, rest);
    SplitRebuilt(r.drive, r.root, h, x);
  }

  /** A directory text followed by a separator and a relative name starts
      as the directory text does. */
  lemma RestStart(h: string, x: string)
    requires x != [] && Relative(x) && (h == [] || !IsSep(h[|h| - 1]))
    ensures var rest := WithSep(h) + x;
            ((h == [] || !IsSep(h[0])) ==> !IsSep(rest[0])) &&
            ((|h| < 2 || h[1] != ':') ==> |rest| < 2 || rest[1] != ':')
  {
    var rest := WithSep(h) + x;
    if h == [] {
      assert rest == x;
    } else if |h| == 1 && !IsSep(h[0]) {
      assert rest[1] == '\\';
    } else {
      assert rest[0] == h[0];
      if |h| >= 2 {
        assert rest[1] == h[1];
      }
    }
  }

  lemma SplitRebuilt(drive: string, root: string, h: string, x: string)
    requires NoSeps(x) && (h == [] || !IsSep(h[|h| - 1]))
    requires SplitRoot(drive + root + (WithSep(h) + x)) == Parts(drive, root, WithSep(h) + x)
    ensures Split(drive + root + (WithSep(h) + x)) == (drive + root + h, x)
  {
    SplitOfRebuilt(drive, root, h, x);
  }

  /** An extension as `splitext` returns it: empty, or a dot followed by
      neither dots nor separators. */
  predicate IsExt(e: string) {
    e == [] || (e[0] == '.' && NoSeps(e) && '.' !in e[1..])
  }

  /** `splitext` finds an extension again after a stem whose last character
      is neither a dot nor a separator. */
  lemma SplitExtAfterStem(b: string, e: string)
    requires IsExt(e) && e != []
    requires b != [] && b[|b| - 1] != '.' && !IsSep(b[|b| - 1])
    ensures SplitExt(b + e) == (b, e)
  {
    var p := b + e;
    assert p[|b|] == '.';
    forall i | |b| < i < |p| ensures p[i] != '.' && !IsSep(p[i]) {
      assert p[i] == e[i - |b|] && e[1..][i - |b| - 1] == e[i - |b|];
    }
    assert p[|b| - 1] == b[|b| - 1];
    var sepIndex := if LastIndex(p, '\\') < LastIndex(p, '/') then LastIndex(p, '/') else LastIndex(p, '\\');
    assert LastIndex(p, '.') == |b|;
    assert sepIndex < |b| - 1;
    assert HasNonDot(p, sepIndex + 1, |b|) by {
      assert p[|b| - 1] != '.';
    }
    assert p[..|b|] == b && p[|b|..] == e;
  }
}
